=== FILE: README.md ===
# A model of the Vulkan engine's decision procedures

The engine is a Vulkan renderer that exists in several iterations side by
side. These are:

- the single-file `newVersion.cpp`;
- `src/resources` and `src/graphics`;
- `src/core` and `src/assets`;
- `src2`.

Underneath the Vulkan plumbing, every iteration makes a set of small
deterministic decisions. This project models those decisions in Dafny and
proves what they guarantee. Where the iterations differ, each one is its own
module or function.

- **Layout transitions** (`transitionImageLayout`). There are three variants.
  - `TransitionDeduce` covers `newVersion.cpp` and `src/resources`, whose code is textually the same.
  - `TransitionCore` covers `src/core`.
  - `TransitionSrc2` covers `src2`.
  - The override gate the last two share is in `TransitionGate`.
  - `BarrierSpec` states, per layout, which stages and accesses use it.
  - `TransitionCompare` relates the variants and the barriers each frame records.
- **Mip chains**.
  - `MipMath` covers the mip count and the halving of extents.
  - `MipPlan` covers the two barrier/blit schedules of `generateMipmaps`. They run over a per-level layout map.
  - `TextureUpload` covers `createTextureImage` and `createTextureImageView`.
- **Selections**.
  - `DeviceSelection`: the physical device and the MSAA sample count.
  - `QueueFamilies`: the queue families and the family-index lists derived from them.
  - `Formats`: supported formats, the depth format, stencil and memory types.
  - `Swapchain`: the swapchain choices and `recreateSwapChain`.
- **Frames**.
  - `FrameScheduler` covers `drawFrame` as a state machine over the counters and the fence states, with the synchronisation objects' valid-usage rules.
  - `MainLoop` covers the event loop around it.
- **Meshes**.
  - `Mesh` covers `loadModel`'s deduplication.
  - `ModelStorage` covers the model container.
- **Resource-manager housekeeping**.
  - `ResourceRules` covers sharing modes, allocation intent, command pools and buffers, `copyBuffer`'s command buffer and `createSyncObjects`.
  - `Staging` covers the staging-buffer lifecycle of the vertex and index uploads.

Vulkan flag masks are sets, so the empty flag set is `eNone`. Thrown
exceptions become the `Err` arm of a `Result`. There is one exception to
this. An out-of-date result of acquire or present is modelled as a returned
value, as the draw loops test for it. The vulkan-hpp RAII wrappers of the
default build throw it instead, and no draw loop catches it (see "## Left
out"). GPU work, driver answers and the results of foreign libraries are
inputs or recorded events.

**Other pairs into the depth layout.** The deducing variant assigns no masks
for a transition from any layout other than `Undefined` into the depth
layout. A caller might expect deduction or a rejection here; the code does
neither. It default-constructs `vk::Flags`, so the masks are the empty set
(`TransitionDeduce.OtherDepthPairIsUnordered`).

## Model

| member | source | states |
|---|---|---|
| TransitionDeduce.TableMasks | newVersion.cpp:1390-1423 | deduction has an arm for exactly five layout pairs: to transfer-destination, to shader-read, to colour attachment, attachment to present, and undefined to depth |
| TransitionDeduce.DepthAspects | newVersion.cpp:1412-1423 | a transition into the depth layout uses the depth aspect, plus stencil exactly when the preferred depth format has a stencil component; it fails when no depth format is supported |
| TransitionDeduce.TransitionImageLayout | newVersion.cpp:1367-1454 | an unlisted pair not into the depth layout is rejected even with all four overrides; otherwise each given override replaces only its own field, the rest are the deduced masks, the layouts are kept and the level count is the mip count |
| TransitionDeduce.TableOrdersLayoutUses | newVersion.cpp:1390-1423 | every deduced barrier makes the prior use of the old layout happen before the next use of the new one |
| TransitionDeduce.DeducedBarrierOrders | src/resources/ResourceManager.cpp:410-458 | without overrides, the recorded barrier of a listed pair orders the two layout uses |
| TransitionDeduce.OtherDepthPairIsUnordered | src/resources/ResourceManager.cpp:444-449 | any other pair into the depth layout is accepted with empty masks, which order nothing |
| TransitionDeduce.OverridesAreLocal | newVersion.cpp:1430-1438 | changing the overrides changes neither acceptance, layouts nor range; only the overridden fields differ |
| TransitionGate.GatedTransition | src/core/vk_resource_manager.cpp:632-683 | deduction runs only when both stage overrides are absent or empty; it then rejects unlisted pairs and ignores access overrides; with a stage override any pair is accepted with missing fields empty |
| TransitionGate.ExplicitNoneIsAbsent | src/core/vk_resource_manager.cpp:632-637 | an explicit empty stage override behaves exactly like an absent one |
| TransitionGate.AccessOverridesIgnoredWhenDeducing | src/core/vk_resource_manager.cpp:639-670 | while deduction runs, the access overrides have no effect on the result |
| TransitionGate.StageOverrideAcceptsAnyPair | src/core/vk_resource_manager.cpp:671-674 | a non-empty stage override makes every layout pair acceptable |
| TransitionCore.Table | src/core/vk_resource_manager.cpp:639-670 | the src/core table lists exactly four pairs |
| TransitionCore.TransitionImageLayout | src/core/vk_resource_manager.cpp:610-685 | rejection exactly when deduction runs on an unlisted pair; the aspect is passed through, the layouts are copied and the level count is the mip count |
| TransitionCore.TableOrdersLayoutUses | src/core/vk_resource_manager.cpp:650-661 | each src/core table entry orders the old layout's prior use before the new layout's next use |
| TransitionSrc2.Table | src2/core/vk_resource_manager.cpp:436-451 | the src2 table lists exactly three pairs |
| TransitionSrc2.TransitionImageLayout | src2/core/vk_resource_manager.cpp:409-465 | rejection exactly when deduction runs on an unlisted pair; the range is passed through with the level count set to the mip count |
| TransitionSrc2.TableOrdersLayoutUses | src2/core/vk_resource_manager.cpp:436-451 | each src2 table entry orders the two layout uses |
| TransitionSrc2.AttachmentPairsNeedStageOverride | src2/core/vk_resource_manager.cpp:452-454 | the colour-attachment and present transitions fail exactly when no stage override is given |
| TransitionCompare.Src2TableIsCoreWithoutColor | src2/core/vk_resource_manager.cpp:436-454 | the src2 table is the src/core table without the undefined-to-colour-attachment entry |
| TransitionCompare.DeducedPairsContainCorePairs | newVersion.cpp:1390-1411 | the deducing variant lists every src/core pair, plus only attachment-to-present |
| TransitionCompare.DeduceAndCoreTablesDiffer | src/core/vk_resource_manager.cpp:650-661 | on common pairs the tables agree, except that newVersion.cpp also waits in the compute stage before shader reads and src/core also makes depth reads visible |
| TransitionCompare.AcceptanceWithoutOverrides | src/core/vk_resource_manager.cpp:632-674 | without overrides each gated variant accepts exactly its listed pairs, and the deducing one its pairs plus any pair into the depth layout; acceptance grows from src2 to src/core to the deducing variant |
| TransitionCompare.OnlyDeduceRewritesAspect | src/core/vk_resource_manager.cpp:625-630 | a gated depth transition keeps the caller's aspect, while the deducing one always includes the depth aspect |
| TransitionCompare.EngineFrameTransitions | src/core/vk_engine.cpp:195-262 | the engine's two swapchain-image barriers per frame are accepted, chain undefined to attachment to present, and each orders its layout uses |
| TransitionCompare.ApplicationFrameTransitions | src/core/Application.cpp:166-232 | Application.cpp's two barriers are accepted by the deducing variant, and their overrides equal the deduced masks |
| Formats.FindSupportedFormat | src/resources/ResourceManager.cpp:194-207 | returns the first candidate whose features for the given tiling include all requested ones, and fails exactly when none does |
| Formats.FindDepthFormat | src/resources/ResourceManager.cpp:270-274 | the first of D32, D32S8 and D24S8 usable as an optimally tiled depth attachment; fails exactly when none is |
| Formats.HasStencilAgreesOnDepthCandidates | newVersion.cpp:1195-1197 | the two-format stencil test never reports a stencil component a format lacks, and matches the format table on all three depth candidates; it misses only D16_UNORM_S8_UINT and S8_UINT, which are not candidates |
| Formats.DepthFormatHasStencil | src/resources/ResourceManager.cpp:293-295 | the chosen depth format has stencil exactly when the plain 32-bit depth format is unsupported |
| Formats.FindMemoryType | src/resources/ResourceManager.cpp:209-218 | the least memory type allowed by the filter bit mask whose properties include the requested ones; an error exactly when none fits |
| MipMath.MipLevelsIsFloorLog2PlusOne | newVersion.cpp:916 | the mip count L satisfies 2^(L-1) <= max(w, h) < 2^L, i.e. it is floor(log2(max(w, h))) + 1 |
| MipMath.HalvingIsClampedShift | newVersion.cpp:989-996 | halving a side i times, while it exceeds 1, gives max(1, side >> i) |
| MipMath.LastLevelIsOnePixel | newVersion.cpp:916 | the longest side of the last mip level is exactly one pixel, and of the level before it at least two |
| MipPlan.HalvingBlitIsLevelExtent | newVersion.cpp:986-996 | blit k reads level k at its extent and writes level k+1 at its halved extent |
| MipPlan.GenerateMipmaps | newVersion.cpp:954-1029 | fails before recording exactly without linear-filter support; otherwise it takes every level from transfer-destination to shader-read; blits chain extents; every barrier orders its layout uses; each level becomes a blit source once |
| MipPlan.GenerateMipmapsInterleaved | src/assets/texture_manager.cpp:263-330 | the texture_manager.cpp schedule: the same failure rule and end state, with each level finished right after its blit and the last moved directly |
| TextureUpload.WrapInt32 | newVersion.cpp:909 | a value computed in 32-bit int keeps the values below 2^31 and wraps the next 2^31 to negatives |
| TextureUpload.ToDeviceSize | src/resources/TextureManager.cpp:57 | widening to the 64-bit unsigned device size keeps non-negative values and adds 2^64 to negatives |
| TextureUpload.Int32SizeIsExactIffItFits | src/resources/TextureManager.cpp:57-77 | the int-computed staging size is right exactly when the byte count fits in a 32-bit int; past that it becomes enormous |
| TextureUpload.LargeSquareTextureStagingSize | newVersion.cpp:909 | a 23171 x 23171 texture gets a staging size of 2^64 - 2147386332 instead of 2147580964 |
| TextureUpload.InitialBarrier | src/resources/TextureManager.cpp:92-95 | the initial barrier moves all mip levels from undefined to transfer-destination |
| TextureUpload.InitialBarrierPreparesEveryLevel | src/assets/texture_manager.cpp:69-70 | applied to a fresh image, the initial barrier leaves every level in transfer-destination |
| TextureUpload.AllocateMemory | src/resources/ResourceManager.cpp:104-109 | a buffer or image gets memory exactly when some memory type allowed by its requirements has the requested properties and the allocation succeeds; otherwise it fails with no-memory-type, or, when a type fits, with allocation-failed |
| TextureUpload.CreateTextureImage | src/resources/TextureManager.cpp:53-102 | success exactly when the file loads, linear filtering is supported and both the staging buffer and the image get memory. A failed load does no work. The early filtering check of two variants comes before any buffer exists. Each buffer and image handle exists before its memory step can throw. So a staging buffer without memory leaves its unfilled handle, and an image without memory leaves the filled staging buffer and the image handle. The late check comes after the upload. Success records the staging buffer created and filled, the image created and bound, then barrier, copy, submit and a chain that ends shader-readable |
| TextureUpload.ViewCoversShaderReadableLevels | src/assets/texture_manager.cpp:79-88 | after a successful upload, the texture view spans every level of the image, and each level it spans is shader-readable once the initial barrier and the mip chain have run |
| DeviceSelection.MaxUsableSampleCount | src/core/vk_device.cpp:130-143 | the largest of 64..2 that colour and depth both support, and 1 exactly when they share none |
| DeviceSelection.KeyIsScoreWithoutWrap | src/core/vk_device.cpp:157-165 | without overflow the score is 1000 for a discrete GPU plus the largest 2D image dimension |
| DeviceSelection.DiscreteOutranksUnlessDimensionsDifferBy1000 | src/graphics/VulkanContext.cpp:139-168 | a discrete GPU outranks another type exactly when the other's dimension is less than its own plus 1000 |
| DeviceSelection.BestIsUnique | src/core/vk_device.cpp:173-174 | the device the candidate map yields is unique |
| DeviceSelection.PickPhysicalDevice | src/core/vk_device.cpp:146-177 | fails on no devices and when no candidate scores positive; otherwise picks a geometry-shader device with the largest score, the last one of equal score |
| QueueFamilies.FirstPassing | src/core/vk_device.cpp:197-201 | the first family passing a test, or the list length when none does |
| QueueFamilies.SelectGraphicsPresent | src/core/vk_device.cpp:206-233 | fails exactly when graphics or presentation is missing; prefers one family doing both; otherwise the first graphics family and the first presenting one |
| QueueFamilies.DedicatedTransfer | src/core/vk_device.cpp:236-243 | the first transfer family without graphics, or UINT32_MAX when none exists |
| QueueFamilies.SelectQueues | src/graphics/VulkanContext.cpp:191-237 | the whole selection fails exactly when graphics or present fails; otherwise it combines both choices with the transfer search |
| QueueFamilies.TransferDiffersFromGraphics | src/core/vk_device.cpp:312-314 | a dedicated transfer family never equals the graphics family |
| QueueFamilies.StrictTransferComparison | newVersion.cpp:444-453 | excluding compute families finds a transfer family only where the looser search does, never earlier, and the same one when no candidate has compute |
| QueueFamilies.CreateInfoFamilies | src/core/vk_device.cpp:262-275 | queues are requested from graphics, plus the transfer family exactly when it exists and differs from graphics |
| QueueFamilies.QueueFamilyIndicesAsWritten | src/core/vk_device.cpp:326-335 | the index list starts with graphics and contains present and any valid transfer family |
| QueueFamilies.PresentOnTransferFamilyIsListedTwice | src/graphics/VulkanContext.cpp:309-318 | when the presenting family is the dedicated transfer family, the index list names it twice |
| QueueFamilies.PresentFamilyWithoutCreateInfo | src/core/vk_device.cpp:262-316 | a present family outside graphics and transfer gets no queue request, yet its queue is fetched |
| QueueFamilies.UniqueFamilies | src/core/vk_device.cpp:326-335 | each selected family exactly once, graphics first, with no duplicates |
| QueueFamilies.UniqueFamiliesCoverEveryQueue | src/graphics/VulkanContext.cpp:255-268 | the corrected list names every family a queue is fetched from, and equals the as-written lists in the cases where those are right |
| Swapchain.ChooseSwapSurfaceFormat | src/core/vk_swapchain.cpp:24-33 | returns the preferred sRGB BGRA format exactly when it is offered, otherwise the first offered format |
| Swapchain.ChooseSwapPresentMode | src/core/vk_swapchain.cpp:35-43 | mailbox exactly when offered, otherwise FIFO, whether or not FIFO is listed |
| Swapchain.ChooseSwapExtent | src/core/vk_swapchain.cpp:45-59 | the current extent unless its width is UINT32_MAX, otherwise the window size clamped per side into the allowed range |
| Swapchain.NegativeWindowSizeClampsToMaximum | src/graphics/SwapChain.cpp:34-49 | a negative window width, once converted to unsigned, clamps to the maximum width |
| Swapchain.ChooseImageCount | src/core/vk_swapchain.cpp:70-75 | at least three and at least the minimum, capped by a non-zero maximum |
| Swapchain.ImageCountIsAllowedCountClosestToThree | src/graphics/SwapChain.cpp:59-64 | for a valid surface the count is the allowed count closest to three |
| Swapchain.AddImageViews | src/core/vk_swapchain.cpp:107-117 | creating views appends one view per image to the existing views |
| Swapchain.RecreateSteps | src/graphics/SwapChain.cpp:103-116 | wait idle, clean up, create the swapchain, create the views; only src/graphics then rebuilds depth |
| Swapchain.RecreateLeavesOneViewPerImage | src/core/vk_swapchain.cpp:119-131 | after recreation there is exactly one view per new image |
| Swapchain.ViewsWithoutCleanupAccumulate | src/core/vk_swapchain.cpp:119-122 | without the clean-up step old views survive next to the new ones |
| ResourceRules.ImageSharing | src/core/vk_resource_manager.cpp:423-432 | concurrent over the device's family list exactly when the usage includes transfer and a dedicated transfer family exists; otherwise exclusive with no families |
| ResourceRules.PairSharing | src/assets/texture_manager.cpp:125-141 | the texture-manager rule: concurrent over exactly graphics and transfer under the same condition, which is always valid sharing |
| ResourceRules.ImageSharingCoversTransferOwners | src/resources/ResourceManager.cpp:235-243 | both image rules choose the same mode, and a concurrent image is shared by the graphics and transfer families |
| ResourceRules.BufferSharingAsWritten | src/core/vk_resource_manager.cpp:180-186 | buffers are always concurrent over the family list, which is valid only with at least two distinct families |
| ResourceRules.SingleFamilyBufferIsConcurrent | src/resources/ResourceManager.cpp:96-101 | on a device with one family, the buffer's concurrent sharing names a single family |
| ResourceRules.PairSharingIsValidForBuffers | src/assets/texture_manager.cpp:158-177 | the texture-manager rule is valid for every selection and shares with transfer exactly when needed |
| ResourceRules.SwapchainSharingValidIffDistinct | src/core/vk_swapchain.cpp:86-91 | choosing the swapchain's sharing mode by the length of the family list, and passing that list, is valid exactly when no family is listed twice; a concurrent swapchain is usable by every listed family |
| ResourceRules.SwapchainSharingForSelection | src/core/vk_swapchain.cpp:86-91 | over the device's as-written family list the swapchain is valid exactly when that list is distinct, which fails when present is also the transfer family; over the de-duplicated list it is always valid, and concurrent exactly when a family other than graphics is used |
| ResourceRules.MemoryIntent | src/core/vk_resource_manager.cpp:190-199 | host-visible memory is requested mapped with sequential writes; anything else prefers device memory with no flags |
| ResourceRules.UploadIntents | src/core/vk_resource_manager.cpp:246-257 | the staging properties give the mapped intent and device-local gives the device-preferring one |
| ResourceRules.TransferPoolFamily | src2/core/vk_resource_manager.cpp:62-73 | a transfer pool is created only for a family other than graphics, and always when a dedicated one exists |
| ResourceRules.AllocateCommandBuffers | src2/core/vk_resource_manager.cpp:75-92 | one graphics command buffer per frame in flight; transfer buffers exactly when a dedicated family exists, at most one per frame |
| ResourceRules.TransferBuffersHaveAPool | src/core/vk_resource_manager.cpp:141-168 | transfer command buffers are only allocated where a transfer pool exists |
| ResourceRules.PoolForMissingTransferFamily | src/resources/ResourceManager.cpp:56-67 | without a transfer family, a pool is created for family UINT32_MAX, which does not exist |
| ResourceRules.GuardedPoolFamilyExists | src/core/vk_resource_manager.cpp:123-139 | the guarded rule only creates pools for existing families |
| ResourceRules.CopyBufferAsWritten | src/core/vk_resource_manager.cpp:202-215 | copyBuffer always records into transfer command buffer 0 |
| ResourceRules.CopyWithoutTransferFamilyIndexesEmptyList | src2/core/vk_resource_manager.cpp:119-130 | without a dedicated transfer family no transfer command buffer exists, yet copyBuffer uses one |
| ResourceRules.CopyBufferFor | newVersion.cpp:774-790 | the corrected choice is always allocated, on transfer exactly when transfer buffers exist |
| ResourceRules.CopyBufferForIsAllocated | src/resources/ResourceManager.cpp:113-125 | the corrected choice is allocated for every variant, and equals the as-written one when a transfer family exists |
| ResourceRules.CreateSyncObjects | src2/core/vk_resource_manager.cpp:31-44 | whatever existed before, the result is one semaphore pair per swapchain image and MAX_FRAMES_IN_FLIGHT fences, all signalled: the objects the frame loop starts from and the engine rebuilds on recreation |
| Staging.RunEventsAppend | src/core/vk_resource_manager.cpp:231-268 | the allocator replays a concatenation as the second list from the first one's end |
| Staging.ReleaseStaging | src/core/vk_resource_manager.cpp:239-244 | the guarded release frees exactly the staging allocation and leaves the buffers |
| Staging.UploadBuffer | src/core/vk_resource_manager.cpp:271-308 | an upload fails exactly when an allocation fails; on success no staging allocation remains and the target buffer is set; the other buffer is untouched |
| Staging.UploadEventsAreSafe | src/core/vk_resource_manager.cpp:231-268 | every allocator call touches live allocations only, and the live set afterwards is what the members record, also on failure |
| Staging.UploadKeepsAllocationsTracked | src/core/vk_resource_manager.cpp:256-268 | uploading into an empty slot keeps every live allocation held by a member, even after a failure |
| Staging.RepeatedUploadOrphansPreviousBuffer | src/core/vk_resource_manager.cpp:295-297 | uploading into a filled slot overwrites its member while the previous buffer stays allocated |
| Staging.VertexThenIndexUpload | src/core/vk_resource_manager.cpp:271-307 | the vertex upload and then the index upload end with two distinct device buffers and no staging buffer |
| FrameScheduler.Settle | newVersion.cpp:1541 | waiting idle lets every pending fence signal and leaves the others alone |
| FrameScheduler.Recreated | newVersion.cpp:1540-1548 | recreation keeps both counters and takes the new image count |
| FrameScheduler.DrawFrame | newVersion.cpp:1283-1349 | fence wait first; an out-of-date acquire only recreates, advancing nothing; a completed frame submits and presents and advances both counters modulo their sizes; a failed acquire or present is an error |
| FrameScheduler.ResetOnlyAfterWait | src/core/Application.cpp:87-105 | a fence is reset only after the same frame waited on it |
| FrameScheduler.InitialSatisfiesInv | newVersion.cpp:1218-1231 | after createSyncObjects, with at least one image per frame slot, the loop invariant holds |
| FrameScheduler.RecreatedKeepsInv | src/core/vk_engine.cpp:5-11 | recreation keeps the invariant when the engine rebuilds the objects, or when the image count does not outgrow the semaphores |
| FrameScheduler.FrameKeepsInv | src/core/vk_engine.cpp:121-187 | every frame follows valid usage for fences and semaphores and keeps the invariant: counters in range, no fence left unsignalled without pending work |
| FrameScheduler.FirstFrameGrowsSwapchain | newVersion.cpp:1336-1340 | a suboptimal present on three images that recreates with four images leaves the semaphores for three in place. An out-of-date present, where it is returned, reaches the same state. The default build returns suboptimal and throws out-of-date |
| FrameScheduler.LastImageFrameFails | newVersion.cpp:1311-1331 | the next frame acquiring image 3 then signals a render-finished semaphore that does not exist |
| FrameScheduler.GrownSwapchainOutrunsSemaphores | newVersion.cpp:1540-1548 | after the swapchain grows, that frame breaks valid usage exactly in the loops that do not rebuild the synchronisation objects |
| MainLoop.Poll | src/core/vk_engine.cpp:92-111 | draining the events sets quit exactly on a quit request and recreates once per resize event, only in the engine |
| MainLoop.PollMinimizedIsLastToggle | src/core/vk_engine.cpp:100-103 | the minimised flag after polling is what the latest minimise or restore event says |
| MainLoop.Iteration | src/core/Application.cpp:260-277 | an iteration draws exactly when neither minimised nor quitting, and sleeps otherwise |
| MainLoop.WaitIdleExactlyAfterQuit | src/core/Application.cpp:276-277 | the device waits idle exactly when a quit was requested, as the loop's last action |
| MainLoop.ResizeIgnoredOutsideEngine | newVersion.cpp:1237-1277 | outside the engine a resize never triggers recreation from the loop |
| MainLoop.EngineRecreatesBeforeDrawing | src/core/vk_engine.cpp:60-119 | in an engine iteration each resize recreates once, before the draw or sleep |
| ModelStorage.SetModelData | src/assets/model_storage.cpp:5-8 | both lists are replaced by the arguments |
| ModelStorage.Clear | src/assets/model_storage.cpp:10-13 | both lists end empty |
| ModelStorage.EmptyAfterClearNotAfterSet | src/assets/model_storage.cpp:5-17 | empty after clear, and not empty after storing exactly when both stored lists are non-empty |
| ModelStorage.SetModelDataOverwrites | src/assets/model_storage.cpp:5-13 | storing twice, or after clear, keeps only the last data |
| Mesh.Flatten | src/assets/assets_loader.cpp:45-46 | all corners of all shapes in traversal order; their number is the total index count |
| Mesh.Assemble | src/assets/assets_loader.cpp:45-60 | one vertex per corner, in traversal order |
| Mesh.AssembledVerticesAreWhiteAndFlipped | src/assets/assets_loader.cpp:49-60 | each assembled vertex is white, has the file's position, and the file's texture v flipped |
| Mesh.FirstOccurrencesFacts | src/assets/assets_loader.cpp:62-65 | the reference list holds every assembled vertex, each exactly once |
| Mesh.Expand | src/assets/assets_loader.cpp:66 | expanding an index list gives one vertex per index |
| Mesh.AppendDeduplicated | src/assets/assets_loader.cpp:62-66 | vertices gain the distinct assembled vertices in first-appearance order; every new index is in range and points at the vertex of its corner |
| Mesh.LoadModel | src/assets/assets_loader.cpp:31-72 | a parse failure throws its error; otherwise storage holds distinct vertices and in-range indices that expand back to the assembled corners |
| Mesh.LoadModelAppending | src2/assets/assets_loader.cpp:29-67 | the member-vector variant appends: old contents kept, indices grow by the index count and point at matching vertices |
| Mesh.ReloadRepeatsVertices | src2/assets/assets_loader.cpp:34-62 | loading the same model twice into the member vectors lists its vertices twice |

## Left out

- Instance, debug messenger and surface creation: they are calls into the Vulkan loader with no decisions.
- `newMain.cpp` is not part of this model. It delegates device setup to an external library.
- The VMA allocator wrapper, command recording, queue submission and presentation are not modelled as execution. They appear as recorded events or as the allocator's and driver's answers, which may refuse an allocation.
- GPU-side fence and semaphore signalling is not modelled concurrently. A submitted fence is `Pending`, and waiting or waiting idle settles it.
- `updateUniformBuffer`, the viewport values and all glm math are left out. They are floating-point math on wall-clock time.
- Pipeline and descriptor-set construction is left out: it fills static structures.
- SDL windowing, timing, `SDL_Delay`, FPS counting, the window title and logging are left out. Window events are the loop's input.
- OBJ parsing (tinyobj) and PNG decoding (stb_image) are foreign libraries. Their results are inputs, and the OBJ attributes are assumed to resolve (`Mesh.WellFormed`).
- Vertex hashing is left out. Vertices are compared by value, and the float attributes are reals, so NaN and negative zero are not modelled.
- The floating-point `log2` of the mip count is replaced by the bit length of `max(w, h)`. The two agree on the positive `int` sides a decoder reports.
- The `uint32_t` cast of mesh indices is not modelled. The indices are natural numbers.
- DeviceSelection.PickPhysicalDevice: requires that the list is empty or holds a geometry-shader device. With devices but no candidate the source reads `rbegin()` of an empty map, which is undefined.
- Swapchain.ChooseSwapSurfaceFormat: requires a non-empty format list, because the source reads element 0 unchecked.
- Swapchain.ChooseSwapExtent: requires min <= max on the clamping path, because `std::clamp` is undefined otherwise. It also requires window sizes within `int` range.
- TextureUpload.CreateTextureImage: whether the driver grants an allocation is an input, not derived from the requested size. The near-2^64 staging size of the 32-bit variants therefore fails only when that answer says so.
- Formats the engine never names, other than the four with a stencil component, are a single `OtherFormat` case without stencil bits.
- TextureUpload.WrapInt32: models the signed overflow as two's-complement wrap-around. That is what the targeted compilers produce, although C++ leaves it undefined.
- FrameScheduler.FrameKeepsInv: assumes the driver's promises. The acquired image exists, and a recreated swapchain has at least one image per frame slot (`DriverContract`).
- FrameScheduler.DrawFrame: requires a shaped state: the slot has a fence and there is at least one semaphore. It treats an out-of-date acquire or present as a returned result, as the draw loops' branches expect. In the default vulkan-hpp RAII build (newVersion.cpp:1 and src/pch.h:29-30 leave `VULKAN_HPP_HANDLE_ERROR_OUT_OF_DATE_AS_SUCCESS` undefined) both calls throw `vk::OutOfDateKHRError`. The only handlers, newVersion.cpp:1571 and src2/main.cpp:41, end the program. So the out-of-date arms model the loops' intent, not the default build; the suboptimal arms are reached in both.
- The depth, colour and uniform-buffer rebuilds of `rebuildSwapchainResources` appear only as recreation events; their contents are not modelled.

## Findings

| source | as written | input that shows it | evidently intended | confidence | as-written member | corrected member |
|---|---|---|---|---|---|---|
| src/resources/TextureManager.cpp:57 | the staging size `texWidth * texHeight * 4` is computed in 32-bit `int` and then widened | a 23171 x 23171 texture | the 64-bit product, as texture_manager.cpp computes it | not executed | TextureUpload.LargeSquareTextureStagingSize | TextureUpload.Int32SizeIsExactIffItFits |
| src/resources/ResourceManager.cpp:56-67 | a transfer command pool is created whenever the transfer index differs from graphics, including UINT32_MAX | a device whose one family does graphics, compute and transfer | create the pool only for an existing dedicated family, as src/core and src2 do | not executed | ResourceRules.PoolForMissingTransferFamily | ResourceRules.GuardedPoolFamilyExists |
| newVersion.cpp:1540-1548 | recreateSwapChain keeps the semaphores sized for the start-up image count | three images at start-up, four after a suboptimal present, then image 3 acquired | recreate the sync objects for the new count, as vk_engine.cpp does | not executed | FrameScheduler.GrownSwapchainOutrunsSemaphores | FrameScheduler.FrameKeepsInv |
| src/core/vk_device.cpp:326-335 | the family-index list adds the present family when it differs from graphics, even if it is the transfer family | graphics family without present, and a compute+transfer family that presents | list each family once | not executed | QueueFamilies.PresentOnTransferFamilyIsListedTwice | QueueFamilies.UniqueFamilies |
| src/core/vk_device.cpp:262-275 | queues are requested only from graphics and transfer, but the present queue is fetched from the present family | graphics without present, a transfer family, and a presenting compute family | request a queue from every distinct family used | not executed | QueueFamilies.PresentFamilyWithoutCreateInfo | QueueFamilies.UniqueFamiliesCoverEveryQueue |
| src/core/vk_resource_manager.cpp:180-186 | buffers are always created with concurrent sharing over the family list | a device with one family doing everything | exclusive sharing when fewer than two families are involved | not executed | ResourceRules.SingleFamilyBufferIsConcurrent | ResourceRules.PairSharingIsValidForBuffers |
| src/core/vk_resource_manager.cpp:202-215 | copyBuffer records into transfer command buffer 0 unconditionally | a device without a dedicated transfer family | fall back to a graphics command buffer | not executed | ResourceRules.CopyWithoutTransferFamilyIndexesEmptyList | ResourceRules.CopyBufferForIsAllocated |

=== FILE: barrier_spec.dfy ===
/** A reference for what an image layout transition has to order, independent
    of any of the engine's tables. Following the "Image Layout Transitions"
    rules of the Vulkan specification's synchronisation chapter, a barrier's
    first scope must contain the accesses that last used the image in its old
    layout, and its second scope must contain the accesses that will next use
    it in the new layout. */
module BarrierSpec {
  import opened VkTypes

  /** A set of pipeline stages together with the memory accesses they perform. */
  datatype Use = Use(stages: StageMask, accesses: AccessMask)

  /** How the engine last touched an image that is in layout `l`.
      An undefined image holds nothing worth waiting for: top of pipe, no access. */
  function PriorUse(l: ImageLayout): Use {
    match l
    case Undefined => Use({TopOfPipe}, {})
    case TransferDstOptimal => Use({Transfer}, {TransferWrite})
    case TransferSrcOptimal => Use({Transfer}, {TransferRead})
    case ShaderReadOnlyOptimal => Use({FragmentShader}, {ShaderRead})
    case ColorAttachmentOptimal => Use({ColorAttachmentOutput}, {ColorAttachmentWrite})
    case DepthStencilAttachmentOptimal => Use({EarlyFragmentTests, LateFragmentTests}, {DepthStencilAttachmentWrite})
    case PresentSrc => Use({BottomOfPipe}, {})
    case General => Use({TopOfPipe}, {})
  }

  /** How the engine first touches an image after moving it into layout `l`.
      Presentation is outside the pipeline: bottom of pipe, no access. */
  function NextUse(l: ImageLayout): Use {
    match l
    case Undefined => Use({BottomOfPipe}, {})
    case TransferDstOptimal => Use({Transfer}, {TransferWrite})
    case TransferSrcOptimal => Use({Transfer}, {TransferRead})
    case ShaderReadOnlyOptimal => Use({FragmentShader}, {ShaderRead})
    case ColorAttachmentOptimal => Use({ColorAttachmentOutput}, {ColorAttachmentWrite})
    case DepthStencilAttachmentOptimal => Use({EarlyFragmentTests}, {DepthStencilAttachmentWrite})
    case PresentSrc => Use({BottomOfPipe}, {})
    case General => Use({BottomOfPipe}, {})
  }

  /** The barrier masks order the prior use of `oldLayout` before the
      transition and the transition before the next use of `newLayout`. */
  predicate Orders(m: Masks, oldLayout: ImageLayout, newLayout: ImageLayout) {
    && PriorUse(oldLayout).stages <= m.srcStage
    && PriorUse(oldLayout).accesses <= m.srcAccess
    && NextUse(newLayout).stages <= m.dstStage
    && NextUse(newLayout).accesses <= m.dstAccess
  }
}

=== FILE: device_selection.dfy ===
/** Choice of the physical device and of its multisample count, as made by
    `src/core/vk_device.cpp` and, identically, by
    `src/graphics/VulkanContext.cpp`. */
module DeviceSelection {
  import opened VkTypes

  /** The multisample counts probed, from the highest down. */
  const ProbedSampleCounts: seq<nat> := [64, 32, 16, 8, 4, 2]

  /** The highest probed count both the colour and the depth attachments
      support, or a single sample when they share none of them. */
  function MaxUsableSampleCount(colorCounts: set<nat>, depthCounts: set<nat>): (r: nat)
    ensures r == 1 || (r in ProbedSampleCounts && r in colorCounts && r in depthCounts)
    ensures r == 1 <==> forall c :: c in ProbedSampleCounts ==> !(c in colorCounts && c in depthCounts)
    ensures forall c :: c in ProbedSampleCounts && c in colorCounts && c in depthCounts ==> c <= r
  {
    var counts := colorCounts * depthCounts;
    if 64 in counts then 64
    else if 32 in counts then 32
    else if 16 in counts then 16
    else if 8 in counts then 8
    else if 4 in counts then 4
    else if 2 in counts then 2
    else 1
  }

  datatype DeviceType = OtherDevice | IntegratedGpu | DiscreteGpu | VirtualGpu | CpuDevice

  /** The properties and features the scoring loop reads. */
  datatype PhysicalDevice = PhysicalDevice(deviceType: DeviceType, maxImageDimension2D: nat, geometryShader: bool)

  const TWO_POW_32: nat := 0x1_0000_0000
  const INT32_MAX: nat := 0x7FFF_FFFF

  /** The `uint32_t` score: 1000 for a discrete GPU plus the largest 2D
      image dimension, wrapping modulo 2^32. */
  function Score(d: PhysicalDevice): nat {
    ((if d.deviceType == DiscreteGpu then 1000 else 0) + d.maxImageDimension2D) % TWO_POW_32
  }

  /** The score converted to the `int` key of the candidate multimap
      (two's complement, so a score above `INT32_MAX` becomes negative). */
  function Key(d: PhysicalDevice): int {
    var s := Score(d);
    if s <= INT32_MAX then s else s - TWO_POW_32
  }

  /** A device is a candidate only with geometry-shader support. */
  predicate Candidate(d: PhysicalDevice) {
    d.geometryShader
  }

  /** Device `i` is what `candidates.rbegin()` yields: a candidate with the
      largest key, and among equal keys the one inserted last. */
  predicate IsBest(devices: seq<PhysicalDevice>, i: nat) {
    && i < |devices| && Candidate(devices[i])
    && (forall j :: 0 <= j < |devices| && Candidate(devices[j]) ==> Key(devices[j]) <= Key(devices[i]))
    && (forall j :: i < j < |devices| && Candidate(devices[j]) ==> Key(devices[j]) < Key(devices[i]))
  }

  /** For every realistic dimension the key is the plain score. */
  lemma KeyIsScoreWithoutWrap(d: PhysicalDevice)
    requires d.maxImageDimension2D + 1000 <= INT32_MAX
    ensures Key(d) == (if d.deviceType == DiscreteGpu then 1000 else 0) + d.maxImageDimension2D
    ensures d.deviceType == DiscreteGpu ==> Key(d) >= 1000
  {
  }

  /** A discrete GPU outranks an integrated one unless the latter's largest
      image dimension exceeds the former's by at least 1000. */
  lemma DiscreteOutranksUnlessDimensionsDifferBy1000(a: PhysicalDevice, b: PhysicalDevice)
    requires a.deviceType == DiscreteGpu && b.deviceType != DiscreteGpu
    requires a.maxImageDimension2D + 1000 <= INT32_MAX && b.maxImageDimension2D + 1000 <= INT32_MAX
    ensures Key(a) > Key(b) <==> b.maxImageDimension2D < a.maxImageDimension2D + 1000
  {
    KeyIsScoreWithoutWrap(a);
    KeyIsScoreWithoutWrap(b);
  }

  /** The best candidate is unique. */
  lemma BestIsUnique(devices: seq<PhysicalDevice>, i: nat, j: nat)
    requires IsBest(devices, i) && IsBest(devices, j)
    ensures i == j
  {
  }

  /** `pickPhysicalDevice`, returning the index of the chosen device. An
      empty device list is an error; a non-empty list without any candidate
      makes the source read `rbegin()` of an empty multimap, which is
      excluded here. */
  method PickPhysicalDevice(devices: seq<PhysicalDevice>) returns (r: Result<nat>)
    requires |devices| == 0 || exists i :: 0 <= i < |devices| && Candidate(devices[i])
    ensures |devices| == 0 ==> r == Err(NoGpu)
    ensures r.Err? <==> |devices| == 0 || forall i :: 0 <= i < |devices| && Candidate(devices[i]) ==> Key(devices[i]) <= 0
    ensures r.Err? && |devices| > 0 ==> r.error == NoSuitableGpu
    ensures r.Ok? ==> IsBest(devices, r.value) && Key(devices[r.value]) > 0
  {
    if |devices| == 0 {
      return Err(NoGpu);
    }
    var found := false;
    var best: nat := 0;
    var bestKey: int := 0;
    var i := 0;
    while i < |devices|
      invariant 0 <= i <= |devices|
      invariant found ==> best < i && Candidate(devices[best]) && bestKey == Key(devices[best])
      invariant found ==> forall j :: 0 <= j < i && Candidate(devices[j]) ==> Key(devices[j]) <= bestKey
      invariant found ==> forall j :: best < j < i && Candidate(devices[j]) ==> Key(devices[j]) < bestKey
      invariant !found ==> forall j :: 0 <= j < i ==> !Candidate(devices[j])
    {
      var d := devices[i];
      var score: nat := 0;
      if d.deviceType == DiscreteGpu {
        score := (score + 1000) % TWO_POW_32;
      }
      score := (score + d.maxImageDimension2D) % TWO_POW_32;
      assert score == Score(d);
      if d.geometryShader {
        var key := if score <= INT32_MAX then score else score - TWO_POW_32;
        if !found || key >= bestKey {
          found, best, bestKey := true, i, key;
        }
      }
      i := i + 1;
    }
    assert found;
    if bestKey > 0 {
      r := Ok(best);
    } else {
      r := Err(NoSuitableGpu);
    }
  }
}

=== FILE: formats.dfy ===
/** First-match searches over what the physical device reports: a format
    supporting a set of features, the depth format, and a memory type
    accepted by a resource and carrying the requested properties. */
module Formats {
  import opened VkTypes

  /** What `getFormatProperties` returns for each format on the chosen device. */
  type FormatQuery = Format -> FormatProperties

  /** The features the device offers for `props` under `tiling`. */
  function TilingFeatures(props: FormatProperties, tiling: ImageTiling): set<FormatFeature> {
    match tiling
    case Linear => props.linearTilingFeatures
    case Optimal => props.optimalTilingFeatures
  }

  /** Format `f` offers every requested feature under `tiling`. */
  predicate Supports(query: FormatQuery, f: Format, tiling: ImageTiling, features: set<FormatFeature>) {
    features <= TilingFeatures(query(f), tiling)
  }

  /** The first candidate that supports all requested features with the
      given tiling; an error when no candidate does. */
  function FindSupportedFormat(
    candidates: seq<Format>, tiling: ImageTiling, features: set<FormatFeature>, query: FormatQuery
  ): (r: Result<Format>)
    ensures r.Ok? <==> exists i :: 0 <= i < |candidates| && Supports(query, candidates[i], tiling, features)
    ensures r.Ok? ==> exists i :: (0 <= i < |candidates| && candidates[i] == r.value
                                   && Supports(query, candidates[i], tiling, features)
                                   && forall j :: 0 <= j < i ==> !Supports(query, candidates[j], tiling, features))
    ensures r.Err? ==> r.error == NoSupportedFormat
  {
    if |candidates| == 0 then
      Err(NoSupportedFormat)
    else if Supports(query, candidates[0], tiling, features) then
      Ok(candidates[0])
    else
      var rest := FindSupportedFormat(candidates[1..], tiling, features, query);
      assert forall i :: 1 <= i < |candidates| ==> candidates[i] == candidates[1..][i - 1];
      rest
  }

  /** The depth formats the engine accepts, in order of preference. */
  const DepthCandidates: seq<Format> := [D32Sfloat, D32SfloatS8Uint, D24UnormS8Uint]

  /** The preferred depth format usable as an optimally tiled depth attachment. */
  function FindDepthFormat(query: FormatQuery): (r: Result<Format>)
    ensures Supports(query, D32Sfloat, Optimal, {DepthStencilAttachmentFeature}) ==> r == Ok(D32Sfloat)
    ensures (!Supports(query, D32Sfloat, Optimal, {DepthStencilAttachmentFeature})
             && Supports(query, D32SfloatS8Uint, Optimal, {DepthStencilAttachmentFeature}))
            ==> r == Ok(D32SfloatS8Uint)
    ensures (!Supports(query, D32Sfloat, Optimal, {DepthStencilAttachmentFeature})
             && !Supports(query, D32SfloatS8Uint, Optimal, {DepthStencilAttachmentFeature})
             && Supports(query, D24UnormS8Uint, Optimal, {DepthStencilAttachmentFeature}))
            ==> r == Ok(D24UnormS8Uint)
    ensures r.Err? <==> forall f :: f in DepthCandidates ==> !Supports(query, f, Optimal, {DepthStencilAttachmentFeature})
  {
    FindSupportedFormat(DepthCandidates, Optimal, {DepthStencilAttachmentFeature}, query)
  }

  /** Number of stencil bits of a format, from the format table of the
      Vulkan specification: the four formats with a stencil component carry
      eight bits each. */
  function StencilBits(f: Format): nat {
    match f
    case S8Uint => 8
    case D16UnormS8Uint => 8
    case D24UnormS8Uint => 8
    case D32SfloatS8Uint => 8
    case _ => 0
  }

  /** Whether a depth format also carries a stencil component: the engine
      tests for two formats only. */
  function HasStencilComponent(f: Format): bool {
    f == D32SfloatS8Uint || f == D24UnormS8Uint
  }

  /** The engine's two-format test never claims a stencil the format lacks,
      and agrees with the format table on every depth format the engine can
      choose; it misses exactly the two stencil formats outside that list. */
  lemma HasStencilAgreesOnDepthCandidates(f: Format)
    ensures HasStencilComponent(f) ==> StencilBits(f) > 0
    ensures f in DepthCandidates ==> (HasStencilComponent(f) <==> StencilBits(f) > 0)
    ensures StencilBits(f) > 0 && !HasStencilComponent(f) <==> f == D16UnormS8Uint || f == S8Uint
    ensures D16UnormS8Uint !in DepthCandidates && S8Uint !in DepthCandidates
  {
  }

  /** Of the depth candidates, the stencil aspect is needed exactly when the
      device lacks the plain 32-bit depth format but has a packed one. */
  lemma DepthFormatHasStencil(query: FormatQuery)
    requires FindDepthFormat(query).Ok?
    ensures HasStencilComponent(FindDepthFormat(query).value)
      <==> !Supports(query, D32Sfloat, Optimal, {DepthStencilAttachmentFeature})
  {
  }

  /** Bit `i` of the memory-type filter is set (`typeFilter & (1 << i)`). */
  predicate TypeAllowed(typeFilter: bv32, i: nat)
    requires i < 32
  {
    typeFilter & ((1 as bv32) << i) != 0
  }

  /** Memory type `i` is acceptable for the resource and has every requested property. */
  predicate MemoryTypeFits(typeFilter: bv32, properties: set<MemoryProperty>, memoryTypes: seq<set<MemoryProperty>>, i: nat)
    requires i < |memoryTypes| <= 32
  {
    TypeAllowed(typeFilter, i) && properties <= memoryTypes[i]
  }

  /** Some memory type is allowed by `typeFilter` and has `properties`. */
  predicate MemoryTypeExists(typeFilter: bv32, properties: set<MemoryProperty>, memoryTypes: seq<set<MemoryProperty>>)
    requires |memoryTypes| <= 32
  {
    exists j :: 0 <= j < |memoryTypes| && MemoryTypeFits(typeFilter, properties, memoryTypes, j)
  }

  /** The least memory type index allowed by `typeFilter` whose property
      flags include `properties`. `memoryTypes` is the device's list of
      memory types; the API caps it at 32 entries. */
  method FindMemoryType(typeFilter: bv32, properties: set<MemoryProperty>, memoryTypes: seq<set<MemoryProperty>>)
    returns (r: Result<nat>)
    requires |memoryTypes| <= 32
    ensures r.Ok? ==> r.value < |memoryTypes| && MemoryTypeFits(typeFilter, properties, memoryTypes, r.value)
    ensures r.Ok? ==> forall j :: 0 <= j < r.value ==> !MemoryTypeFits(typeFilter, properties, memoryTypes, j)
    ensures r.Err? <==> !MemoryTypeExists(typeFilter, properties, memoryTypes)
    ensures r.Err? ==> r.error == NoMemoryType
  {
    var i := 0;
    while i < |memoryTypes|
      invariant 0 <= i <= |memoryTypes|
      invariant forall j :: 0 <= j < i ==> !MemoryTypeFits(typeFilter, properties, memoryTypes, j)
    {
      if TypeAllowed(typeFilter, i) && properties <= memoryTypes[i] {
        assert MemoryTypeFits(typeFilter, properties, memoryTypes, i);
        return Ok(i);
      }
      i := i + 1;
    }
    return Err(NoMemoryType);
  }
}

=== FILE: frame_scheduler.dfy ===
/** `drawFrame`: one frame of the render loop as a step of a state machine
    over the frame slot `currentFrame`, the rotating `semaphoreIndex`, the
    synchronisation objects and the swapchain image count. What acquire and
    present return, which image is acquired and how many images a recreated
    swapchain has are inputs.

    Three variants: `newVersion.cpp` selects the present-complete semaphore
    by `semaphoreIndex`; `src/core/vk_engine.cpp` and
    `src/core/Application.cpp` select it by `currentFrame`. Only the engine
    rebuilds the synchronisation objects after recreating the swapchain. */
module FrameScheduler {
  import opened VkTypes
  import opened ResourceRules

  datatype LoopVariant = NewVersionLoop | EngineLoop | ApplicationLoop

  datatype AcquireResult = AcquireSuccess | AcquireSuboptimal | AcquireOutOfDate | AcquireFailure

  datatype PresentResult = PresentSuccess | PresentSuboptimal | PresentOutOfDate | PresentFailure

  /** What the driver answers during one frame: the acquire result and image,
      the present result, and the image count of a swapchain recreated in
      this frame. */
  datatype FrameInput = FrameInput(acquire: AcquireResult, imageIndex: nat, present: PresentResult, newImages: nat)

  /** The loop's state: frame slot, semaphore rotation, synchronisation
      objects and the number of swapchain images. */
  datatype Frames = Frames(currentFrame: nat, semaphoreIndex: nat, sync: SyncObjects, images: nat)

  /** What a frame asks of the device, in order. */
  datatype FrameEvent =
    | WaitFence(slot: nat)
    | Acquire(semaphore: nat)
    | Recreate(images: nat)
    | RebuildSync(images: nat)
    | ResetFence(slot: nat)
    | Record(slot: nat, image: nat)
    | Submit(waitSemaphore: nat, signalSemaphore: nat, fence: nat)
    | Present(waitSemaphore: nat, image: nat)

  /** `waitIdle` lets all submitted work finish, so every pending fence
      becomes signalled. */
  function Settle(fences: seq<FenceState>): (r: seq<FenceState>)
    ensures |r| == |fences|
    ensures forall k :: 0 <= k < |fences| ==> r[k] == (if fences[k] == Pending then Signaled else fences[k])
  {
    seq(|fences|, k requires 0 <= k < |fences| => if fences[k] == Pending then Signaled else fences[k])
  }

  /** The device's view of one event, following the valid-usage rules of
      the Vulkan specification for fences and semaphores: a semaphore index
      must name an existing semaphore; a waited fence must be signalled or
      pending (an unsignalled fence nobody will signal blocks forever); only
      a signalled fence may be reset; only an unsignalled fence may be
      passed to a submission. `None` marks a violation. */
  function StepSync(st: SyncObjects, e: FrameEvent): Option<SyncObjects> {
    match e
    case WaitFence(k) =>
      if k < |st.fences| && st.fences[k] != Unsignaled then Some(st.(fences := st.fences[k := Signaled])) else None
    case Acquire(sem) => if sem < st.presentComplete then Some(st) else None
    case Recreate(_) => Some(st.(fences := Settle(st.fences)))
    case RebuildSync(n) => Some(CreatedSync(n))
    case ResetFence(k) =>
      if k < |st.fences| && st.fences[k] == Signaled then Some(st.(fences := st.fences[k := Unsignaled])) else None
    case Record(slot, _) => if slot < MAX_FRAMES_IN_FLIGHT then Some(st) else None
    case Submit(w, sig, k) =>
      if w < st.presentComplete && sig < st.renderFinished && k < |st.fences| && st.fences[k] == Unsignaled
      then Some(st.(fences := st.fences[k := Pending])) else None
    case Present(sig, _) => if sig < st.renderFinished then Some(st) else None
  }

  function RunSync(st: SyncObjects, events: seq<FrameEvent>): Option<SyncObjects>
    decreases |events|
  {
    if |events| == 0 then Some(st)
    else
      var next := StepSync(st, events[0]);
      if next.None? then None else RunSync(next.value, events[1..])
  }

  lemma {:induction false} RunSyncAppend(st: SyncObjects, a: seq<FrameEvent>, b: seq<FrameEvent>)
    ensures RunSync(st, a + b) == (if RunSync(st, a).None? then None else RunSync(RunSync(st, a).value, b))
    decreases |a|
  {
    if |a| > 0 {
      assert (a + b)[0] == a[0];
      assert (a + b)[1..] == a[1..] + b;
      var next := StepSync(st, a[0]);
      if next.Some? {
        RunSyncAppend(next.value, a[1..], b);
      }
    } else {
      assert a + b == b;
    }
  }

  lemma RunSyncCons(st: SyncObjects, e: FrameEvent, rest: seq<FrameEvent>)
    ensures RunSync(st, [e] + rest) == (if StepSync(st, e).None? then None else RunSync(StepSync(st, e).value, rest))
  {
    assert ([e] + rest)[1..] == rest;
  }

  /** The present-complete semaphore of this frame. */
  function AcquireSemaphore(v: LoopVariant, s: Frames): nat {
    if v == NewVersionLoop then s.semaphoreIndex else s.currentFrame
  }

  /** Swapchain recreation: `recreateSwapChain`, which waits idle first, and
      in the engine `rebuildSwapchainResources`, whose
      `setSwapChainImageCount` re-runs `createSyncObjects`. */
  function RecreateEvents(v: LoopVariant, newImages: nat): seq<FrameEvent> {
    if v == EngineLoop then [Recreate(newImages), RebuildSync(newImages)] else [Recreate(newImages)]
  }

  function Recreated(v: LoopVariant, s: Frames, newImages: nat): (r: Frames)
    ensures r.currentFrame == s.currentFrame && r.semaphoreIndex == s.semaphoreIndex && r.images == newImages
  {
    if v == EngineLoop then s.(sync := CreatedSync(newImages), images := newImages)
    else s.(sync := s.sync.(fences := Settle(s.sync.fences)), images := newImages)
  }

  /** The counter updates at the end of a frame that reached present. */
  function Advance(s: Frames): Frames
    requires s.sync.presentComplete >= 1
  {
    s.(semaphoreIndex := (s.semaphoreIndex + 1) % s.sync.presentComplete,
       currentFrame := (s.currentFrame + 1) % MAX_FRAMES_IN_FLIGHT)
  }

  /** The result of a frame that did not throw. */
  datatype Step = Step(frames: Frames, events: seq<FrameEvent>)

  /** Fields the frame reads exist: the slot has a fence and the semaphore
      counter has something to wrap around. */
  predicate Shaped(s: Frames) {
    s.currentFrame < |s.sync.fences| && s.sync.presentComplete >= 1
  }

  /** One call of `drawFrame`. */
  function DrawFrame(v: LoopVariant, s: Frames, input: FrameInput): (r: Result<Step>)
    requires Shaped(s) && input.newImages >= 1
    ensures r.Err? <==> input.acquire == AcquireFailure
                        || (input.acquire != AcquireOutOfDate && input.present == PresentFailure)
    ensures r.Err? ==> r.error == (if input.acquire == AcquireFailure then AcquireFailed else PresentFailed)
    // the fence of the slot is waited on first, before acquiring
    ensures r.Ok? ==> |r.value.events| >= 2 && r.value.events[0] == WaitFence(s.currentFrame)
                      && r.value.events[1] == Acquire(AcquireSemaphore(v, s))
    // an out-of-date acquire only recreates: no reset, record, submit, present or advance
    ensures r.Ok? && input.acquire == AcquireOutOfDate
            ==> && r.value.events[2..] == RecreateEvents(v, input.newImages)
                && r.value.frames.currentFrame == s.currentFrame
                && r.value.frames.semaphoreIndex == s.semaphoreIndex
    // a frame that reached present advances both counters, each modulo its own size
    ensures r.Ok? && input.acquire != AcquireOutOfDate
            ==> && r.value.frames.currentFrame == (s.currentFrame + 1) % MAX_FRAMES_IN_FLIGHT
                && r.value.frames.sync.presentComplete >= 1
                && r.value.frames.semaphoreIndex == (s.semaphoreIndex + 1) % r.value.frames.sync.presentComplete
                && Submit(AcquireSemaphore(v, s), input.imageIndex, s.currentFrame) in r.value.events
                && Present(input.imageIndex, input.imageIndex) in r.value.events
  {
    var slot := s.currentFrame;
    var sem := AcquireSemaphore(v, s);
    var waited := s.(sync := s.sync.(fences := s.sync.fences[slot := Signaled]));
    var start := [WaitFence(slot), Acquire(sem)];
    match input.acquire
    case AcquireFailure => Err(AcquireFailed)
    case AcquireOutOfDate =>
      Ok(Step(Recreated(v, waited, input.newImages), start + RecreateEvents(v, input.newImages)))
    case _ =>
      var submitted := waited.(sync := waited.sync.(fences := waited.sync.fences[slot := Pending]));
      var body := start + [ResetFence(slot), Record(slot, input.imageIndex),
                           Submit(sem, input.imageIndex, slot), Present(input.imageIndex, input.imageIndex)];
      match input.present
      case PresentFailure => Err(PresentFailed)
      case PresentSuccess => Ok(Step(Advance(submitted), body))
      case _ => Ok(Step(Advance(Recreated(v, submitted, input.newImages)), body + RecreateEvents(v, input.newImages)))
  }

  /** A fence is reset only after the same frame has waited on it. */
  lemma ResetOnlyAfterWait(v: LoopVariant, s: Frames, input: FrameInput)
    requires Shaped(s) && input.newImages >= 1
    ensures var r := DrawFrame(v, s, input);
            r.Ok? ==> forall i :: 0 <= i < |r.value.events| && r.value.events[i].ResetFence?
                                ==> exists j :: 0 <= j < i && r.value.events[j] == WaitFence(r.value.events[i].slot)
  {
    var r := DrawFrame(v, s, input);
    if r.Ok? {
      forall i | 0 <= i < |r.value.events| && r.value.events[i].ResetFence?
        ensures exists j :: 0 <= j < i && r.value.events[j] == WaitFence(r.value.events[i].slot)
      {
        assert r.value.events[i] == ResetFence(s.currentFrame);
        assert r.value.events[0] == WaitFence(s.currentFrame);
      }
    }
  }

  predicate NoneUnsignaled(fences: seq<FenceState>) {
    forall k :: 0 <= k < |fences| ==> fences[k] != Unsignaled
  }

  /** The loop invariant. Every fence will be or is signalled, so the next
      wait returns; the semaphore counts match and cover every frame slot;
      the semaphore index is in range where it selects a semaphore; and no
      image lacks a render-finished semaphore. */
  predicate Inv(v: LoopVariant, s: Frames) {
    && s.currentFrame < MAX_FRAMES_IN_FLIGHT
    && |s.sync.fences| == MAX_FRAMES_IN_FLIGHT
    && NoneUnsignaled(s.sync.fences)
    && s.sync.presentComplete == s.sync.renderFinished >= MAX_FRAMES_IN_FLIGHT
    && (v == NewVersionLoop ==> s.semaphoreIndex < s.sync.presentComplete)
    && s.images <= s.sync.renderFinished
  }

  /** What the driver guarantees: an acquired image exists and a swapchain
      has at least one image per frame slot. */
  predicate DriverContract(s: Frames, input: FrameInput) {
    && ((input.acquire == AcquireSuccess || input.acquire == AcquireSuboptimal) ==> input.imageIndex < s.images)
    && input.newImages >= MAX_FRAMES_IN_FLIGHT
  }

  /** The state right after initialisation: `createSyncObjects` for the
      initial image count, both counters zero. */
  function Initial(images: nat): Frames {
    Frames(0, 0, CreatedSync(images), images)
  }

  lemma InitialSatisfiesInv(v: LoopVariant, images: nat)
    requires images >= MAX_FRAMES_IN_FLIGHT
    ensures Inv(v, Initial(images))
  {
  }

  lemma StartEventsRun(v: LoopVariant, s: Frames)
    requires s.currentFrame < |s.sync.fences| && s.sync.fences[s.currentFrame] != Unsignaled
    requires AcquireSemaphore(v, s) < s.sync.presentComplete
    ensures RunSync(s.sync, [WaitFence(s.currentFrame), Acquire(AcquireSemaphore(v, s))])
            == Some(s.sync.(fences := s.sync.fences[s.currentFrame := Signaled]))
  {
    var waited := s.sync.(fences := s.sync.fences[s.currentFrame := Signaled]);
    RunSyncCons(s.sync, WaitFence(s.currentFrame), [Acquire(AcquireSemaphore(v, s))]);
    RunSyncCons(waited, Acquire(AcquireSemaphore(v, s)), []);
  }

  lemma BodyEventsRun(st: SyncObjects, slot: nat, sem: nat, image: nat)
    requires slot < |st.fences| && st.fences[slot] == Signaled
    requires slot < MAX_FRAMES_IN_FLIGHT && sem < st.presentComplete && image < st.renderFinished
    ensures RunSync(st, [ResetFence(slot), Record(slot, image), Submit(sem, image, slot), Present(image, image)])
            == Some(st.(fences := st.fences[slot := Pending]))
  {
    var reset := st.(fences := st.fences[slot := Unsignaled]);
    var pending := st.(fences := st.fences[slot := Pending]);
    assert reset.(fences := reset.fences[slot := Pending]) == pending;
    RunSyncCons(st, ResetFence(slot), [Record(slot, image), Submit(sem, image, slot), Present(image, image)]);
    RunSyncCons(reset, Record(slot, image), [Submit(sem, image, slot), Present(image, image)]);
    RunSyncCons(reset, Submit(sem, image, slot), [Present(image, image)]);
    RunSyncCons(pending, Present(image, image), []);
  }

  /** The same events on an image index that names no render-finished
      semaphore stop at the submission. */
  lemma BodyFailsWithoutSemaphore(st: SyncObjects, slot: nat, sem: nat, image: nat)
    requires slot < |st.fences| && st.fences[slot] == Signaled && slot < MAX_FRAMES_IN_FLIGHT
    requires image >= st.renderFinished
    ensures RunSync(st, [ResetFence(slot), Record(slot, image), Submit(sem, image, slot), Present(image, image)]).None?
  {
    var reset := st.(fences := st.fences[slot := Unsignaled]);
    RunSyncCons(st, ResetFence(slot), [Record(slot, image), Submit(sem, image, slot), Present(image, image)]);
    RunSyncCons(reset, Record(slot, image), [Submit(sem, image, slot), Present(image, image)]);
    RunSyncCons(reset, Submit(sem, image, slot), [Present(image, image)]);
  }

  lemma RecreateEventsRun(v: LoopVariant, s: Frames, newImages: nat)
    ensures RunSync(s.sync, RecreateEvents(v, newImages)) == Some(Recreated(v, s, newImages).sync)
  {
    var settled := s.sync.(fences := Settle(s.sync.fences));
    if v == EngineLoop {
      RunSyncCons(s.sync, Recreate(newImages), [RebuildSync(newImages)]);
      RunSyncCons(settled, RebuildSync(newImages), []);
    } else {
      RunSyncCons(s.sync, Recreate(newImages), []);
    }
  }

  /** Recreation keeps the invariant when the engine rebuilds the
      synchronisation objects, and for the other loops only when the new
      swapchain has no more images than there are semaphores. */
  lemma RecreatedKeepsInv(v: LoopVariant, s: Frames, newImages: nat)
    requires Inv(v, s)
    requires newImages >= MAX_FRAMES_IN_FLIGHT
    requires v != EngineLoop ==> newImages <= s.sync.renderFinished
    ensures Inv(v, Recreated(v, s, newImages))
  {
  }

  /** Every frame of every variant is valid usage and keeps the invariant,
      as long as a recreated swapchain does not gain images beyond the
      semaphores created at start-up (for the engine, unconditionally): the
      fence waited on will signal, only a waited fence is reset, every
      reset fence is resubmitted before the frame ends, and every semaphore
      index is in range. */
  lemma FrameKeepsInv(v: LoopVariant, s: Frames, input: FrameInput)
    requires Inv(v, s) && DriverContract(s, input)
    requires v != EngineLoop ==> input.newImages <= s.sync.renderFinished
    ensures var r := DrawFrame(v, s, input);
            r.Ok? ==> RunSync(s.sync, r.value.events) == Some(r.value.frames.sync) && Inv(v, r.value.frames)
  {
    var r := DrawFrame(v, s, input);
    if r.Ok? {
      var slot := s.currentFrame;
      var sem := AcquireSemaphore(v, s);
      var start := [WaitFence(slot), Acquire(sem)];
      var waited := s.(sync := s.sync.(fences := s.sync.fences[slot := Signaled]));
      StartEventsRun(v, s);
      if input.acquire == AcquireOutOfDate {
        RunSyncAppend(s.sync, start, RecreateEvents(v, input.newImages));
        RecreateEventsRun(v, waited, input.newImages);
        RecreatedKeepsInv(v, waited, input.newImages);
      } else {
        var submitted := waited.(sync := waited.sync.(fences := waited.sync.fences[slot := Pending]));
        var tail := [ResetFence(slot), Record(slot, input.imageIndex),
                     Submit(sem, input.imageIndex, slot), Present(input.imageIndex, input.imageIndex)];
        RunSyncAppend(s.sync, start, tail);
        BodyEventsRun(waited.sync, slot, sem, input.imageIndex);
        assert RunSync(s.sync, start + tail) == Some(submitted.sync);
        if input.present == PresentSuccess {
          assert r.value.frames == Advance(submitted);
        } else {
          RunSyncAppend(s.sync, start + tail, RecreateEvents(v, input.newImages));
          RecreateEventsRun(v, submitted, input.newImages);
          RecreatedKeepsInv(v, submitted, input.newImages);
        }
      }
    }
  }

  /** A frame whose present reports suboptimal or out-of-date submits on the
      current slot, recreates the swapchain and then advances. */
  lemma PresentRecreatesFrames(v: LoopVariant, s: Frames, input: FrameInput)
    requires Shaped(s) && input.newImages >= 1
    requires input.acquire == AcquireSuccess
    requires input.present == PresentSuboptimal || input.present == PresentOutOfDate
    ensures DrawFrame(v, s, input).Ok?
    ensures DrawFrame(v, s, input).value.frames
            == Advance(Recreated(v, s.(sync := s.sync.(fences := s.sync.fences[s.currentFrame := Signaled][s.currentFrame := Pending])), input.newImages))
  {
  }

  /** The state after a first frame on three images whose present reports
      suboptimal and whose recreated swapchain has four images. */
  function Grown(v: LoopVariant): Frames {
    var semaphores := if v == EngineLoop then 4 else 3;
    Frames(1, 1, CreatedSync(semaphores), 4)
  }

  /** A first frame whose present reports suboptimal: the default build
      returns that result rather than throwing, and the loop recreates. */
  const GrowingFrame: FrameInput := FrameInput(AcquireSuccess, 0, PresentSuboptimal, 4)
  const LastImageFrame: FrameInput := FrameInput(AcquireSuccess, 3, PresentSuccess, 4)

  /** A suboptimal present and an out-of-date one (where it is returned)
      leave the same grown state. */
  lemma FirstFrameGrowsSwapchain(v: LoopVariant)
    ensures Inv(v, Initial(3)) && DriverContract(Initial(3), GrowingFrame)
    ensures DrawFrame(v, Initial(3), GrowingFrame).Ok?
    ensures DrawFrame(v, Initial(3), GrowingFrame).value.frames == Grown(v)
    ensures var outOfDate := GrowingFrame.(present := PresentOutOfDate);
            && DrawFrame(v, Initial(3), outOfDate).Ok?
            && DrawFrame(v, Initial(3), outOfDate).value.frames == Grown(v)
  {
    var s0 := Initial(3);
    InitialSatisfiesInv(v, 3);
    var submitted := s0.(sync := s0.sync.(fences := [Pending, Signaled]));
    assert s0.sync.fences[0 := Signaled][0 := Pending] == [Pending, Signaled];
    var grown := Recreated(v, submitted, 4);
    assert grown.sync.fences == SignaledFences by {
      if v != EngineLoop {
        assert Settle([Pending, Signaled]) == SignaledFences;
      }
    }
    assert Advance(grown) == Grown(v) by {
      if v == EngineLoop {
        assert grown.sync == SyncObjects(4, 4, SignaledFences);
      } else {
        assert grown.sync == SyncObjects(3, 3, SignaledFences);
      }
    }
    PresentRecreatesFrames(v, s0, GrowingFrame);
    PresentRecreatesFrames(v, s0, GrowingFrame.(present := PresentOutOfDate));
  }

  lemma LastImageFrameFails(v: LoopVariant)
    requires v != EngineLoop
    ensures DriverContract(Grown(v), LastImageFrame) && DrawFrame(v, Grown(v), LastImageFrame).Ok?
    ensures RunSync(Grown(v).sync, DrawFrame(v, Grown(v), LastImageFrame).value.events).None?
  {
    var s1 := Grown(v);
    var sem := AcquireSemaphore(v, s1);
    var start := [WaitFence(1), Acquire(sem)];
    var tail := [ResetFence(1), Record(1, 3), Submit(sem, 3, 1), Present(3, 3)];
    assert DrawFrame(v, s1, LastImageFrame).value.events == start + tail;
    StartEventsRun(v, s1);
    RunSyncAppend(s1.sync, start, tail);
    BodyFailsWithoutSemaphore(s1.sync.(fences := s1.sync.fences[1 := Signaled]), 1, sem, 3);
  }

  /** The loops that keep the start-up semaphores: three images at start-up,
      a present that reports suboptimal, a recreated swapchain with four
      images, and the next frame acquires image 3, whose render-finished
      semaphore does not exist. The engine, which rebuilds the semaphores
      for the new count, runs the same two frames validly. */
  lemma GrownSwapchainOutrunsSemaphores(v: LoopVariant)
    ensures var s0 := Initial(3);
            var r1 := DrawFrame(v, s0, GrowingFrame);
            && Inv(v, s0) && DriverContract(s0, GrowingFrame) && r1.Ok?
            && var s1 := r1.value.frames;
               var r2 := DrawFrame(v, s1, LastImageFrame);
               && DriverContract(s1, LastImageFrame) && r2.Ok?
               && (v == EngineLoop <==> RunSync(s1.sync, r2.value.events).Some?)
  {
    FirstFrameGrowsSwapchain(v);
    if v == EngineLoop {
      FrameKeepsInv(v, Grown(v), LastImageFrame);
    } else {
      LastImageFrameFails(v);
    }
  }
}

=== FILE: main_loop.dfy ===
/** The main loop around `drawFrame`: each iteration drains the window-event
    queue, then draws unless the window is minimised or a quit was
    requested, and after the loop the device waits idle. Only the engine
    (`src/core/vk_engine.cpp`) reacts to a resize event, by recreating the
    swapchain and rebuilding the resources that depend on it;
    `src/core/Application.cpp` and `newVersion.cpp` ignore it. Timing, frame
    counting and the window title are left out. */
module MainLoop {
  import opened FrameScheduler

  datatype WindowEvent = QuitRequested | WindowResized | WindowMinimized | WindowRestored | OtherWindowEvent

  /** What an iteration does besides polling. */
  datatype LoopAction = RecreateAndRebuild | Draw | Sleep | WaitIdle

  datatype LoopState = LoopState(quit: bool, minimized: bool)

  predicate HandlesResize(v: LoopVariant) {
    v == EngineLoop
  }

  /** The reaction to one polled event. */
  function HandleEvent(v: LoopVariant, st: LoopState, e: WindowEvent): (LoopState, seq<LoopAction>) {
    match e
    case QuitRequested => (st.(quit := true), [])
    case WindowResized => (st, if HandlesResize(v) then [RecreateAndRebuild] else [])
    case WindowMinimized => (st.(minimized := true), [])
    case WindowRestored => (st.(minimized := false), [])
    case OtherWindowEvent => (st, [])
  }

  /** Reference for the minimised flag: the latest minimise or restore event
      decides, and without one the flag keeps its value. */
  function LastToggle(previous: bool, events: seq<WindowEvent>): bool
    decreases |events|
  {
    if |events| == 0 then previous
    else
      var e := events[|events| - 1];
      if e == WindowMinimized then true
      else if e == WindowRestored then false
      else LastToggle(previous, events[..|events| - 1])
  }

  /** Draining the event queue of one iteration. */
  function Poll(v: LoopVariant, st: LoopState, events: seq<WindowEvent>): (r: (LoopState, seq<LoopAction>))
    ensures r.0.quit <==> st.quit || QuitRequested in events
    ensures forall a :: a in r.1 ==> a == RecreateAndRebuild
    ensures |r.1| == (if HandlesResize(v) then multiset(events)[WindowResized] else 0)
    decreases |events|
  {
    if |events| == 0 then (st, [])
    else
      var (s1, a1) := HandleEvent(v, st, events[0]);
      var (s2, a2) := Poll(v, s1, events[1..]);
      assert events == [events[0]] + events[1..];
      (s2, a1 + a2)
  }

  lemma {:induction false} LastToggleCons(previous: bool, e: WindowEvent, rest: seq<WindowEvent>)
    ensures LastToggle(previous, [e] + rest)
            == LastToggle(if e == WindowMinimized then true else if e == WindowRestored then false else previous, rest)
    decreases |rest|
  {
    var events := [e] + rest;
    if |rest| > 0 {
      assert events[|events| - 1] == rest[|rest| - 1];
      assert events[..|events| - 1] == [e] + rest[..|rest| - 1];
      LastToggleCons(previous, e, rest[..|rest| - 1]);
    }
  }

  /** Polling a non-empty queue handles its first event, then polls the rest. */
  lemma PollFirst(v: LoopVariant, st: LoopState, events: seq<WindowEvent>)
    requires |events| > 0
    ensures Poll(v, st, events).0 == Poll(v, HandleEvent(v, st, events[0]).0, events[1..]).0
  {
  }

  /** After polling, the window counts as minimised exactly when the latest
      minimise/restore event says so. */
  lemma {:induction false} PollMinimizedIsLastToggle(v: LoopVariant, st: LoopState, events: seq<WindowEvent>)
    ensures Poll(v, st, events).0.minimized == LastToggle(st.minimized, events)
    decreases |events|
  {
    if |events| > 0 {
      var e, rest := events[0], events[1..];
      var s1 := HandleEvent(v, st, e).0;
      assert s1.minimized == if e == WindowMinimized then true else if e == WindowRestored then false else st.minimized;
      PollFirst(v, st, events);
      PollMinimizedIsLastToggle(v, s1, rest);
      LastToggleCons(st.minimized, e, rest);
      assert events == [e] + rest;
    }
  }

  /** One iteration of the loop: poll, then draw or sleep. */
  function Iteration(v: LoopVariant, st: LoopState, events: seq<WindowEvent>): (r: (LoopState, seq<LoopAction>))
    ensures r.0 == Poll(v, st, events).0
    ensures Draw in r.1 <==> !r.0.minimized && !r.0.quit
    ensures Sleep in r.1 <==> !(Draw in r.1)
    ensures |r.1| == |Poll(v, st, events).1| + 1
  {
    var (s, actions) := Poll(v, st, events);
    (s, actions + [if !s.minimized && !s.quit then Draw else Sleep])
  }

  /** The loop over the event batches of successive iterations; it stops
      after the iteration that saw a quit request, and then waits idle. An
      input that never quits describes a loop still running. */
  function RunLoop(v: LoopVariant, st: LoopState, batches: seq<seq<WindowEvent>>): seq<LoopAction>
    requires !st.quit
    decreases |batches|
  {
    if |batches| == 0 then []
    else
      var (s, actions) := Iteration(v, st, batches[0]);
      if s.quit then actions + [WaitIdle] else actions + RunLoop(v, s, batches[1..])
  }

  /** The device waits idle exactly when some iteration saw a quit request,
      and then as the very last action. */
  lemma {:induction false} WaitIdleExactlyAfterQuit(v: LoopVariant, st: LoopState, batches: seq<seq<WindowEvent>>)
    requires !st.quit
    ensures var actions := RunLoop(v, st, batches);
            && (WaitIdle in actions <==> exists i :: 0 <= i < |batches| && QuitRequested in batches[i])
            && (WaitIdle in actions ==> actions[|actions| - 1] == WaitIdle && WaitIdle !in actions[..|actions| - 1])
    decreases |batches|
  {
    if |batches| > 0 {
      var (s, actions) := Iteration(v, st, batches[0]);
      assert WaitIdle !in actions by {
        assert forall a :: a in Poll(v, st, batches[0]).1 ==> a == RecreateAndRebuild;
      }
      if s.quit {
        assert QuitRequested in batches[0];
        var all := actions + [WaitIdle];
        assert all[..|all| - 1] == actions;
      } else {
        WaitIdleExactlyAfterQuit(v, s, batches[1..]);
        var rest := RunLoop(v, s, batches[1..]);
        if exists i :: 0 <= i < |batches| && QuitRequested in batches[i] {
          var i :| 0 <= i < |batches| && QuitRequested in batches[i];
          assert i != 0;
          assert batches[1..][i - 1] == batches[i];
        }
        if WaitIdle in rest {
          var all := actions + rest;
          assert all[..|all| - 1] == actions + rest[..|rest| - 1];
          var i :| 0 <= i < |batches[1..]| && QuitRequested in batches[1..][i];
          assert batches[i + 1] == batches[1..][i];
        }
      }
    }
  }

  /** Outside the engine a resize event never leads to a swapchain
      recreation from the loop; the stale swapchain is only noticed when
      acquire or present reports it. */
  lemma {:induction false} ResizeIgnoredOutsideEngine(v: LoopVariant, st: LoopState, batches: seq<seq<WindowEvent>>)
    requires !st.quit && v != EngineLoop
    ensures RecreateAndRebuild !in RunLoop(v, st, batches)
    decreases |batches|
  {
    if |batches| > 0 {
      var (s, actions) := Iteration(v, st, batches[0]);
      assert |Poll(v, st, batches[0]).1| == 0;
      if !s.quit {
        ResizeIgnoredOutsideEngine(v, s, batches[1..]);
      }
    }
  }

  /** Within one engine iteration every resize event recreates once, before
      the frame is drawn. */
  lemma EngineRecreatesBeforeDrawing(st: LoopState, events: seq<WindowEvent>)
    ensures var r := Iteration(EngineLoop, st, events).1;
            && |r| == multiset(events)[WindowResized] + 1
            && forall k :: 0 <= k < |r| - 1 ==> r[k] == RecreateAndRebuild
  {
    var polled := Poll(EngineLoop, st, events).1;
    assert forall k :: 0 <= k < |polled| ==> polled[k] in polled;
  }
}

=== FILE: mesh.dfy ===
/** `AssetsLoader::loadModel`: every index of every shape of a parsed OBJ
    file becomes a vertex (position looked up, texture `v` flipped, colour
    white), and a map from vertex to position keeps one copy of each vertex
    and an index list pointing into it.

    Two variants: `src/assets/assets_loader.cpp` deduplicates into fresh
    lists and hands them to `ModelStorage`; `src2/assets/assets_loader.cpp`
    appends to lists kept in the loader object while its map starts empty
    on every call. The OBJ parser is an input. */
module Mesh {
  import opened VkTypes
  import opened ModelStorage

  /** One corner of a face: where its position and texture coordinate are. */
  datatype ObjIndex = ObjIndex(vertexIndex: nat, texcoordIndex: nat)

  /** The parser's flat attribute arrays: three reals per position, two per
      texture coordinate. */
  datatype Attributes = Attributes(positions: seq<real>, texcoords: seq<real>)

  datatype ObjFile = ObjFile(attrib: Attributes, shapes: seq<seq<ObjIndex>>)

  /** What the OBJ parser returns: a file, or failure with its error text. */
  datatype Parsed = ParsedFile(file: ObjFile) | ParseFailed(error: string)

  const White: Vec3 := Vec3(1.0, 1.0, 1.0)

  /** All corners of all shapes, shape by shape. */
  function Flatten(shapes: seq<seq<ObjIndex>>): (r: seq<ObjIndex>)
    ensures |r| == TotalIndices(shapes)
  {
    if |shapes| == 0 then [] else shapes[0] + Flatten(shapes[1..])
  }

  function TotalIndices(shapes: seq<seq<ObjIndex>>): nat {
    if |shapes| == 0 then 0 else |shapes[0]| + TotalIndices(shapes[1..])
  }

  /** The parser only produces indices into its own arrays; the loader reads
      them unchecked. */
  predicate Resolves(attrib: Attributes, index: ObjIndex) {
    3 * index.vertexIndex + 2 < |attrib.positions| && 2 * index.texcoordIndex + 1 < |attrib.texcoords|
  }

  predicate WellFormed(file: ObjFile) {
    forall k :: 0 <= k < |Flatten(file.shapes)| ==> Resolves(file.attrib, Flatten(file.shapes)[k])
  }

  /** The vertex built for one corner. */
  function AssembleVertex(attrib: Attributes, index: ObjIndex): (r: Vertex)
    requires Resolves(attrib, index)
  {
    var p := 3 * index.vertexIndex;
    var t := 2 * index.texcoordIndex;
    Vertex(Vec3(attrib.positions[p], attrib.positions[p + 1], attrib.positions[p + 2]),
           White,
           Vec2(attrib.texcoords[t], 1.0 - attrib.texcoords[t + 1]))
  }

  /** The vertex of every corner, in traversal order. */
  function Assemble(file: ObjFile): (r: seq<Vertex>)
    requires WellFormed(file)
    ensures |r| == TotalIndices(file.shapes)
  {
    var flat := Flatten(file.shapes);
    seq(|flat|, k requires 0 <= k < |flat| => AssembleVertex(file.attrib, flat[k]))
  }

  /** Every assembled vertex is white, and its `v` is the file's flipped
      (OBJ counts `v` from the bottom, Vulkan from the top). */
  lemma AssembledVerticesAreWhiteAndFlipped(file: ObjFile, k: nat)
    requires WellFormed(file) && k < TotalIndices(file.shapes)
    ensures var corner := Flatten(file.shapes)[k];
            && Assemble(file)[k].color == White
            && Assemble(file)[k].texCoord.v + file.attrib.texcoords[2 * corner.texcoordIndex + 1] == 1.0
            && Assemble(file)[k].pos.x == file.attrib.positions[3 * corner.vertexIndex]
  {
  }

  /** Reference for the vertex list: each vertex once, at its first
      appearance. */
  function FirstOccurrences(s: seq<Vertex>): seq<Vertex>
    decreases |s|
  {
    if |s| == 0 then []
    else
      var previous := FirstOccurrences(s[..|s| - 1]);
      if s[|s| - 1] in previous then previous else previous + [s[|s| - 1]]
  }

  predicate Distinct(s: seq<Vertex>) {
    forall i, j :: 0 <= i < j < |s| ==> s[i] != s[j]
  }

  lemma {:induction false} FirstOccurrencesFacts(s: seq<Vertex>)
    ensures forall x :: x in FirstOccurrences(s) <==> x in s
    ensures Distinct(FirstOccurrences(s))
    decreases |s|
  {
    if |s| > 0 {
      var init := s[..|s| - 1];
      FirstOccurrencesFacts(init);
      assert s == init + [s[|s| - 1]];
    }
  }

  lemma FirstOccurrencesSnoc(s: seq<Vertex>, x: Vertex)
    ensures FirstOccurrences(s + [x]) == (if x in FirstOccurrences(s) then FirstOccurrences(s) else FirstOccurrences(s) + [x])
  {
    assert (s + [x])[..|s|] == s;
  }

  /** The vertex list an index list expands to. */
  function Expand(vertices: seq<Vertex>, indices: seq<nat>): (r: seq<Vertex>)
    requires forall k :: 0 <= k < |indices| ==> indices[k] < |vertices|
    ensures |r| == |indices|
  {
    seq(|indices|, k requires 0 <= k < |indices| => vertices[indices[k]])
  }

  /** The state of the deduplication loop after the corners `done`. */
  ghost predicate Progress(vertices0: seq<Vertex>, indices0: seq<nat>, done: seq<Vertex>,
                     unique: map<Vertex, nat>, vertices: seq<Vertex>, indices: seq<nat>) {
    && vertices == vertices0 + FirstOccurrences(done)
    && |indices| == |indices0| + |done| && indices[..|indices0|] == indices0
    && (forall x :: x in unique <==> x in done)
    && (forall x :: x in unique ==> |vertices0| <= unique[x] < |vertices| && vertices[unique[x]] == x)
    && (forall k :: |indices0| <= k < |indices| ==> |vertices0| <= indices[k] < |vertices|)
    && (forall k :: |indices0| <= k < |indices| ==> vertices[indices[k]] == done[k - |indices0|])
  }

  /** A corner whose vertex is already mapped only appends its index. */
  lemma SeenVertexStep(vertices0: seq<Vertex>, indices0: seq<nat>, done: seq<Vertex>,
                       unique: map<Vertex, nat>, vertices: seq<Vertex>, indices: seq<nat>, x: Vertex)
    requires Progress(vertices0, indices0, done, unique, vertices, indices) && x in unique
    ensures Progress(vertices0, indices0, done + [x], unique, vertices, indices + [unique[x]])
  {
    FirstOccurrencesFacts(done);
    FirstOccurrencesSnoc(done, x);
    assert (indices + [unique[x]])[..|indices0|] == indices[..|indices0|];
  }

  /** A new vertex is appended, mapped to its position, and indexed. */
  lemma NewVertexStep(vertices0: seq<Vertex>, indices0: seq<nat>, done: seq<Vertex>,
                      unique: map<Vertex, nat>, vertices: seq<Vertex>, indices: seq<nat>, x: Vertex)
    requires Progress(vertices0, indices0, done, unique, vertices, indices) && x !in unique
    ensures Progress(vertices0, indices0, done + [x], unique[x := |vertices|], vertices + [x], indices + [|vertices|])
  {
    FirstOccurrencesFacts(done);
    FirstOccurrencesSnoc(done, x);
    var unique' := unique[x := |vertices|];
    var vertices' := vertices + [x];
    var indices' := indices + [|vertices|];
    var done' := done + [x];
    assert indices'[..|indices0|] == indices[..|indices0|];
    assert forall y :: y in unique' ==> |vertices0| <= unique'[y] < |vertices'| && vertices'[unique'[y]] == y;
    forall k | |indices0| <= k < |indices'|
      ensures |vertices0| <= indices'[k] < |vertices'|
      ensures vertices'[indices'[k]] == done'[k - |indices0|]
    {
      if k < |indices| {
        assert indices'[k] == indices[k];
      } else {
        assert k == |indices| && indices'[k] == |vertices|;
      }
    }
  }

  /** The deduplication loop, appending to `vertices0`/`indices0` with an
      empty map. For every corner, a vertex not yet in the map is appended
      and mapped to its position, and the mapped position is appended to
      the index list. */
  method AppendDeduplicated(vertices0: seq<Vertex>, indices0: seq<nat>, assembled: seq<Vertex>)
    returns (vertices: seq<Vertex>, indices: seq<nat>)
    ensures vertices == vertices0 + FirstOccurrences(assembled)
    ensures |indices| == |indices0| + |assembled| && indices[..|indices0|] == indices0
    ensures forall k :: |indices0| <= k < |indices| ==> |vertices0| <= indices[k] < |vertices|
    ensures forall k :: |indices0| <= k < |indices| ==> vertices[indices[k]] == assembled[k - |indices0|]
  {
    var unique: map<Vertex, nat> := map[];
    vertices := vertices0;
    indices := indices0;
    var i := 0;
    assert assembled[..0] == [];
    while i < |assembled|
      invariant 0 <= i <= |assembled|
      invariant Progress(vertices0, indices0, assembled[..i], unique, vertices, indices)
    {
      var vertex := assembled[i];
      assert assembled[..i + 1] == assembled[..i] + [vertex];
      if vertex !in unique {
        NewVertexStep(vertices0, indices0, assembled[..i], unique, vertices, indices, vertex);
        unique := unique[vertex := |vertices|];
        vertices := vertices + [vertex];
      } else {
        SeenVertexStep(vertices0, indices0, assembled[..i], unique, vertices, indices, vertex);
      }
      indices := indices + [unique[vertex]];
      i := i + 1;
    }
    assert assembled[..i] == assembled;
    assert Progress(vertices0, indices0, assembled, unique, vertices, indices);
  }

  /** `loadModel` of `src/assets/assets_loader.cpp`: a parser failure throws
      its error text and leaves the storage alone; otherwise the storage
      receives a duplicate-free vertex list, in first-appearance order, and
      one index per corner that expands back to exactly the assembled
      corners. */
  method LoadModel(storage: Storage, parsed: Parsed) returns (r: Result<Storage>)
    requires parsed.ParsedFile? ==> WellFormed(parsed.file)
    ensures parsed.ParseFailed? ==> r == Err(ModelLoadFailed(parsed.error))
    ensures parsed.ParsedFile? ==> r.Ok?
    ensures r.Ok? ==> && Distinct(r.value.vertices)
                      && r.value.vertices == FirstOccurrences(Assemble(parsed.file))
                      && |r.value.indices| == TotalIndices(parsed.file.shapes)
                      && (forall k :: 0 <= k < |r.value.indices| ==> r.value.indices[k] < |r.value.vertices|)
                      && Expand(r.value.vertices, r.value.indices) == Assemble(parsed.file)
  {
    if parsed.ParseFailed? {
      return Err(ModelLoadFailed(parsed.error));
    }
    var assembled := Assemble(parsed.file);
    var vertices, indices := AppendDeduplicated([], [], assembled);
    assert indices[0..] == indices;
    FirstOccurrencesFacts(assembled);
    r := Ok(SetModelData(storage, vertices, indices));
  }

  /** `loadModel` of `src2/assets/assets_loader.cpp`, on the loader's own
      lists: the new vertices follow the old ones and the new indices point
      past them. */
  method LoadModelAppending(vertices0: seq<Vertex>, indices0: seq<nat>, parsed: Parsed)
    returns (r: Result<Storage>)
    requires parsed.ParsedFile? ==> WellFormed(parsed.file)
    ensures parsed.ParseFailed? ==> r == Err(ModelLoadFailed(parsed.error))
    ensures parsed.ParsedFile? ==> r.Ok?
    ensures r.Ok? ==> var added := TotalIndices(parsed.file.shapes);
                      && r.value.vertices == vertices0 + FirstOccurrences(Assemble(parsed.file))
                      && |r.value.indices| == |indices0| + added
                      && r.value.indices[..|indices0|] == indices0
                      && forall k :: |indices0| <= k < |r.value.indices|
                                     ==> && |vertices0| <= r.value.indices[k] < |r.value.vertices|
                                         && r.value.vertices[r.value.indices[k]] == Assemble(parsed.file)[k - |indices0|]
  {
    if parsed.ParseFailed? {
      return Err(ModelLoadFailed(parsed.error));
    }
    var vertices, indices := AppendDeduplicated(vertices0, indices0, Assemble(parsed.file));
    r := Ok(Storage(vertices, indices));
  }

  /** The map forgets between calls, so a second load of the same model
      into the same lists repeats every vertex: the lists are free of
      duplicates only within one call. */
  lemma ReloadRepeatsVertices(file: ObjFile)
    requires WellFormed(file) && TotalIndices(file.shapes) > 0
    ensures var once := FirstOccurrences(Assemble(file));
            |once| > 0 && !Distinct(once + once)
  {
    var a := Assemble(file);
    var once := FirstOccurrences(a);
    FirstOccurrencesFacts(a);
    assert a[0] in a;
    var both := once + once;
    assert both[0] == both[|once|];
  }
}

=== FILE: mip_math.dfy ===
/** Integer arithmetic of a mip chain: the level count
    `floor(log2(max(w, h))) + 1`, computed in the source with floating-point
    `log2` and modelled here as the bit length, and the per-level extents
    obtained by repeatedly halving a side while it exceeds one. */
module MipMath {

  function Max(a: nat, b: nat): nat {
    if a >= b then a else b
  }

  function Pow2(n: nat): nat
    ensures Pow2(n) >= 1
  {
    if n == 0 then 1 else 2 * Pow2(n - 1)
  }

  /** Number of binary digits of `x` (zero for zero). */
  function BitLength(x: nat): nat {
    if x == 0 then 0 else 1 + BitLength(x / 2)
  }

  /** `x >> i`: `i` right shifts by one bit. */
  function Shr(x: nat, i: nat): nat {
    if i == 0 then x else Shr(x / 2, i - 1)
  }

  /** One halving step of the mip loop: a side halves only while it exceeds one. */
  function Halve(x: nat): nat {
    if x > 1 then x / 2 else x
  }

  /** A side after `i` halving steps. */
  function HalveN(x: nat, i: nat): nat {
    if i == 0 then x else Halve(HalveN(x, i - 1))
  }

  /** Number of mip levels of a `width` x `height` texture. */
  function MipLevels(width: nat, height: nat): nat {
    BitLength(Max(width, height))
  }

  /** The bit length is `floor(log2(x)) + 1`: the unique `L` with
      `2^(L-1) <= x < 2^L`. */
  lemma {:induction false} BitLengthBounds(x: nat)
    requires x >= 1
    ensures BitLength(x) >= 1
    ensures Pow2(BitLength(x) - 1) <= x < Pow2(BitLength(x))
  {
    if x / 2 == 0 {
      assert x == 1;
    } else {
      BitLengthBounds(x / 2);
    }
  }

  /** The mip count of a texture with at least one pixel is at least one and
      is exactly `floor(log2(max(width, height))) + 1`. */
  lemma MipLevelsIsFloorLog2PlusOne(width: nat, height: nat)
    requires width >= 1 && height >= 1
    ensures MipLevels(width, height) >= 1
    ensures Pow2(MipLevels(width, height) - 1) <= Max(width, height) < Pow2(MipLevels(width, height))
  {
    BitLengthBounds(Max(width, height));
  }

  /** Shifting once more halves the shifted value. */
  lemma {:induction false} ShrStep(x: nat, i: nat)
    ensures Shr(x, i + 1) == Shr(x, i) / 2
  {
    if i > 0 {
      ShrStep(x / 2, i - 1);
    }
  }

  /** Shifting is monotone in the shifted value. */
  lemma {:induction false} ShrMonotone(x: nat, y: nat, i: nat)
    requires x <= y
    ensures Shr(x, i) <= Shr(y, i)
  {
    if i > 0 {
      ShrMonotone(x / 2, y / 2, i - 1);
    }
  }

  /** Shifting a positive value right by one less than its bit length leaves
      exactly its leading one. */
  lemma {:induction false} ShrToLeadingBit(x: nat)
    requires x >= 1
    ensures Shr(x, BitLength(x) - 1) == 1
  {
    if x / 2 >= 1 {
      ShrToLeadingBit(x / 2);
    }
  }

  /** The halving rule of the mip loop yields `max(1, x >> i)` at step `i`. */
  lemma {:induction false} HalvingIsClampedShift(x: nat, i: nat)
    requires x >= 1
    ensures HalveN(x, i) == Max(1, Shr(x, i))
  {
    if i > 0 {
      HalvingIsClampedShift(x, i - 1);
      ShrStep(x, i - 1);
    }
  }

  /** Level `L - 1` of a full mip chain is one pixel along its longest side,
      and no side of it is larger; the level before it still has a side of
      at least two, so the chain has no redundant 1x1 level. */
  lemma LastLevelIsOnePixel(width: nat, height: nat)
    requires width >= 1 && height >= 1
    ensures var L := MipLevels(width, height);
            L >= 1 && Max(HalveN(width, L - 1), HalveN(height, L - 1)) == 1
    ensures var L := MipLevels(width, height);
            L >= 2 ==> Max(HalveN(width, L - 2), HalveN(height, L - 2)) >= 2
  {
    var m := Max(width, height);
    var L := MipLevels(width, height);
    BitLengthBounds(m);
    ShrToLeadingBit(m);
    ShrMonotone(width, m, L - 1);
    ShrMonotone(height, m, L - 1);
    HalvingIsClampedShift(width, L - 1);
    HalvingIsClampedShift(height, L - 1);
    if L >= 2 {
      ShrStep(m, L - 2);
      assert Shr(m, L - 2) >= 2;
      if width >= height {
        HalvingIsClampedShift(width, L - 2);
      } else {
        HalvingIsClampedShift(height, L - 2);
      }
    }
  }
}

=== FILE: mip_plan.dfy ===
/** `generateMipmaps`: the barriers and blits recorded to fill a mip chain
    from level 0, as a list of operations over the per-level layout map.

    Two schedules exist. `newVersion.cpp`, `src/resources/ResourceManager.cpp`,
    `src/core/vk_resource_manager.cpp` and `src2/core/vk_resource_manager.cpp`
    record the same one: move each level to transfer-source, blit it into the
    next, and after the loop move the last level too and then the whole chain
    to shader-read in a single barrier (`GenerateMipmaps`).
    `src/assets/texture_manager.cpp` instead finishes each level inside the
    loop and moves the last level straight from transfer-destination to
    shader-read (`GenerateMipmapsInterleaved`). */
module MipPlan {
  import opened VkTypes
  import opened MipMath
  import Formats
  import BarrierSpec

  /** One recorded command of the mip pass. */
  datatype MipOp =
    | LevelBarrier(baseLevel: nat, levelCount: nat, from: ImageLayout, to: ImageLayout, masks: Masks)
    | Blit(srcLevel: nat, srcExtent: Extent, dstLevel: nat, dstExtent: Extent)

  /** The layout of every mip level, indexed by level. */
  type Levels = seq<ImageLayout>

  function Uniform(n: nat, l: ImageLayout): (s: Levels)
    ensures |s| == n && forall j :: 0 <= j < n ==> s[j] == l
  {
    seq(n, _ => l)
  }

  /** Levels below `n` in layout `done`, the others in `todo`. */
  function Split(count: nat, n: nat, done: ImageLayout, todo: ImageLayout): (s: Levels)
    ensures |s| == count && forall j :: 0 <= j < count ==> s[j] == if j < n then done else todo
  {
    seq(count, j => if j < n then done else todo)
  }

  /** Executes one command against the layout map. A barrier whose old
      layout does not match a level it covers, a range outside the image, or a
      blit whose levels are not in transfer-source / transfer-destination
      layout is invalid usage and yields None. */
  function Apply(levels: Levels, op: MipOp): Option<Levels> {
    match op
    case LevelBarrier(b, c, from, to, _) =>
      if b + c <= |levels| && forall j :: b <= j < b + c ==> levels[j] == from then
        Some(seq(|levels|, j requires 0 <= j < |levels| => if b <= j < b + c then to else levels[j]))
      else
        None
    case Blit(s, _, d, _) =>
      if s < |levels| && d < |levels| && levels[s] == TransferSrcOptimal && levels[d] == TransferDstOptimal then
        Some(levels)
      else
        None
  }

  /** Executes a command list in order; None at the first invalid command. */
  function Run(levels: Levels, ops: seq<MipOp>): Option<Levels>
    decreases |ops|
  {
    if |ops| == 0 then Some(levels)
    else
      var next :- Apply(levels, ops[0]);
      Run(next, ops[1..])
  }

  lemma {:induction false} RunAppend(levels: Levels, a: seq<MipOp>, b: seq<MipOp>)
    ensures Run(levels, a + b) == match Run(levels, a) case None => None case Some(l) => Run(l, b)
    decreases |a|
  {
    if |a| == 0 {
      assert a + b == b;
    } else {
      assert (a + b)[0] == a[0];
      assert (a + b)[1..] == a[1..] + b;
      match Apply(levels, a[0])
      case None =>
      case Some(next) => RunAppend(next, a[1..], b);
    }
  }

  /** `op` is a barrier that moves `level` into `layout`. */
  predicate Moves(op: MipOp, level: nat, layout: ImageLayout) {
    op.LevelBarrier? && op.to == layout && op.baseLevel <= level < op.baseLevel + op.levelCount
  }

  /** Number of barriers in `ops` that move `level` into `layout`. */
  function CountInto(ops: seq<MipOp>, level: nat, layout: ImageLayout): nat
    decreases |ops|
  {
    if |ops| == 0 then 0
    else (if Moves(ops[0], level, layout) then 1 else 0) + CountInto(ops[1..], level, layout)
  }

  lemma {:induction false} CountAppend(a: seq<MipOp>, b: seq<MipOp>)
    ensures forall level: nat, layout :: CountInto(a + b, level, layout) == CountInto(a, level, layout) + CountInto(b, level, layout)
    decreases |a|
  {
    if |a| == 0 {
      assert a + b == b;
    } else {
      assert (a + b)[0] == a[0];
      assert (a + b)[1..] == a[1..] + b;
      CountAppend(a[1..], b);
    }
  }

  lemma CountSnoc(ops: seq<MipOp>, op: MipOp)
    ensures forall level: nat, layout :: CountInto(ops + [op], level, layout)
                                         == CountInto(ops, level, layout) + (if Moves(op, level, layout) then 1 else 0)
  {
    CountAppend(ops, [op]);
    forall level: nat, layout
      ensures CountInto([op], level, layout) == if Moves(op, level, layout) then 1 else 0
    {
      assert [op][1..] == [];
    }
  }

  lemma RunSnoc(levels: Levels, ops: seq<MipOp>, op: MipOp)
    ensures Run(levels, ops + [op]) == match Run(levels, ops) case None => None case Some(l) => Apply(l, op)
  {
    RunAppend(levels, ops, [op]);
    assert [op][1..] == [];
  }

  /** A barrier whose old layout matches every level it covers moves exactly
      those levels to its new layout. */
  lemma ApplyBarrier(levels: Levels, op: MipOp, expected: Levels)
    requires op.LevelBarrier? && op.baseLevel + op.levelCount <= |levels|
    requires forall j :: op.baseLevel <= j < op.baseLevel + op.levelCount ==> levels[j] == op.from
    requires |expected| == |levels|
    requires forall j :: 0 <= j < |levels| ==>
               expected[j] == if op.baseLevel <= j < op.baseLevel + op.levelCount then op.to else levels[j]
    ensures Apply(levels, op) == Some(expected)
  {
    var b, c := op.baseLevel, op.levelCount;
    var moved := seq(|levels|, j requires 0 <= j < |levels| => if b <= j < b + c then op.to else levels[j]);
    assert moved == expected;
  }

  /** Every barrier in `ops` orders the prior use of its old layout before
      the next use of its new one. */
  predicate AllBarriersOrder(ops: seq<MipOp>) {
    forall k :: 0 <= k < |ops| && ops[k].LevelBarrier? ==> BarrierSpec.Orders(ops[k].masks, ops[k].from, ops[k].to)
  }

  const TransferWriteToRead: Masks := Masks({Transfer}, {TransferWrite}, {Transfer}, {TransferRead})
  const TransferReadToShader: Masks := Masks({Transfer}, {TransferRead}, {FragmentShader}, {ShaderRead})
  const TransferWriteToShader: Masks := Masks({Transfer}, {TransferWrite}, {FragmentShader}, {ShaderRead})

  /** Level `level` from blit destination to blit source. */
  function ToSource(level: nat): MipOp {
    LevelBarrier(level, 1, TransferDstOptimal, TransferSrcOptimal, TransferWriteToRead)
  }

  /** Levels `0 .. count-1` from blit source to shader-read. */
  function AllToShaderRead(count: nat): MipOp {
    LevelBarrier(0, count, TransferSrcOptimal, ShaderReadOnlyOptimal, TransferReadToShader)
  }

  /** One finished level from blit source to shader-read. */
  function SourceToShaderRead(level: nat): MipOp {
    LevelBarrier(level, 1, TransferSrcOptimal, ShaderReadOnlyOptimal, TransferReadToShader)
  }

  /** The never-blitted-from last level straight to shader-read. */
  function DestinationToShaderRead(level: nat): MipOp {
    LevelBarrier(level, 1, TransferDstOptimal, ShaderReadOnlyOptimal, TransferWriteToShader)
  }

  /** The extent of mip level `i`: each side is `max(1, side >> i)`. */
  function LevelExtent(width: nat, height: nat, i: nat): Extent {
    Extent(Max(1, Shr(width, i)), Max(1, Shr(height, i)))
  }

  /** The blit from level `k` into level `k + 1`, sized by the halving rule. */
  function HalvingBlit(width: nat, height: nat, k: nat): MipOp {
    Blit(k, Extent(HalveN(width, k), HalveN(height, k)), k + 1, Extent(HalveN(width, k + 1), HalveN(height, k + 1)))
  }

  /** The format can be sampled with linear filtering under optimal tiling,
      which a linear-filtered blit requires. */
  predicate LinearBlitSupported(query: Formats.FormatQuery, format: Format) {
    SampledImageFilterLinear in query(format).optimalTilingFeatures
  }

  lemma HalvingBlitIsLevelExtent(width: nat, height: nat, k: nat)
    requires width >= 1 && height >= 1
    ensures HalvingBlit(width, height, k) == Blit(k, LevelExtent(width, height, k), k + 1, LevelExtent(width, height, k + 1))
  {
    HalvingIsClampedShift(width, k);
    HalvingIsClampedShift(height, k);
    HalvingIsClampedShift(width, k + 1);
    HalvingIsClampedShift(height, k + 1);
  }

  lemma HalveNPositive(x: nat, i: nat)
    requires x >= 1
    ensures HalveN(x, i) >= 1
  {
    HalvingIsClampedShift(x, i);
  }

  /** One iteration of the shared schedule: level `n` becomes a blit source
      and is blitted into level `n + 1`. */
  lemma SharedStep(count: nat, n: nat, width: nat, height: nat)
    requires n + 1 < count
    ensures Apply(Split(count, n, TransferSrcOptimal, TransferDstOptimal), ToSource(n))
            == Some(Split(count, n + 1, TransferSrcOptimal, TransferDstOptimal))
    ensures Apply(Split(count, n + 1, TransferSrcOptimal, TransferDstOptimal), HalvingBlit(width, height, n))
            == Some(Split(count, n + 1, TransferSrcOptimal, TransferDstOptimal))
  {
    ApplyBarrier(Split(count, n, TransferSrcOptimal, TransferDstOptimal), ToSource(n),
                 Split(count, n + 1, TransferSrcOptimal, TransferDstOptimal));
  }

  /** The tail of the shared schedule: the last level becomes a source and
      the whole chain moves to shader-read. */
  lemma SharedFinish(count: nat)
    requires count >= 1
    ensures Apply(Split(count, count - 1, TransferSrcOptimal, TransferDstOptimal), ToSource(count - 1))
            == Some(Uniform(count, TransferSrcOptimal))
    ensures Apply(Uniform(count, TransferSrcOptimal), AllToShaderRead(count)) == Some(Uniform(count, ShaderReadOnlyOptimal))
  {
    ApplyBarrier(Split(count, count - 1, TransferSrcOptimal, TransferDstOptimal), ToSource(count - 1),
                 Uniform(count, TransferSrcOptimal));
    ApplyBarrier(Uniform(count, TransferSrcOptimal), AllToShaderRead(count), Uniform(count, ShaderReadOnlyOptimal));
  }

  /** The shared schedule after `i - 1` loop iterations: levels below
      `i - 1` are blit sources, each moved there exactly once. */
  predicate SharedPrefix(ops: seq<MipOp>, width: nat, height: nat, mipLevels: nat, i: nat) {
    && 1 <= i <= mipLevels
    && |ops| == 2 * (i - 1)
    && (forall k :: 0 <= k < i - 1 ==> ops[2 * k] == ToSource(k) && ops[2 * k + 1] == HalvingBlit(width, height, k))
    && Run(Uniform(mipLevels, TransferDstOptimal), ops) == Some(Split(mipLevels, i - 1, TransferSrcOptimal, TransferDstOptimal))
    && (forall j :: 0 <= j < mipLevels ==> CountInto(ops, j, TransferSrcOptimal) == (if j < i - 1 then 1 else 0))
    && (forall j :: 0 <= j < mipLevels ==> CountInto(ops, j, ShaderReadOnlyOptimal) == 0)
  }

  lemma SharedLoopStep(ops: seq<MipOp>, width: nat, height: nat, mipLevels: nat, i: nat)
    requires SharedPrefix(ops, width, height, mipLevels, i) && i < mipLevels
    ensures SharedPrefix(ops + [ToSource(i - 1), HalvingBlit(width, height, i - 1)], width, height, mipLevels, i + 1)
  {
    var start := Uniform(mipLevels, TransferDstOptimal);
    var blit := HalvingBlit(width, height, i - 1);
    SharedStep(mipLevels, i - 1, width, height);
    RunSnoc(start, ops, ToSource(i - 1));
    CountSnoc(ops, ToSource(i - 1));
    var mid := ops + [ToSource(i - 1)];
    RunSnoc(start, mid, blit);
    CountSnoc(mid, blit);
    assert mid + [blit] == ops + [ToSource(i - 1), blit];
  }

  /** The last two commands of the shared schedule: the final level becomes
      a source, then every level goes to shader-read together. */
  lemma SharedTail(ops: seq<MipOp>, width: nat, height: nat, mipLevels: nat)
    requires SharedPrefix(ops, width, height, mipLevels, mipLevels)
    ensures var all := ops + [ToSource(mipLevels - 1), AllToShaderRead(mipLevels)];
            && Run(Uniform(mipLevels, TransferDstOptimal), all) == Some(Uniform(mipLevels, ShaderReadOnlyOptimal))
            && (forall j :: 0 <= j < mipLevels ==>
                  CountInto(all, j, TransferSrcOptimal) == 1 && CountInto(all, j, ShaderReadOnlyOptimal) == 1)
            && SharedShape(all, width, height, mipLevels)
  {
    var start := Uniform(mipLevels, TransferDstOptimal);
    var mid := ops + [ToSource(mipLevels - 1)];
    SharedFinish(mipLevels);
    RunSnoc(start, ops, ToSource(mipLevels - 1));
    CountSnoc(ops, ToSource(mipLevels - 1));
    RunSnoc(start, mid, AllToShaderRead(mipLevels));
    CountSnoc(mid, AllToShaderRead(mipLevels));
    assert mid + [AllToShaderRead(mipLevels)] == ops + [ToSource(mipLevels - 1), AllToShaderRead(mipLevels)];
  }

  /** The command list of the shared schedule for `mipLevels` levels. */
  predicate SharedShape(ops: seq<MipOp>, width: nat, height: nat, mipLevels: nat) {
    && mipLevels >= 1 && |ops| == 2 * mipLevels
    && (forall k :: 0 <= k < mipLevels - 1 ==> ops[2 * k] == ToSource(k) && ops[2 * k + 1] == HalvingBlit(width, height, k))
    && ops[2 * mipLevels - 2] == ToSource(mipLevels - 1)
    && ops[2 * mipLevels - 1] == AllToShaderRead(mipLevels)
  }

  lemma SharedShapeFacts(ops: seq<MipOp>, width: nat, height: nat, mipLevels: nat)
    requires width >= 1 && height >= 1
    requires SharedShape(ops, width, height, mipLevels)
    ensures forall k :: 0 <= k < mipLevels - 1 ==>
              ops[2 * k + 1] == Blit(k, LevelExtent(width, height, k), k + 1, LevelExtent(width, height, k + 1))
    ensures forall k :: 0 <= k < mipLevels - 2 ==>
              ops[2 * k + 1].Blit? && ops[2 * k + 3].Blit? && ops[2 * k + 1].dstExtent == ops[2 * k + 3].srcExtent
    ensures AllBarriersOrder(ops)
  {
    forall k | 0 <= k < mipLevels - 1
      ensures ops[2 * k + 1] == Blit(k, LevelExtent(width, height, k), k + 1, LevelExtent(width, height, k + 1))
    {
      HalvingBlitIsLevelExtent(width, height, k);
    }
    forall k | 0 <= k < mipLevels - 2
      ensures ops[2 * k + 1].Blit? && ops[2 * k + 3].Blit? && ops[2 * k + 1].dstExtent == ops[2 * k + 3].srcExtent
    {
      var j := k + 1;
      assert ops[2 * k + 1] == HalvingBlit(width, height, k);
      assert ops[2 * j + 1] == HalvingBlit(width, height, j);
      assert 2 * j + 1 == 2 * k + 3;
    }
    forall k | 0 <= k < |ops|
      ensures ops[k].LevelBarrier? ==> BarrierSpec.Orders(ops[k].masks, ops[k].from, ops[k].to)
    {
      if k < 2 * mipLevels - 2 {
        var m := k / 2;
        if k == 2 * m {
          assert ops[2 * m] == ToSource(m);
        } else {
          assert ops[2 * m + 1] == HalvingBlit(width, height, m);
        }
      }
    }
  }

  /** The schedule shared by `newVersion.cpp` and the resource managers of
      `src/resources`, `src/core` and `src2/core`. `query` and `format` give
      the format-feature check made before anything is recorded. */
  method GenerateMipmaps(query: Formats.FormatQuery, format: Format, width: nat, height: nat, mipLevels: nat)
    returns (r: Result<seq<MipOp>>)
    requires width >= 1 && height >= 1 && mipLevels >= 1
    ensures r.Err? <==> !LinearBlitSupported(query, format)
    ensures r.Err? ==> r.error == NoLinearBlit
    ensures r.Ok? ==> Run(Uniform(mipLevels, TransferDstOptimal), r.value) == Some(Uniform(mipLevels, ShaderReadOnlyOptimal))
    ensures r.Ok? ==> |r.value| == 2 * mipLevels
    ensures r.Ok? ==> forall k :: 0 <= k < mipLevels - 1 ==>
                        r.value[2 * k + 1] == Blit(k, LevelExtent(width, height, k), k + 1, LevelExtent(width, height, k + 1))
    ensures r.Ok? ==> forall k :: 0 <= k < mipLevels - 2 ==>
                        r.value[2 * k + 1].Blit? && r.value[2 * k + 3].Blit?
                        && r.value[2 * k + 1].dstExtent == r.value[2 * k + 3].srcExtent
    ensures r.Ok? ==> forall j :: 0 <= j < mipLevels ==>
                        CountInto(r.value, j, TransferSrcOptimal) == 1 && CountInto(r.value, j, ShaderReadOnlyOptimal) == 1
    ensures r.Ok? ==> AllBarriersOrder(r.value)
  {
    if !LinearBlitSupported(query, format) {
      return Err(NoLinearBlit);
    }
    assert Uniform(mipLevels, TransferDstOptimal) == Split(mipLevels, 0, TransferSrcOptimal, TransferDstOptimal);
    var ops: seq<MipOp> := [];
    var mipWidth, mipHeight := width, height;
    var i := 1;
    while i < mipLevels
      invariant 1 <= i <= mipLevels
      invariant |ops| == 2 * (i - 1)
      invariant mipWidth == HalveN(width, i - 1) && mipHeight == HalveN(height, i - 1)
      invariant SharedPrefix(ops, width, height, mipLevels, i)
    {
      HalveNPositive(width, i - 1);
      HalveNPositive(height, i - 1);
      var blit := Blit(i - 1, Extent(mipWidth, mipHeight), i,
                       Extent(if mipWidth > 1 then mipWidth / 2 else 1, if mipHeight > 1 then mipHeight / 2 else 1));
      assert blit == HalvingBlit(width, height, i - 1);
      SharedLoopStep(ops, width, height, mipLevels, i);
      ops := ops + [ToSource(i - 1), blit];
      if mipWidth > 1 { mipWidth := mipWidth / 2; }
      if mipHeight > 1 { mipHeight := mipHeight / 2; }
      i := i + 1;
    }
    SharedTail(ops, width, height, mipLevels);
    ops := ops + [ToSource(mipLevels - 1), AllToShaderRead(mipLevels)];
    SharedShapeFacts(ops, width, height, mipLevels);
    r := Ok(ops);
  }

  /** One iteration of the `texture_manager.cpp` schedule: level `n` becomes
      a source, is blitted into level `n + 1`, and goes to shader-read. */
  lemma InterleavedStep(count: nat, n: nat, width: nat, height: nat)
    requires n + 1 < count
    ensures Apply(Split(count, n, ShaderReadOnlyOptimal, TransferDstOptimal), ToSource(n)) == Some(Blitting(count, n))
    ensures Apply(Blitting(count, n), HalvingBlit(width, height, n)) == Some(Blitting(count, n))
    ensures Apply(Blitting(count, n), SourceToShaderRead(n))
            == Some(Split(count, n + 1, ShaderReadOnlyOptimal, TransferDstOptimal))
  {
    ApplyBarrier(Split(count, n, ShaderReadOnlyOptimal, TransferDstOptimal), ToSource(n), Blitting(count, n));
    ApplyBarrier(Blitting(count, n), SourceToShaderRead(n), Split(count, n + 1, ShaderReadOnlyOptimal, TransferDstOptimal));
  }

  /** Levels below `n` finished, level `n` a blit source, the rest destinations. */
  function Blitting(count: nat, n: nat): (s: Levels)
    ensures |s| == count
    ensures forall j :: 0 <= j < count ==>
              s[j] == if j < n then ShaderReadOnlyOptimal else if j == n then TransferSrcOptimal else TransferDstOptimal
  {
    seq(count, j => if j < n then ShaderReadOnlyOptimal else if j == n then TransferSrcOptimal else TransferDstOptimal)
  }

  lemma InterleavedFinish(count: nat)
    requires count >= 1
    ensures Apply(Split(count, count - 1, ShaderReadOnlyOptimal, TransferDstOptimal), DestinationToShaderRead(count - 1))
            == Some(Uniform(count, ShaderReadOnlyOptimal))
  {
    ApplyBarrier(Split(count, count - 1, ShaderReadOnlyOptimal, TransferDstOptimal), DestinationToShaderRead(count - 1),
                 Uniform(count, ShaderReadOnlyOptimal));
  }

  /** The `texture_manager.cpp` schedule after `i - 1` loop iterations:
      levels below `i - 1` are finished, each moved to shader-read once. */
  predicate InterleavedPrefix(ops: seq<MipOp>, width: nat, height: nat, mipLevels: nat, i: nat) {
    && 1 <= i <= mipLevels
    && |ops| == 3 * (i - 1)
    && (forall k :: 0 <= k < i - 1 ==>
          ops[3 * k] == ToSource(k) && ops[3 * k + 1] == HalvingBlit(width, height, k) && ops[3 * k + 2] == SourceToShaderRead(k))
    && Run(Uniform(mipLevels, TransferDstOptimal), ops) == Some(Split(mipLevels, i - 1, ShaderReadOnlyOptimal, TransferDstOptimal))
    && (forall j :: 0 <= j < mipLevels ==> CountInto(ops, j, TransferSrcOptimal) == (if j < i - 1 then 1 else 0))
    && (forall j :: 0 <= j < mipLevels ==> CountInto(ops, j, ShaderReadOnlyOptimal) == (if j < i - 1 then 1 else 0))
  }

  lemma InterleavedRunStep(ops: seq<MipOp>, width: nat, height: nat, mipLevels: nat, i: nat)
    requires 1 <= i < mipLevels
    requires Run(Uniform(mipLevels, TransferDstOptimal), ops) == Some(Split(mipLevels, i - 1, ShaderReadOnlyOptimal, TransferDstOptimal))
    ensures Run(Uniform(mipLevels, TransferDstOptimal), ops + [ToSource(i - 1), HalvingBlit(width, height, i - 1), SourceToShaderRead(i - 1)])
            == Some(Split(mipLevels, i, ShaderReadOnlyOptimal, TransferDstOptimal))
  {
    var start := Uniform(mipLevels, TransferDstOptimal);
    var a := ops + [ToSource(i - 1)];
    var b := a + [HalvingBlit(width, height, i - 1)];
    assert b + [SourceToShaderRead(i - 1)] == ops + [ToSource(i - 1), HalvingBlit(width, height, i - 1), SourceToShaderRead(i - 1)];
    InterleavedStep(mipLevels, i - 1, width, height);
    RunSnoc(start, ops, ToSource(i - 1));
    assert Run(start, a) == Some(Blitting(mipLevels, i - 1));
    RunSnoc(start, a, HalvingBlit(width, height, i - 1));
    assert Run(start, b) == Some(Blitting(mipLevels, i - 1));
    RunSnoc(start, b, SourceToShaderRead(i - 1));
  }

  lemma InterleavedCountStep(ops: seq<MipOp>, width: nat, height: nat, mipLevels: nat, i: nat)
    requires 1 <= i < mipLevels
    requires forall j :: 0 <= j < mipLevels ==> CountInto(ops, j, TransferSrcOptimal) == (if j < i - 1 then 1 else 0)
    requires forall j :: 0 <= j < mipLevels ==> CountInto(ops, j, ShaderReadOnlyOptimal) == (if j < i - 1 then 1 else 0)
    ensures var all := ops + [ToSource(i - 1), HalvingBlit(width, height, i - 1), SourceToShaderRead(i - 1)];
            forall j :: 0 <= j < mipLevels ==>
              && CountInto(all, j, TransferSrcOptimal) == (if j < i then 1 else 0)
              && CountInto(all, j, ShaderReadOnlyOptimal) == (if j < i then 1 else 0)
  {
    var a := ops + [ToSource(i - 1)];
    var b := a + [HalvingBlit(width, height, i - 1)];
    assert b + [SourceToShaderRead(i - 1)] == ops + [ToSource(i - 1), HalvingBlit(width, height, i - 1), SourceToShaderRead(i - 1)];
    CountSnoc(ops, ToSource(i - 1));
    CountSnoc(a, HalvingBlit(width, height, i - 1));
    CountSnoc(b, SourceToShaderRead(i - 1));
  }

  lemma InterleavedLoopStep(ops: seq<MipOp>, width: nat, height: nat, mipLevels: nat, i: nat)
    requires InterleavedPrefix(ops, width, height, mipLevels, i) && i < mipLevels
    ensures InterleavedPrefix(ops + [ToSource(i - 1), HalvingBlit(width, height, i - 1), SourceToShaderRead(i - 1)],
                              width, height, mipLevels, i + 1)
  {
    var all := ops + [ToSource(i - 1), HalvingBlit(width, height, i - 1), SourceToShaderRead(i - 1)];
    InterleavedRunStep(ops, width, height, mipLevels, i);
    InterleavedCountStep(ops, width, height, mipLevels, i);
    forall k | 0 <= k < i
      ensures all[3 * k] == ToSource(k) && all[3 * k + 1] == HalvingBlit(width, height, k) && all[3 * k + 2] == SourceToShaderRead(k)
    {
      if k < i - 1 {
        assert all[3 * k] == ops[3 * k] && all[3 * k + 1] == ops[3 * k + 1] && all[3 * k + 2] == ops[3 * k + 2];
      }
    }
  }


  /** The last command of the interleaved schedule: the final level, never
      a source, goes from destination to shader-read. */
  lemma InterleavedTail(ops: seq<MipOp>, width: nat, height: nat, mipLevels: nat)
    requires InterleavedPrefix(ops, width, height, mipLevels, mipLevels)
    ensures var all := ops + [DestinationToShaderRead(mipLevels - 1)];
            && Run(Uniform(mipLevels, TransferDstOptimal), all) == Some(Uniform(mipLevels, ShaderReadOnlyOptimal))
            && (forall j :: 0 <= j < mipLevels ==>
                  && CountInto(all, j, ShaderReadOnlyOptimal) == 1
                  && CountInto(all, j, TransferSrcOptimal) == (if j < mipLevels - 1 then 1 else 0))
            && |all| == 3 * (mipLevels - 1) + 1
  {
    InterleavedFinish(mipLevels);
    RunSnoc(Uniform(mipLevels, TransferDstOptimal), ops, DestinationToShaderRead(mipLevels - 1));
    CountSnoc(ops, DestinationToShaderRead(mipLevels - 1));
  }

  /** The command list of the `texture_manager.cpp` schedule for `mipLevels` levels. */
  predicate InterleavedShape(ops: seq<MipOp>, width: nat, height: nat, mipLevels: nat) {
    && mipLevels >= 1 && |ops| == 3 * (mipLevels - 1) + 1
    && (forall k :: 0 <= k < mipLevels - 1 ==>
          ops[3 * k] == ToSource(k) && ops[3 * k + 1] == HalvingBlit(width, height, k) && ops[3 * k + 2] == SourceToShaderRead(k))
    && ops[3 * (mipLevels - 1)] == DestinationToShaderRead(mipLevels - 1)
  }

  lemma InterleavedShapeFacts(ops: seq<MipOp>, width: nat, height: nat, mipLevels: nat)
    requires width >= 1 && height >= 1
    requires InterleavedShape(ops, width, height, mipLevels)
    ensures forall k :: 0 <= k < mipLevels - 1 ==>
              ops[3 * k + 1] == Blit(k, LevelExtent(width, height, k), k + 1, LevelExtent(width, height, k + 1))
    ensures forall k :: 0 <= k < mipLevels - 2 ==>
              ops[3 * k + 1].Blit? && ops[3 * k + 4].Blit? && ops[3 * k + 1].dstExtent == ops[3 * k + 4].srcExtent
    ensures AllBarriersOrder(ops)
  {
    forall k | 0 <= k < mipLevels - 1
      ensures ops[3 * k + 1] == Blit(k, LevelExtent(width, height, k), k + 1, LevelExtent(width, height, k + 1))
    {
      HalvingBlitIsLevelExtent(width, height, k);
    }
    forall k | 0 <= k < mipLevels - 2
      ensures ops[3 * k + 1].Blit? && ops[3 * k + 4].Blit? && ops[3 * k + 1].dstExtent == ops[3 * k + 4].srcExtent
    {
      var j := k + 1;
      assert ops[3 * k + 1] == HalvingBlit(width, height, k);
      assert ops[3 * j + 1] == HalvingBlit(width, height, j);
      assert 3 * j + 1 == 3 * k + 4;
    }
    forall k | 0 <= k < |ops|
      ensures ops[k].LevelBarrier? ==> BarrierSpec.Orders(ops[k].masks, ops[k].from, ops[k].to)
    {
      if k < 3 * (mipLevels - 1) {
        var m := k / 3;
        if k == 3 * m {
          assert ops[3 * m] == ToSource(m);
        } else if k == 3 * m + 1 {
          assert ops[3 * m + 1] == HalvingBlit(width, height, m);
        } else {
          assert ops[3 * m + 2] == SourceToShaderRead(m);
        }
      }
    }
  }

  /** The schedule of `src/assets/texture_manager.cpp`. */
  method GenerateMipmapsInterleaved(query: Formats.FormatQuery, format: Format, width: nat, height: nat, mipLevels: nat)
    returns (r: Result<seq<MipOp>>)
    requires width >= 1 && height >= 1 && mipLevels >= 1
    ensures r.Err? <==> !LinearBlitSupported(query, format)
    ensures r.Err? ==> r.error == NoLinearBlit
    ensures r.Ok? ==> Run(Uniform(mipLevels, TransferDstOptimal), r.value) == Some(Uniform(mipLevels, ShaderReadOnlyOptimal))
    ensures r.Ok? ==> |r.value| == 3 * (mipLevels - 1) + 1
    ensures r.Ok? ==> forall k :: 0 <= k < mipLevels - 1 ==>
                        r.value[3 * k + 1] == Blit(k, LevelExtent(width, height, k), k + 1, LevelExtent(width, height, k + 1))
    ensures r.Ok? ==> forall k :: 0 <= k < mipLevels - 2 ==>
                        r.value[3 * k + 1].Blit? && r.value[3 * k + 4].Blit?
                        && r.value[3 * k + 1].dstExtent == r.value[3 * k + 4].srcExtent
    ensures r.Ok? ==> forall j :: 0 <= j < mipLevels ==>
                        && CountInto(r.value, j, ShaderReadOnlyOptimal) == 1
                        && CountInto(r.value, j, TransferSrcOptimal) == (if j < mipLevels - 1 then 1 else 0)
    ensures r.Ok? ==> AllBarriersOrder(r.value)
  {
    if !LinearBlitSupported(query, format) {
      return Err(NoLinearBlit);
    }
    assert Uniform(mipLevels, TransferDstOptimal) == Split(mipLevels, 0, ShaderReadOnlyOptimal, TransferDstOptimal);
    var ops: seq<MipOp> := [];
    var mipWidth, mipHeight := width, height;
    var i := 1;
    while i < mipLevels
      invariant 1 <= i <= mipLevels
      invariant |ops| == 3 * (i - 1)
      invariant mipWidth == HalveN(width, i - 1) && mipHeight == HalveN(height, i - 1)
      invariant InterleavedPrefix(ops, width, height, mipLevels, i)
    {
      HalveNPositive(width, i - 1);
      HalveNPositive(height, i - 1);
      var blit := Blit(i - 1, Extent(mipWidth, mipHeight), i,
                       Extent(if mipWidth > 1 then mipWidth / 2 else 1, if mipHeight > 1 then mipHeight / 2 else 1));
      assert blit == HalvingBlit(width, height, i - 1);
      InterleavedLoopStep(ops, width, height, mipLevels, i);
      ops := ops + [ToSource(i - 1), blit, SourceToShaderRead(i - 1)];
      if mipWidth > 1 { mipWidth := mipWidth / 2; }
      if mipHeight > 1 { mipHeight := mipHeight / 2; }
      i := i + 1;
    }
    InterleavedTail(ops, width, height, mipLevels);
    ops := ops + [DestinationToShaderRead(mipLevels - 1)];
    InterleavedShapeFacts(ops, width, height, mipLevels);
    r := Ok(ops);
  }
}

=== FILE: model_storage.dfy ===
/** `ModelStorage` (`src/assets/model_storage.cpp`): the loaded model's
    vertex and index lists, replaced wholesale, cleared, and tested for
    emptiness. Vertex attributes are `float` in the source and `real` here. */
module ModelStorage {

  /** A 3-component attribute: position or colour. */
  datatype Vec3 = Vec3(x: real, y: real, z: real)

  /** A texture coordinate. */
  datatype Vec2 = Vec2(u: real, v: real)

  /** The vertex format of the model; vertices are compared field by field. */
  datatype Vertex = Vertex(pos: Vec3, color: Vec3, texCoord: Vec2)

  datatype Storage = Storage(vertices: seq<Vertex>, indices: seq<nat>)

  /** `setModelData`: both lists are replaced by the arguments; nothing of
      the previous content survives. */
  function SetModelData(m: Storage, vertices: seq<Vertex>, indices: seq<nat>): (r: Storage)
    ensures r.vertices == vertices && r.indices == indices
  {
    Storage(vertices, indices)
  }

  /** `clear`. */
  function Clear(m: Storage): (r: Storage)
    ensures |r.vertices| == 0 && |r.indices| == 0
  {
    Storage([], [])
  }

  /** `empty`: there is nothing to draw when either list is empty. */
  predicate Empty(m: Storage) {
    |m.vertices| == 0 || |m.indices| == 0
  }

  /** After `clear` the storage is empty, and after storing two non-empty
      lists it is not, whatever it held before. */
  lemma EmptyAfterClearNotAfterSet(m: Storage, vertices: seq<Vertex>, indices: seq<nat>)
    ensures Empty(Clear(m))
    ensures !Empty(SetModelData(m, vertices, indices)) <==> |vertices| > 0 && |indices| > 0
  {
  }

  /** Storing twice keeps only the second call's data. */
  lemma SetModelDataOverwrites(m: Storage, v1: seq<Vertex>, i1: seq<nat>, v2: seq<Vertex>, i2: seq<nat>)
    ensures SetModelData(SetModelData(m, v1, i1), v2, i2) == SetModelData(m, v2, i2)
    ensures SetModelData(Clear(m), v2, i2) == SetModelData(m, v2, i2)
  {
  }
}

=== FILE: queue_families.dfy ===
/** Queue-family selection of `createLogicalDevice` in
    `src/core/vk_device.cpp` and `src/graphics/VulkanContext.cpp` (the same
    code in both), the stricter transfer search of `newVersion.cpp`, and the
    two family lists derived from the selection: the queues requested at
    device creation and the `queueFamilyIndices` later handed to concurrent
    images and to the swapchain. */
module QueueFamilies {
  import opened VkTypes

  /** One entry of the device's queue-family list, together with the
      surface's answer to "can this family present?". */
  datatype QueueFamily = QueueFamily(flags: set<QueueFlag>, presentSupport: bool)

  /** The tests the selection applies to a family. */
  datatype FamilyTest =
    | HasGraphics
    | GraphicsAndPresent
    | CanPresent
    | TransferWithoutGraphics            // the dedicated-transfer rule of vk_device.cpp
    | TransferOnly                       // newVersion.cpp: also without compute

  predicate Passes(f: QueueFamily, test: FamilyTest) {
    match test
    case HasGraphics => GraphicsQueue in f.flags
    case GraphicsAndPresent => GraphicsQueue in f.flags && f.presentSupport
    case CanPresent => f.presentSupport
    case TransferWithoutGraphics => TransferQueue in f.flags && GraphicsQueue !in f.flags
    case TransferOnly => TransferQueue in f.flags && GraphicsQueue !in f.flags && ComputeQueue !in f.flags
  }

  /** Index of the first family passing `test`; the list length when none
      does (the source's "not found" value before any rewriting). */
  function FirstPassing(families: seq<QueueFamily>, test: FamilyTest): (r: nat)
    ensures r <= |families|
    ensures r < |families| ==> Passes(families[r], test)
    ensures forall j :: 0 <= j < r ==> !Passes(families[j], test)
    ensures r == |families| <==> forall j :: 0 <= j < |families| ==> !Passes(families[j], test)
  {
    if |families| == 0 then 0
    else if Passes(families[0], test) then 0
    else
      var rest := FirstPassing(families[1..], test);
      assert forall j :: 1 <= j < |families| ==> families[j] == families[1..][j - 1];
      1 + rest
  }

  /** The surface answer for index `i`; an index past the list (the "no
      graphics family" value) never supports presentation. The engine asks
      the surface about that index anyway; that driver call is not modelled,
      and selection fails on the missing graphics family whatever it says. */
  predicate PresentAt(families: seq<QueueFamily>, i: nat) {
    i < |families| && families[i].presentSupport
  }

  datatype GraphicsPresent = GraphicsPresent(graphics: nat, present: nat)

  /** The graphics/present choice with its fallbacks: the first graphics
      family if it can present; else the first family that does both; else
      the first graphics family with the first presenting family; an error
      if either is still missing. */
  function SelectGraphicsPresent(families: seq<QueueFamily>): (r: Result<GraphicsPresent>)
    ensures r.Err? <==> (forall i :: 0 <= i < |families| ==> !Passes(families[i], HasGraphics))
                        || (forall i :: 0 <= i < |families| ==> !Passes(families[i], CanPresent))
    ensures r.Err? ==> r.error == MissingQueueFamily
    ensures r.Ok? ==> && r.value.graphics < |families| && Passes(families[r.value.graphics], HasGraphics)
                      && r.value.present < |families| && Passes(families[r.value.present], CanPresent)
    ensures r.Ok? && (exists i :: 0 <= i < |families| && Passes(families[i], GraphicsAndPresent)) ==>
              r.value.graphics == r.value.present == FirstPassing(families, GraphicsAndPresent)
    ensures r.Ok? && (forall i :: 0 <= i < |families| ==> !Passes(families[i], GraphicsAndPresent)) ==>
              && r.value.graphics == FirstPassing(families, HasGraphics)
              && r.value.present == FirstPassing(families, CanPresent)
              && r.value.graphics != r.value.present
  {
    var n := |families|;
    var firstGraphics := FirstPassing(families, HasGraphics);
    var both := FirstPassing(families, GraphicsAndPresent);
    var choice :=
      if PresentAt(families, firstGraphics) then GraphicsPresent(firstGraphics, firstGraphics)
      else if both < n then GraphicsPresent(both, both)
      else GraphicsPresent(firstGraphics, FirstPassing(families, CanPresent));
    if choice.graphics == n || choice.present == n then Err(MissingQueueFamily) else Ok(choice)
  }

  /** `transferIndex` after the lookup: the first transfer family without
      graphics, or `UINT32_MAX` when there is none. */
  function DedicatedTransfer(families: seq<QueueFamily>, test: FamilyTest): (t: nat)
    requires test == TransferWithoutGraphics || test == TransferOnly
    requires |families| < UINT32_MAX
    ensures t == UINT32_MAX <==> forall j :: 0 <= j < |families| ==> !Passes(families[j], test)
    ensures t != UINT32_MAX ==> t < |families| && t == FirstPassing(families, test)
    ensures t != UINT32_MAX ==> GraphicsQueue !in families[t].flags
  {
    var i := FirstPassing(families, test);
    if i == |families| then UINT32_MAX else i
  }

  /** The whole outcome of `createLogicalDevice`'s selection. */
  datatype QueueSelection = QueueSelection(graphics: nat, present: nat, transfer: nat)

  function SelectQueues(families: seq<QueueFamily>, transferTest: FamilyTest): (r: Result<QueueSelection>)
    requires transferTest == TransferWithoutGraphics || transferTest == TransferOnly
    requires |families| < UINT32_MAX
    ensures r.Err? <==> SelectGraphicsPresent(families).Err?
    ensures r.Ok? ==> var gp := SelectGraphicsPresent(families).value;
                      r.value == QueueSelection(gp.graphics, gp.present, DedicatedTransfer(families, transferTest))
  {
    var gp :- SelectGraphicsPresent(families);
    Ok(QueueSelection(gp.graphics, gp.present, DedicatedTransfer(families, transferTest)))
  }

  /** A dedicated transfer family never coincides with the graphics family. */
  lemma TransferDiffersFromGraphics(families: seq<QueueFamily>, transferTest: FamilyTest)
    requires transferTest == TransferWithoutGraphics || transferTest == TransferOnly
    requires |families| < UINT32_MAX
    requires SelectQueues(families, transferTest).Ok?
    ensures var s := SelectQueues(families, transferTest).value;
            s.transfer != s.graphics
  {
  }

  /** The `newVersion.cpp` search finds a family only where the `vk_device.cpp`
      one also finds one, never an earlier one, and the two agree whenever
      no family that has transfer but lacks graphics offers compute. */
  lemma StrictTransferComparison(families: seq<QueueFamily>)
    requires |families| < UINT32_MAX
    ensures var loose, strict := DedicatedTransfer(families, TransferWithoutGraphics), DedicatedTransfer(families, TransferOnly);
            && (strict != UINT32_MAX ==> loose != UINT32_MAX && loose <= strict)
            && ((forall j :: 0 <= j < |families| && Passes(families[j], TransferWithoutGraphics) ==> ComputeQueue !in families[j].flags)
                ==> loose == strict)
  {
    var loose, strict := DedicatedTransfer(families, TransferWithoutGraphics), DedicatedTransfer(families, TransferOnly);
    if strict != UINT32_MAX {
      assert Passes(families[strict], TransferWithoutGraphics);
    }
    if forall j :: 0 <= j < |families| && Passes(families[j], TransferWithoutGraphics) ==> ComputeQueue !in families[j].flags {
      if loose != UINT32_MAX {
        assert Passes(families[loose], TransferOnly);
      }
    }
  }

  /** The families queues are requested from at device creation: graphics,
      plus the dedicated transfer family when there is one. */
  function CreateInfoFamilies(s: QueueSelection): (r: seq<nat>)
    ensures 1 <= |r| <= 2 && r[0] == s.graphics
    ensures |r| == 2 <==> s.transfer != UINT32_MAX && s.transfer != s.graphics
    ensures |r| == 2 ==> r[1] == s.transfer
  {
    [s.graphics] + (if s.transfer != UINT32_MAX && s.transfer != s.graphics then [s.transfer] else [])
  }

  /** `queueFamilyIndices` as written: graphics, then a distinct valid
      transfer family, then the present family if it differs from graphics. */
  function QueueFamilyIndicesAsWritten(s: QueueSelection): (r: seq<nat>)
    ensures |r| >= 1 && r[0] == s.graphics
    ensures s.present in r
    ensures s.transfer != UINT32_MAX ==> s.transfer in r
    ensures forall x :: x in r ==> x == s.graphics || x == s.present || x == s.transfer
  {
    [s.graphics]
    + (if s.transfer != UINT32_MAX && s.transfer != s.graphics then [s.transfer] else [])
    + (if s.graphics != s.present then [s.present] else [])
  }

  /** No index occurs twice. */
  predicate Distinct(xs: seq<nat>) {
    forall i, j :: 0 <= i < j < |xs| ==> xs[i] != xs[j]
  }

  /** A graphics family that cannot present, a compute family that has
      transfer and can present, and nothing else. */
  const PresentOnTransferFamilies: seq<QueueFamily> := [
    QueueFamily({GraphicsQueue, TransferQueue}, false),
    QueueFamily({ComputeQueue, TransferQueue}, true)
  ]

  /** On those families the present family is also the dedicated transfer
      family, and `queueFamilyIndices` lists it twice. The Vulkan
      specification requires the family indices of a concurrent image or
      swapchain to be unique. */
  lemma PresentOnTransferFamilyIsListedTwice()
    ensures var s := SelectQueues(PresentOnTransferFamilies, TransferWithoutGraphics);
            && s == Ok(QueueSelection(0, 1, 1))
            && QueueFamilyIndicesAsWritten(s.value) == [0, 1, 1]
            && !Distinct(QueueFamilyIndicesAsWritten(s.value))
  {
    var f := PresentOnTransferFamilies;
    assert FirstPassing(f, HasGraphics) == 0;
    assert FirstPassing(f[1..], GraphicsAndPresent) == 1 + FirstPassing(f[1..][1..], GraphicsAndPresent);
    assert FirstPassing(f, GraphicsAndPresent) == 2;
    assert FirstPassing(f[1..], CanPresent) == 0;
    assert FirstPassing(f, CanPresent) == 1;
    assert FirstPassing(f[1..], TransferWithoutGraphics) == 0;
    assert FirstPassing(f, TransferWithoutGraphics) == 1;
    var indices := QueueFamilyIndicesAsWritten(QueueSelection(0, 1, 1));
    assert indices[1] == indices[2];
  }

  /** A graphics family that cannot present, a transfer family, and a
      compute family that can present. */
  const PresentWithoutQueueFamilies: seq<QueueFamily> := [
    QueueFamily({GraphicsQueue, TransferQueue}, false),
    QueueFamily({TransferQueue}, false),
    QueueFamily({ComputeQueue}, true)
  ]

  /** On those families no queue is requested from the present family, yet
      the present queue is then fetched from it; the Vulkan specification
      allows fetching queues only from families named at device creation. */
  lemma PresentFamilyWithoutCreateInfo()
    ensures var s := SelectQueues(PresentWithoutQueueFamilies, TransferWithoutGraphics);
            && s == Ok(QueueSelection(0, 2, 1))
            && s.value.present !in CreateInfoFamilies(s.value)
  {
    var f := PresentWithoutQueueFamilies;
    assert FirstPassing(f, HasGraphics) == 0;
    assert FirstPassing(f[1..][1..], GraphicsAndPresent) == 1 + FirstPassing(f[1..][1..][1..], GraphicsAndPresent);
    assert FirstPassing(f[1..], GraphicsAndPresent) == 1 + FirstPassing(f[1..][1..], GraphicsAndPresent);
    assert FirstPassing(f, GraphicsAndPresent) == 3;
    assert FirstPassing(f[1..][1..], CanPresent) == 0;
    assert FirstPassing(f[1..], CanPresent) == 1;
    assert FirstPassing(f, CanPresent) == 2;
    assert FirstPassing(f[1..], TransferWithoutGraphics) == 0;
    assert FirstPassing(f, TransferWithoutGraphics) == 1;
  }

  /** Every distinct selected family exactly once: graphics, the dedicated
      transfer family, and the present family unless already listed. Used
      both for the queue requests and for `queueFamilyIndices`. */
  function UniqueFamilies(s: QueueSelection): (r: seq<nat>)
    ensures |r| >= 1 && r[0] == s.graphics
    ensures Distinct(r)
    ensures forall x :: x in r <==> (x == s.graphics || x == s.present
                                     || (x == s.transfer && s.transfer != UINT32_MAX))
  {
    var withTransfer := [s.graphics] + (if s.transfer != UINT32_MAX && s.transfer != s.graphics then [s.transfer] else []);
    withTransfer + (if s.present !in withTransfer then [s.present] else [])
  }

  /** The corrected list requests a queue from every family a queue is
      fetched from, and agrees with the as-written lists whenever the
      present family is graphics or has no dedicated transfer role. */
  lemma UniqueFamiliesCoverEveryQueue(s: QueueSelection)
    ensures s.graphics in UniqueFamilies(s) && s.present in UniqueFamilies(s)
    ensures s.transfer != UINT32_MAX ==> s.transfer in UniqueFamilies(s)
    ensures s.present == s.graphics ==> UniqueFamilies(s) == CreateInfoFamilies(s) == QueueFamilyIndicesAsWritten(s)
    ensures s.present != s.graphics && s.present != s.transfer ==> UniqueFamilies(s) == QueueFamilyIndicesAsWritten(s)
  {
  }
}

=== FILE: resource_rules.dfy ===
/** Housekeeping rules of the resource managers (`src/core`, `src/resources`,
    `src2` and the single-file `newVersion.cpp`): the sharing mode of buffers
    and images, the memory intent handed to the allocator, how many command
    pools and command buffers exist, and the synchronisation objects. */
module ResourceRules {
  import opened VkTypes
  import QueueFamilies
  import Swapchain

  /** A transfer family exists and differs from the graphics family. */
  predicate HasDedicatedTransfer(graphics: nat, transfer: nat) {
    transfer != UINT32_MAX && transfer != graphics
  }

  /** The sharing mode of a created buffer or image and the family list it
      names. */
  datatype Sharing = Sharing(mode: SharingMode, families: seq<nat>)

  /** The rule the Vulkan specification sets on `sharingMode`: a concurrent
      resource names at least two families, none twice. */
  predicate ValidSharing(r: Sharing) {
    r.mode == Concurrent ==> |r.families| >= 2 && QueueFamilies.Distinct(r.families)
  }

  /** A resource can be used by `family` without an ownership transfer. */
  predicate SharedWith(r: Sharing, family: nat) {
    r.mode == Concurrent && family in r.families
  }

  predicate TransferUsage(usage: set<ImageUsage>) {
    TransferSrcUsage in usage || TransferDstUsage in usage
  }

  /** `createImage` of `src/core`, `src/resources`, `src2` and
      `newVersion.cpp`: concurrent over the whole `queueFamilyIndices` list
      for a transfer image when a dedicated transfer family exists,
      exclusive with no family otherwise. */
  function ImageSharing(usage: set<ImageUsage>, graphics: nat, transfer: nat, queueFamilyIndices: seq<nat>): (r: Sharing)
    ensures r.mode == Concurrent <==> TransferUsage(usage) && HasDedicatedTransfer(graphics, transfer)
    ensures r.mode == Exclusive ==> r.families == []
  {
    if TransferUsage(usage) && HasDedicatedTransfer(graphics, transfer) then Sharing(Concurrent, queueFamilyIndices)
    else Sharing(Exclusive, [])
  }

  /** `createBuffer`/`createImage` of `src/assets/texture_manager.cpp`: the
      same decision, naming exactly the graphics and transfer families. */
  function PairSharing(usage: set<ImageUsage>, graphics: nat, transfer: nat): (r: Sharing)
    ensures ValidSharing(r)
    ensures r.mode == Concurrent ==> SharedWith(r, graphics) && SharedWith(r, transfer)
  {
    if TransferUsage(usage) && HasDedicatedTransfer(graphics, transfer) then Sharing(Concurrent, [graphics, transfer])
    else Sharing(Exclusive, [])
  }

  /** With the device's `queueFamilyIndices`, a concurrent image is shared by
      at least two families, among them graphics and transfer; the
      texture-manager rule picks the same mode. */
  lemma ImageSharingCoversTransferOwners(usage: set<ImageUsage>, s: QueueFamilies.QueueSelection)
    ensures var r := ImageSharing(usage, s.graphics, s.transfer, QueueFamilies.QueueFamilyIndicesAsWritten(s));
            && r.mode == PairSharing(usage, s.graphics, s.transfer).mode
            && (r.mode == Concurrent ==> |r.families| >= 2 && SharedWith(r, s.graphics) && SharedWith(r, s.transfer))
  {
    var indices := QueueFamilies.QueueFamilyIndicesAsWritten(s);
    if HasDedicatedTransfer(s.graphics, s.transfer) {
      assert indices[..2] == [s.graphics, s.transfer];
    }
  }

  /** `createBuffer` of `src/core`, `src/resources`, `src2` and
      `newVersion.cpp`: always concurrent over `queueFamilyIndices`. */
  function BufferSharingAsWritten(queueFamilyIndices: seq<nat>): (r: Sharing)
    ensures SharedWith(r, 0) <==> 0 in queueFamilyIndices
    ensures ValidSharing(r) <==> |queueFamilyIndices| >= 2 && QueueFamilies.Distinct(queueFamilyIndices)
  {
    Sharing(Concurrent, queueFamilyIndices)
  }

  /** A device whose only queue family does graphics, presentation and
      transfer gets a concurrent buffer naming a single family. */
  lemma SingleFamilyBufferIsConcurrent()
    ensures var indices := QueueFamilies.QueueFamilyIndicesAsWritten(QueueFamilies.QueueSelection(0, 0, UINT32_MAX));
            && indices == [0]
            && !ValidSharing(BufferSharingAsWritten(indices))
  {
  }

  /** Buffers with the texture-manager rule are valid for every selection,
      and concurrent exactly when a dedicated transfer family may copy into
      them. */
  lemma PairSharingIsValidForBuffers(usage: set<ImageUsage>, s: QueueFamilies.QueueSelection)
    ensures ValidSharing(PairSharing(usage, s.graphics, s.transfer))
    ensures SharedWith(PairSharing(usage, s.graphics, s.transfer), s.transfer)
            <==> TransferUsage(usage) && HasDedicatedTransfer(s.graphics, s.transfer)
  {
  }

  /** The sharing of the swapchain images in `src/core/vk_swapchain.cpp`:
      the mode `ChooseSharingMode` picks from the device's family list, and
      that same list as the families. */
  function SwapchainSharing(queueFamilyIndices: seq<nat>): Sharing {
    Sharing(Swapchain.ChooseSharingMode(queueFamilyIndices), queueFamilyIndices)
  }

  /** Choosing the mode by the length of the list is valid exactly for lists
      that name no family twice; a concurrent swapchain is then usable by
      every listed family. */
  lemma SwapchainSharingValidIffDistinct(queueFamilyIndices: seq<nat>)
    ensures ValidSharing(SwapchainSharing(queueFamilyIndices)) <==> QueueFamilies.Distinct(queueFamilyIndices)
    ensures SwapchainSharing(queueFamilyIndices).mode == Concurrent
            ==> forall f :: f in queueFamilyIndices ==> SharedWith(SwapchainSharing(queueFamilyIndices), f)
  {
    var q := queueFamilyIndices;
    if |q| < 2 {
      assert QueueFamilies.Distinct(q);
    }
  }

  /** Over the device's as-written list the swapchain is valid exactly when
      that list is distinct, which fails when the present family is the
      transfer family; over the de-duplicated list it is always valid, and
      concurrent exactly when some queue family other than graphics is
      used. */
  lemma SwapchainSharingForSelection(s: QueueFamilies.QueueSelection)
    ensures var q := QueueFamilies.QueueFamilyIndicesAsWritten(s);
            ValidSharing(SwapchainSharing(q)) <==> QueueFamilies.Distinct(q)
    ensures !ValidSharing(SwapchainSharing(QueueFamilies.QueueFamilyIndicesAsWritten(QueueFamilies.QueueSelection(0, 1, 1))))
    ensures ValidSharing(SwapchainSharing(QueueFamilies.UniqueFamilies(s)))
    ensures SwapchainSharing(QueueFamilies.UniqueFamilies(s)).mode == Concurrent
            <==> s.present != s.graphics || HasDedicatedTransfer(s.graphics, s.transfer)
  {
    SwapchainSharingValidIffDistinct(QueueFamilies.QueueFamilyIndicesAsWritten(s));
    var bad := QueueFamilies.QueueFamilyIndicesAsWritten(QueueFamilies.QueueSelection(0, 1, 1));
    assert bad == [0, 1, 1] && bad[1] == bad[2];
    SwapchainSharingValidIffDistinct(bad);
    var u := QueueFamilies.UniqueFamilies(s);
    SwapchainSharingValidIffDistinct(u);
    if |u| >= 2 {
      assert u[1] in u && u[1] != u[0];
    }
    if s.present != s.graphics {
      assert s.present in u;
    }
    if HasDedicatedTransfer(s.graphics, s.transfer) {
      assert s.transfer in u;
    }
  }

  /** The allocator's memory-usage hint. */
  datatype MemoryUsage = AutoUsage | AutoPreferDevice

  datatype AllocationFlag = HostAccessSequentialWrite | Mapped

  datatype AllocationIntent = AllocationIntent(usage: MemoryUsage, flags: set<AllocationFlag>)

  /** `createBuffer` of `src/core`: host-visible memory is requested mapped
      for sequential writes; anything else prefers device memory. */
  function MemoryIntent(properties: set<MemoryProperty>): (r: AllocationIntent)
    ensures Mapped in r.flags <==> HostVisible in properties
    ensures r.usage == AutoPreferDevice <==> r.flags == {}
  {
    if HostVisible in properties then AllocationIntent(AutoUsage, {HostAccessSequentialWrite, Mapped})
    else AllocationIntent(AutoPreferDevice, {})
  }

  /** The staging properties used for uploads yield a mapped, CPU-writable
      allocation; a device-local buffer is never mapped. */
  lemma UploadIntents()
    ensures MemoryIntent({HostVisible, HostCoherent}) == AllocationIntent(AutoUsage, {HostAccessSequentialWrite, Mapped})
    ensures MemoryIntent({DeviceLocal}) == AllocationIntent(AutoPreferDevice, {})
  {
  }

  /** Which resource manager a rule comes from. */
  datatype ManagerVariant = CoreManager | ResourcesManager | Src2Manager | NewVersionManager

  /** `createCommandPool`: the queue family of the transfer pool, if one is
      created. `src/core` and `src2` require a found transfer family distinct
      from graphics; `src/resources` and `newVersion.cpp` only test
      distinctness. */
  function TransferPoolFamily(v: ManagerVariant, graphics: nat, transfer: nat): (r: Option<nat>)
    ensures r.Some? ==> r.value == transfer && transfer != graphics
    ensures HasDedicatedTransfer(graphics, transfer) ==> r.Some?
  {
    var guarded := v == CoreManager || v == Src2Manager;
    if transfer != graphics && (!guarded || transfer != UINT32_MAX) then Some(transfer) else None
  }

  /** Number of command buffers per pool. */
  datatype CommandBufferCounts = CommandBufferCounts(graphics: nat, transfer: nat)

  /** `createCommandBuffers`: one graphics buffer per frame in flight; transfer
      buffers only with a dedicated transfer family, one per frame in flight
      in `src/core` and a single one elsewhere. */
  function AllocateCommandBuffers(v: ManagerVariant, graphics: nat, transfer: nat): (r: CommandBufferCounts)
    ensures r.graphics == MAX_FRAMES_IN_FLIGHT
    ensures r.transfer > 0 <==> HasDedicatedTransfer(graphics, transfer)
    ensures r.transfer <= MAX_FRAMES_IN_FLIGHT
  {
    var transferCount := if !HasDedicatedTransfer(graphics, transfer) then 0
                         else if v == CoreManager then MAX_FRAMES_IN_FLIGHT else 1;
    CommandBufferCounts(MAX_FRAMES_IN_FLIGHT, transferCount)
  }

  /** Every transfer command buffer is allocated from a transfer pool that
      was created, in every variant. */
  lemma TransferBuffersHaveAPool(v: ManagerVariant, graphics: nat, transfer: nat)
    ensures AllocateCommandBuffers(v, graphics, transfer).transfer > 0 ==> TransferPoolFamily(v, graphics, transfer).Some?
  {
  }

  /** A created pool names a queue family of the device. */
  predicate PoolFamilyExists(pool: Option<nat>, familyCount: nat) {
    pool.Some? ==> pool.value < familyCount
  }

  /** One graphics family and nothing else: the transfer search fails. */
  const GraphicsOnlyFamilies: seq<QueueFamilies.QueueFamily> := [
    QueueFamilies.QueueFamily({GraphicsQueue, ComputeQueue, TransferQueue}, true)
  ]

  /** Without a transfer family `src/resources` and `newVersion.cpp` create
      a command pool for family `UINT32_MAX`, which the device does not
      have. */
  lemma PoolForMissingTransferFamily(v: ManagerVariant)
    requires v == ResourcesManager || v == NewVersionManager
    ensures var s := QueueFamilies.SelectQueues(GraphicsOnlyFamilies, QueueFamilies.TransferWithoutGraphics);
            && s == Ok(QueueFamilies.QueueSelection(0, 0, UINT32_MAX))
            && TransferPoolFamily(v, 0, UINT32_MAX) == Some(UINT32_MAX)
            && !PoolFamilyExists(TransferPoolFamily(v, 0, UINT32_MAX), |GraphicsOnlyFamilies|)
  {
    var f := GraphicsOnlyFamilies;
    assert QueueFamilies.FirstPassing(f, QueueFamilies.HasGraphics) == 0;
    assert QueueFamilies.FirstPassing(f, QueueFamilies.TransferWithoutGraphics) == 1;
  }

  /** The guarded pool rule of `src/core` and `src2` only names families the
      device has, whatever the families. */
  lemma GuardedPoolFamilyExists(v: ManagerVariant, families: seq<QueueFamilies.QueueFamily>, transferTest: QueueFamilies.FamilyTest)
    requires v == CoreManager || v == Src2Manager
    requires transferTest == QueueFamilies.TransferWithoutGraphics || transferTest == QueueFamilies.TransferOnly
    requires |families| < UINT32_MAX
    requires QueueFamilies.SelectQueues(families, transferTest).Ok?
    ensures var s := QueueFamilies.SelectQueues(families, transferTest).value;
            PoolFamilyExists(TransferPoolFamily(v, s.graphics, s.transfer), |families|)
  {
  }

  /** The command buffer `copyBuffer` records into. */
  datatype CopyBuffer = OnTransfer(index: nat) | OnGraphics(index: nat)

  /** `copyBuffer` as written: always transfer command buffer 0. */
  function CopyBufferAsWritten(counts: CommandBufferCounts): (r: CopyBuffer)
    ensures r.OnTransfer? && r.index == 0
  {
    OnTransfer(0)
  }

  /** The chosen command buffer was allocated. */
  predicate Allocated(counts: CommandBufferCounts, b: CopyBuffer) {
    match b
    case OnTransfer(i) => i < counts.transfer
    case OnGraphics(i) => i < counts.graphics
  }

  /** Without a dedicated transfer family no transfer command buffer is
      allocated, yet buffer uploads index the first one. */
  lemma CopyWithoutTransferFamilyIndexesEmptyList(v: ManagerVariant, graphics: nat)
    ensures var counts := AllocateCommandBuffers(v, graphics, UINT32_MAX);
            counts.transfer == 0 && !Allocated(counts, CopyBufferAsWritten(counts))
  {
  }

  /** Records on the transfer command buffer when one exists and on the
      first graphics command buffer otherwise. */
  function CopyBufferFor(counts: CommandBufferCounts): (r: CopyBuffer)
    requires counts.graphics >= 1
    ensures Allocated(counts, r)
    ensures r.OnTransfer? <==> counts.transfer > 0
  {
    if counts.transfer > 0 then OnTransfer(0) else OnGraphics(0)
  }

  /** The corrected choice is allocated for every variant and selection, and
      coincides with the written one when a transfer family exists. */
  lemma CopyBufferForIsAllocated(v: ManagerVariant, graphics: nat, transfer: nat)
    ensures var counts := AllocateCommandBuffers(v, graphics, transfer);
            && Allocated(counts, CopyBufferFor(counts))
            && (HasDedicatedTransfer(graphics, transfer) ==> CopyBufferFor(counts) == CopyBufferAsWritten(counts))
  {
  }

  /** State of a fence. `Pending` means submitted work will signal it. */
  datatype FenceState = Signaled | Unsignaled | Pending

  /** The synchronisation objects of the frame loop. */
  datatype SyncObjects = SyncObjects(presentComplete: nat, renderFinished: nat, fences: seq<FenceState>)

  predicate AllSignaled(fences: seq<FenceState>) {
    forall k :: 0 <= k < |fences| ==> fences[k] == Signaled
  }

  /** One signalled fence per frame slot. */
  const SignaledFences: seq<FenceState> := [Signaled, Signaled]

  /** The objects `createSyncObjects` leaves for `imageCount` swapchain
      images, whatever existed before. */
  function CreatedSync(imageCount: nat): SyncObjects {
    SyncObjects(imageCount, imageCount, SignaledFences)
  }

  /** `createSyncObjects`: clears the previous objects, then creates one
      present-complete and one render-finished semaphore per swapchain image
      and one fence per frame in flight, each fence created signalled. */
  method CreateSyncObjects(imageCount: nat) returns (r: SyncObjects)
    ensures r.presentComplete == imageCount && r.renderFinished == imageCount
    ensures |r.fences| == MAX_FRAMES_IN_FLIGHT && AllSignaled(r.fences)
    ensures r == CreatedSync(imageCount)
  {
    r := SyncObjects(0, 0, []);
    var i := 0;
    while i < imageCount
      invariant 0 <= i <= imageCount
      invariant r == SyncObjects(i, i, [])
    {
      r := r.(presentComplete := r.presentComplete + 1, renderFinished := r.renderFinished + 1);
      i := i + 1;
    }
    var k := 0;
    while k < MAX_FRAMES_IN_FLIGHT
      invariant 0 <= k <= MAX_FRAMES_IN_FLIGHT
      invariant r.presentComplete == imageCount && r.renderFinished == imageCount
      invariant |r.fences| == k && AllSignaled(r.fences)
    {
      r := r.(fences := r.fences + [Signaled]);
      k := k + 1;
    }
  }
}

=== FILE: staging.dfy ===
/** The staging-buffer lifecycle of `createVertexBuffer` and
    `createIndexBuffer` in `src/core/vk_resource_manager.cpp`: both share one
    staging member, release a leftover staging allocation first, fill a new
    host-visible staging buffer, create the device-local buffer, copy, and
    release the staging buffer again. Allocations are identified by numbers;
    each allocator call may fail, which the source reports by throwing. */
module Staging {
  import opened VkTypes

  datatype BufferKind = VertexData | IndexData

  /** The allocations the resource manager holds and the set of allocations
      alive in the allocator; `next` is the identity the next allocation
      receives. */
  datatype Manager = Manager(
    staging: Option<nat>,
    vertexBuffer: Option<nat>,
    indexBuffer: Option<nat>,
    live: set<nat>,
    next: nat)

  function Ids(o: Option<nat>): set<nat> {
    if o.Some? then {o.value} else {}
  }

  function Target(m: Manager, kind: BufferKind): Option<nat> {
    match kind
    case VertexData => m.vertexBuffer
    case IndexData => m.indexBuffer
  }

  /** Every live allocation is held by exactly one member, so none leaks. */
  predicate Tracked(m: Manager) {
    && m.live == Ids(m.staging) + Ids(m.vertexBuffer) + Ids(m.indexBuffer)
    && (forall id :: id in m.live ==> id < m.next)
    && Ids(m.staging) !! Ids(m.vertexBuffer)
    && Ids(m.staging) !! Ids(m.indexBuffer)
    && Ids(m.vertexBuffer) !! Ids(m.indexBuffer)
  }

  /** The allocator-visible steps of one upload. */
  datatype UploadEvent =
    | DestroyBuffer(id: nat)
    | CreateBuffer(id: nat)
    | FillStaging(id: nat)
    | CopyToDevice(src: nat, dst: nat)

  /** The allocator's view of a list of events: creating takes a fresh
      identity, every other step needs a live allocation. `None` marks a
      use of a dead or unknown allocation. */
  function RunEvent(live: set<nat>, e: UploadEvent): Option<set<nat>> {
    match e
    case DestroyBuffer(id) => if id in live then Some(live - {id}) else None
    case CreateBuffer(id) => if id !in live then Some(live + {id}) else None
    case FillStaging(id) => if id in live then Some(live) else None
    case CopyToDevice(src, dst) => if src in live && dst in live then Some(live) else None
  }

  function RunEvents(live: set<nat>, events: seq<UploadEvent>): Option<set<nat>>
    decreases |events|
  {
    if |events| == 0 then Some(live)
    else
      var next := RunEvent(live, events[0]);
      if next.None? then None else RunEvents(next.value, events[1..])
  }

  /** Running two lists of events runs the second from where the first
      ends. */
  lemma {:induction false} RunEventsAppend(live: set<nat>, a: seq<UploadEvent>, b: seq<UploadEvent>)
    ensures RunEvents(live, a + b) == (if RunEvents(live, a).None? then None else RunEvents(RunEvents(live, a).value, b))
    decreases |a|
  {
    if |a| > 0 {
      assert (a + b)[0] == a[0];
      assert (a + b)[1..] == a[1..] + b;
      var step := RunEvent(live, a[0]);
      if step.Some? {
        RunEventsAppend(step.value, a[1..], b);
      }
    } else {
      assert a + b == b;
    }
  }

  /** Running a non-empty list runs its first event, then the rest. */
  lemma RunEventsCons(live: set<nat>, e: UploadEvent, rest: seq<UploadEvent>)
    ensures RunEvents(live, [e] + rest) == (if RunEvent(live, e).None? then None else RunEvents(RunEvent(live, e).value, rest))
  {
    assert ([e] + rest)[1..] == rest;
  }

  /** The outcome of one upload call: the member state afterwards, the
      events issued, and the error thrown if an allocation failed. */
  datatype Upload = Upload(manager: Manager, events: seq<UploadEvent>, error: Option<Error>)

  /** The guarded release at the start and end of each upload. */
  function ReleaseStaging(m: Manager): (r: Upload)
    ensures r.manager.staging.None? && r.error.None?
    ensures r.manager.vertexBuffer == m.vertexBuffer && r.manager.indexBuffer == m.indexBuffer
    ensures r.manager.live == m.live - Ids(m.staging)
  {
    if m.staging.Some? then
      Upload(m.(staging := None, live := m.live - {m.staging.value}), [DestroyBuffer(m.staging.value)], None)
    else Upload(m, [], None)
  }

  /** `createVertexBuffer` (`kind == VertexData`) or `createIndexBuffer`;
      `stagingOk` and `deviceOk` say whether the two allocations succeed. */
  function UploadBuffer(m: Manager, kind: BufferKind, stagingOk: bool, deviceOk: bool): (r: Upload)
    ensures r.error.None? <==> stagingOk && deviceOk
    ensures r.error.Some? ==> r.error.value == AllocationFailed
    ensures r.error.None? ==> r.manager.staging.None? && Target(r.manager, kind).Some?
                              && Target(r.manager, kind).value >= m.next
    ensures kind == VertexData ==> r.manager.indexBuffer == m.indexBuffer
    ensures kind == IndexData ==> r.manager.vertexBuffer == m.vertexBuffer
  {
    var released := ReleaseStaging(m);
    var m1 := released.manager;
    if !stagingOk then Upload(m1, released.events, Some(AllocationFailed))
    else
      var s := m1.next;
      var m2 := m1.(staging := Some(s), live := m1.live + {s}, next := s + 1);
      var filled := released.events + [CreateBuffer(s), FillStaging(s)];
      if !deviceOk then Upload(m2, filled, Some(AllocationFailed))
      else
        var d := m2.next;
        var m3 := m2.(live := m2.live + {d}, next := d + 1);
        var m4 := if kind == VertexData then m3.(vertexBuffer := Some(d)) else m3.(indexBuffer := Some(d));
        Upload(m4.(staging := None, live := m4.live - {s}),
               filled + [CreateBuffer(d), CopyToDevice(s, d), DestroyBuffer(s)], None)
  }

  /** An upload only touches live allocations and creates fresh ones, and
      the allocator ends with exactly the allocations the members record,
      whether or not an allocation failed. */
  lemma UploadEventsAreSafe(m: Manager, kind: BufferKind, stagingOk: bool, deviceOk: bool)
    requires Tracked(m)
    ensures var r := UploadBuffer(m, kind, stagingOk, deviceOk);
            RunEvents(m.live, r.events) == Some(r.manager.live)
  {
    var released := ReleaseStaging(m);
    var m1 := released.manager;
    if m.staging.Some? {
      RunEventsCons(m.live, DestroyBuffer(m.staging.value), []);
    }
    assert RunEvents(m.live, released.events) == Some(m1.live);
    if stagingOk {
      var s := m1.next;
      var tail1 := [CreateBuffer(s), FillStaging(s)];
      RunEventsAppend(m.live, released.events, tail1);
      RunEventsCons(m1.live, CreateBuffer(s), [FillStaging(s)]);
      RunEventsCons(m1.live + {s}, FillStaging(s), []);
      assert RunEvents(m1.live, tail1) == Some(m1.live + {s});
      if deviceOk {
        var d := s + 1;
        var tail2 := [CreateBuffer(d), CopyToDevice(s, d), DestroyBuffer(s)];
        RunEventsAppend(m.live, released.events + tail1, tail2);
        RunEventsCons(m1.live + {s}, CreateBuffer(d), [CopyToDevice(s, d), DestroyBuffer(s)]);
        RunEventsCons(m1.live + {s} + {d}, CopyToDevice(s, d), [DestroyBuffer(s)]);
        RunEventsCons(m1.live + {s} + {d}, DestroyBuffer(s), []);
        assert RunEvents(m1.live + {s}, tail2) == Some(m1.live + {s} + {d} - {s});
      }
    }
  }

  /** Uploading into an empty slot keeps every allocation held by a member,
      also when it throws: a staging buffer left by a failed device
      allocation stays recorded and is released by the next upload. */
  lemma UploadKeepsAllocationsTracked(m: Manager, kind: BufferKind, stagingOk: bool, deviceOk: bool)
    requires Tracked(m) && Target(m, kind).None?
    ensures Tracked(UploadBuffer(m, kind, stagingOk, deviceOk).manager)
  {
  }

  /** Uploading again into a filled slot overwrites the member holding the
      previous device buffer while that allocation stays alive. */
  lemma RepeatedUploadOrphansPreviousBuffer(m: Manager, kind: BufferKind)
    requires Tracked(m) && Target(m, kind).Some?
    ensures var r := UploadBuffer(m, kind, true, true);
            Target(m, kind).value in r.manager.live && !Tracked(r.manager)
  {
    var r := UploadBuffer(m, kind, true, true);
    var previous := Target(m, kind).value;
    assert previous in r.manager.live;
    assert previous != Target(r.manager, kind).value;
  }

  const Fresh: Manager := Manager(None, None, None, {}, 0)

  /** The initialisation order (vertex buffer, then index buffer) ends with
      two distinct device buffers and no staging allocation. */
  lemma VertexThenIndexUpload()
    ensures var r1 := UploadBuffer(Fresh, VertexData, true, true);
            var r2 := UploadBuffer(r1.manager, IndexData, true, true);
            && r2.error.None? && r2.manager.staging.None?
            && r2.manager.vertexBuffer == Some(1) && r2.manager.indexBuffer == Some(3)
            && r2.manager.live == {1, 3}
  {
  }
}

=== FILE: swapchain.dfy ===
/** The swapchain choices of `src/core/vk_swapchain.cpp` and
    `src/graphics/SwapChain.cpp` (the same choosers in both files): surface
    format, present mode, extent, image count and sharing mode, following
    the VK_KHR_swapchain extension, and the order of `recreateSwapChain`. */
module Swapchain {
  import opened VkTypes

  datatype SurfaceFormat = SurfaceFormat(format: Format, colorSpace: ColorSpace)

  /** The format the engine prefers. */
  const PreferredFormat: SurfaceFormat := SurfaceFormat(B8G8R8A8Srgb, SrgbNonlinear)

  /** `chooseSwapSurfaceFormat`: the first listed format that is 8-bit BGRA
      sRGB with the sRGB non-linear colour space, else the first listed one.
      The source reads element 0 of the list unchecked, so it must not be
      empty. */
  method ChooseSwapSurfaceFormat(available: seq<SurfaceFormat>) returns (r: SurfaceFormat)
    requires |available| > 0
    ensures r in available
    ensures r == PreferredFormat <==> PreferredFormat in available
    ensures r != PreferredFormat ==> r == available[0]
  {
    var i := 0;
    while i < |available|
      invariant 0 <= i <= |available|
      invariant forall j :: 0 <= j < i ==> available[j] != PreferredFormat
    {
      if available[i].format == B8G8R8A8Srgb && available[i].colorSpace == SrgbNonlinear {
        return available[i];
      }
      i := i + 1;
    }
    return available[0];
  }

  /** `chooseSwapPresentMode`: mailbox when offered, otherwise FIFO, which
      the extension guarantees and is therefore not looked up. */
  method ChooseSwapPresentMode(available: seq<PresentMode>) returns (r: PresentMode)
    ensures r == Mailbox <==> Mailbox in available
    ensures r != Mailbox ==> r == Fifo
  {
    var i := 0;
    while i < |available|
      invariant 0 <= i <= |available|
      invariant Mailbox !in available[..i]
    {
      if available[i] == Mailbox {
        return available[i];
      }
      i := i + 1;
    }
    assert available[..i] == available;
    return Fifo;
  }

  /** The surface limits the choosers read. */
  datatype SurfaceCapabilities = SurfaceCapabilities(
    currentExtent: Extent,
    minImageExtent: Extent,
    maxImageExtent: Extent,
    minImageCount: nat,
    maxImageCount: nat)

  const TWO_POW_32: nat := 0x1_0000_0000

  /** `static_cast<uint32_t>` of a window size reported as `int`. */
  function ToUint32(x: int): (r: nat)
    ensures r < TWO_POW_32
    ensures 0 <= x < TWO_POW_32 ==> r == x
    ensures -(TWO_POW_32 as int) <= x < 0 ==> r as int == x + TWO_POW_32 as int
  {
    x % TWO_POW_32
  }

  /** `std::clamp`, which the C++ standard leaves undefined when `lo > hi`. */
  function Clamp(v: nat, lo: nat, hi: nat): (r: nat)
    requires lo <= hi
    ensures lo <= r <= hi
    ensures lo <= v <= hi ==> r == v
    ensures forall x :: lo <= x <= hi ==> Dist(r, v) <= Dist(x, v)
  {
    if v < lo then lo else if hi < v then hi else v
  }

  function Dist(a: nat, b: nat): nat {
    if a >= b then a - b else b - a
  }

  /** The surface leaves the extent to the application. */
  predicate ExtentIsFree(caps: SurfaceCapabilities) {
    caps.currentExtent.width == UINT32_MAX
  }

  /** `chooseSwapExtent`: the surface's current extent, unless its width is
      the special value `UINT32_MAX`; then the window's pixel size, each side
      clamped into the surface's limits. */
  function ChooseSwapExtent(caps: SurfaceCapabilities, windowWidth: int, windowHeight: int): (r: Extent)
    requires -0x8000_0000 <= windowWidth < 0x8000_0000 && -0x8000_0000 <= windowHeight < 0x8000_0000
    requires ExtentIsFree(caps) ==> caps.minImageExtent.width <= caps.maxImageExtent.width
    requires ExtentIsFree(caps) ==> caps.minImageExtent.height <= caps.maxImageExtent.height
    ensures !ExtentIsFree(caps) ==> r == caps.currentExtent
    ensures ExtentIsFree(caps) ==>
              && caps.minImageExtent.width <= r.width <= caps.maxImageExtent.width
              && caps.minImageExtent.height <= r.height <= caps.maxImageExtent.height
    ensures ExtentIsFree(caps) && 0 <= windowWidth && caps.minImageExtent.width <= windowWidth <= caps.maxImageExtent.width
            ==> r.width == windowWidth
    ensures ExtentIsFree(caps) && 0 <= windowHeight && caps.minImageExtent.height <= windowHeight <= caps.maxImageExtent.height
            ==> r.height == windowHeight
  {
    if !ExtentIsFree(caps) then caps.currentExtent
    else
      Extent(Clamp(ToUint32(windowWidth), caps.minImageExtent.width, caps.maxImageExtent.width),
             Clamp(ToUint32(windowHeight), caps.minImageExtent.height, caps.maxImageExtent.height))
  }

  /** A negative window size wraps to a huge unsigned value, so the clamp
      yields the largest allowed extent rather than the smallest. */
  lemma NegativeWindowSizeClampsToMaximum(caps: SurfaceCapabilities, windowWidth: int, windowHeight: int)
    requires ExtentIsFree(caps)
    requires caps.minImageExtent.width <= caps.maxImageExtent.width < 0x8000_0000
    requires caps.minImageExtent.height <= caps.maxImageExtent.height
    requires -0x8000_0000 <= windowWidth < 0 && -0x8000_0000 <= windowHeight < 0x8000_0000
    ensures ChooseSwapExtent(caps, windowWidth, windowHeight).width == caps.maxImageExtent.width
  {
  }

  /** The image count requested: at least three (triple buffering) and at
      least the surface minimum, lowered to the surface maximum when that is
      non-zero (zero means "no maximum") and exceeded. */
  function ChooseImageCount(caps: SurfaceCapabilities): (r: nat)
    ensures caps.maxImageCount > 0 ==> r <= caps.maxImageCount
    ensures caps.maxImageCount == 0 || caps.minImageCount <= caps.maxImageCount ==> r >= caps.minImageCount
    ensures caps.maxImageCount == 0 || caps.maxImageCount >= 3 ==> r >= 3
  {
    var wanted := if caps.minImageCount >= 3 then caps.minImageCount else 3;
    if caps.maxImageCount > 0 && wanted > caps.maxImageCount then caps.maxImageCount else wanted
  }

  /** For a valid surface (`1 <= min <= max`, or no maximum), the requested
      count is the allowed count closest to three. */
  lemma ImageCountIsAllowedCountClosestToThree(caps: SurfaceCapabilities)
    requires caps.minImageCount >= 1
    requires caps.maxImageCount == 0 || caps.minImageCount <= caps.maxImageCount
    ensures var r := ChooseImageCount(caps);
            && r >= caps.minImageCount && (caps.maxImageCount == 0 || r <= caps.maxImageCount)
            && forall c: nat :: c >= caps.minImageCount && (caps.maxImageCount == 0 || c <= caps.maxImageCount)
                                ==> Dist(r, 3) <= Dist(c, 3)
  {
  }

  /** Concurrent sharing exactly when more than one queue family uses the
      swapchain images. */
  function ChooseSharingMode(queueFamilyIndices: seq<nat>): (r: SharingMode)
    ensures r == Concurrent <==> |queueFamilyIndices| >= 2
  {
    if |queueFamilyIndices| > 1 then Concurrent else Exclusive
  }

  /** What the swapchain owns: how many images and image views exist. */
  datatype SwapchainState = SwapchainState(images: nat, views: nat)

  datatype RecreateStep = WaitIdle | Cleanup | CreateSwapchain | CreateImageViews | CreateDepthResources

  datatype SwapchainVariant = CoreSwapchain | GraphicsSwapchain

  /** `createImageViews` appends one view per image to the existing views. */
  function AddImageViews(s: SwapchainState): (r: SwapchainState)
    ensures r.images == s.images && r.views == s.views + s.images
  {
    s.(views := s.views + s.images)
  }

  /** The steps of `recreateSwapChain`: only `src/graphics/SwapChain.cpp`
      also rebuilds the depth resources, last. */
  function RecreateSteps(variant: SwapchainVariant): (r: seq<RecreateStep>)
    ensures |r| >= 4 && r[..4] == [WaitIdle, Cleanup, CreateSwapchain, CreateImageViews]
    ensures CreateDepthResources in r <==> variant == GraphicsSwapchain
  {
    [WaitIdle, Cleanup, CreateSwapchain, CreateImageViews]
    + (if variant == GraphicsSwapchain then [CreateDepthResources] else [])
  }

  /** The effect of one recreate step; `newImages` is how many images the
      new swapchain returns. */
  function Step(s: SwapchainState, step: RecreateStep, newImages: nat): SwapchainState {
    match step
    case Cleanup => SwapchainState(0, 0)
    case CreateSwapchain => s.(images := newImages)
    case CreateImageViews => AddImageViews(s)
    case _ => s
  }

  /** Executes recreate steps in order. */
  function RunRecreate(s: SwapchainState, steps: seq<RecreateStep>, newImages: nat): SwapchainState
    decreases |steps|
  {
    if |steps| == 0 then s else RunRecreate(Step(s, steps[0], newImages), steps[1..], newImages)
  }

  lemma RunCons(s: SwapchainState, step: RecreateStep, rest: seq<RecreateStep>, newImages: nat)
    ensures RunRecreate(s, [step] + rest, newImages) == RunRecreate(Step(s, step, newImages), rest, newImages)
  {
    assert ([step] + rest)[1..] == rest;
  }

  /** After recreation there is exactly one view per image, whatever the
      state before. */
  lemma RecreateLeavesOneViewPerImage(variant: SwapchainVariant, s: SwapchainState, newImages: nat)
    ensures RunRecreate(s, RecreateSteps(variant), newImages) == SwapchainState(newImages, newImages)
  {
    var tail := if variant == GraphicsSwapchain then [CreateDepthResources] else [];
    var done := SwapchainState(newImages, newImages);
    assert RunRecreate(done, tail, newImages) == done;
    var t3 := [CreateImageViews] + tail;
    var t2 := [CreateSwapchain] + t3;
    var t1 := [Cleanup] + t2;
    assert RecreateSteps(variant) == [WaitIdle] + t1;
    RunCons(s, WaitIdle, t1, newImages);
    RunCons(s, Cleanup, t2, newImages);
    RunCons(SwapchainState(0, 0), CreateSwapchain, t3, newImages);
    RunCons(SwapchainState(newImages, 0), CreateImageViews, tail, newImages);
  }

  /** Creating views without the preceding cleanup would keep the old views
      alongside the new ones. */
  lemma ViewsWithoutCleanupAccumulate(s: SwapchainState, newImages: nat)
    requires s.views > 0
    ensures RunRecreate(s, [WaitIdle, CreateSwapchain, CreateImageViews], newImages).views == s.views + newImages
    ensures RunRecreate(s, [WaitIdle, CreateSwapchain, CreateImageViews], newImages).views != newImages
  {
    RunCons(s, WaitIdle, [CreateSwapchain, CreateImageViews], newImages);
    RunCons(s, CreateSwapchain, [CreateImageViews], newImages);
    RunCons(s.(images := newImages), CreateImageViews, [], newImages);
  }
}

=== FILE: texture_upload.dfy ===
/** `createTextureImage` and `createTextureImageView`: load the pixels, size
    the staging buffer, count the mip levels, create the staging buffer and
    the image, move every level to transfer-destination, copy the pixels into
    level 0, submit, and fill the rest of the chain with `generateMipmaps`.

    Three variants: `src/resources/TextureManager.cpp` and `newVersion.cpp`
    check linear-filter support before any work and size the staging buffer
    in 32-bit `int`; `src/assets/texture_manager.cpp` sizes it in 64 bits
    and leaves the check to `generateMipmaps`, after the upload. */
module TextureUpload {
  import opened VkTypes
  import opened MipMath
  import MipPlan
  import TransitionDeduce
  import TransitionCore
  import Formats

  datatype TextureVariant = ResourcesTexture | NewVersionTexture | AssetsTexture

  /** The size of a decoded image; the decoder reports positive `int` sides. */
  datatype Pixels = Pixels(width: nat, height: nat)

  const TWO_POW_31: nat := 0x8000_0000
  const TWO_POW_32: nat := 0x1_0000_0000
  const TWO_POW_64: nat := 0x1_0000_0000_0000_0000

  /** A product computed in 32-bit `int`, wrapping in two's complement. */
  function WrapInt32(x: int): (r: int)
    ensures -(TWO_POW_31 as int) <= r < TWO_POW_31
    ensures 0 <= x < TWO_POW_31 ==> r == x
    ensures TWO_POW_31 <= x < TWO_POW_32 ==> r == x - TWO_POW_32
  {
    var m := x % TWO_POW_32;
    if m >= TWO_POW_31 then m - TWO_POW_32 else m
  }

  /** Conversion of an `int` to the 64-bit unsigned `vk::DeviceSize`. */
  function ToDeviceSize(x: int): (r: nat)
    ensures r < TWO_POW_64
    ensures 0 <= x < TWO_POW_64 ==> r == x
    ensures -(TWO_POW_64 as int) <= x < 0 ==> r == x + TWO_POW_64
  {
    x % TWO_POW_64
  }

  /** `texWidth * texHeight * 4` in `int`, then widened: the size of the
      staging buffer in `TextureManager.cpp` and `newVersion.cpp`. */
  function StagingSizeAsWritten(p: Pixels): nat {
    ToDeviceSize(WrapInt32(p.width * p.height * 4))
  }

  /** The size of four bytes per pixel, computed in 64 bits as
      `texture_manager.cpp` does. */
  function StagingSize(p: Pixels): nat {
    p.width * p.height * 4
  }

  /** The 32-bit computation is right exactly when the byte count fits in a
      32-bit `int`: a larger count wraps to a negative value, which the
      widening turns into a size close to 2^64. */
  lemma Int32SizeIsExactIffItFits(x: nat)
    requires x < TWO_POW_64 - TWO_POW_31
    ensures ToDeviceSize(WrapInt32(x)) == x <==> x < TWO_POW_31
    ensures TWO_POW_31 <= x < TWO_POW_32 ==> ToDeviceSize(WrapInt32(x)) >= TWO_POW_64 - TWO_POW_31
  {
  }

  /** A 23171 x 23171 texture is the smallest square whose byte count
      exceeds `INT32_MAX`. */
  lemma LargeSquareTextureStagingSize()
    ensures StagingSize(Pixels(23171, 23171)) == 2147580964
    ensures StagingSize(Pixels(23170, 23170)) < TWO_POW_31
    ensures StagingSizeAsWritten(Pixels(23170, 23170)) == StagingSize(Pixels(23170, 23170))
    ensures StagingSizeAsWritten(Pixels(23171, 23171)) == TWO_POW_64 - 2147386332
  {
  }

  /** What `createTextureImage` asks of the device, in order. `createBuffer`
      and `createImage` each create the handle before they look for a memory
      type, so the handle exists even when its memory step throws.
      `FillStagingBuffer` stands for the memory step of the staging buffer
      together with the map, copy and unmap of the pixels and the release of
      the decoder's pixels. `BindImageMemory` is the memory step of the image. */
  datatype TextureEvent =
    | CreateStagingBuffer(size: nat)
    | FillStagingBuffer(size: nat)
    | CreateImage(extent: Extent, mipLevels: nat, usage: set<ImageUsage>)
    | BindImageMemory
    | RecordBarrier(barrier: Barrier)
    | CopyToLevelZero(extent: Extent)
    | SubmitAndWait
    | RecordMipmaps(ops: seq<MipPlan.MipOp>)

  /** The texture that results. */
  datatype Texture = Texture(extent: Extent, mipLevels: nat, stagingSize: nat)

  const TextureFormat: Format := R8G8B8A8Srgb
  const TextureUsage: set<ImageUsage> := {TransferSrcUsage, TransferDstUsage, SampledUsage}

  /** The exception for an unreadable file; only `newVersion.cpp` leaves the
      path out of the message. */
  function LoadError(v: TextureVariant, path: string): Error {
    if v == NewVersionTexture then TextureLoadFailed("") else TextureLoadFailed(path)
  }

  /** The initial transition of all levels to transfer-destination, through
      the variant's `transitionImageLayout` with default arguments. */
  function InitialBarrier(v: TextureVariant, mipLevels: nat, query: Formats.FormatQuery): (r: Barrier)
    ensures r.oldLayout == Undefined && r.newLayout == TransferDstOptimal
    ensures r.range.baseMipLevel == 0 && r.range.levelCount == mipLevels
  {
    var req := TransitionRequest(mipLevels, Undefined, TransferDstOptimal, DefaultColorRange,
                                 QUEUE_FAMILY_IGNORED, QUEUE_FAMILY_IGNORED, NoOverrides);
    var b := if v == AssetsTexture then TransitionCore.TransitionImageLayout(req)
             else TransitionDeduce.TransitionImageLayout(req, query);
    b.value
  }

  /** A recorded barrier as an operation on the per-level layout map. */
  function AsLevelOp(b: Barrier): MipPlan.MipOp {
    MipPlan.LevelBarrier(b.range.baseMipLevel, b.range.levelCount, b.oldLayout, b.newLayout, b.masks)
  }

  /** The initial barrier takes a fresh image entirely to
      transfer-destination, where the copy into level 0 and the blits need it. */
  lemma InitialBarrierPreparesEveryLevel(v: TextureVariant, mipLevels: nat, query: Formats.FormatQuery)
    ensures MipPlan.Run(MipPlan.Uniform(mipLevels, Undefined), [AsLevelOp(InitialBarrier(v, mipLevels, query))])
            == Some(MipPlan.Uniform(mipLevels, TransferDstOptimal))
  {
    var op := AsLevelOp(InitialBarrier(v, mipLevels, query));
    var levels := MipPlan.Uniform(mipLevels, Undefined);
    MipPlan.ApplyBarrier(levels, op, MipPlan.Uniform(mipLevels, TransferDstOptimal));
    assert [op][1..] == [];
  }

  /** The recorded events of a successful upload: staging buffer created
      and filled, image created and bound, initial barrier, copy, submit,
      mip chain; the chain starts from the
      layouts the initial barrier leaves and ends with every level
      shader-readable. */
  predicate UploadShape(events: seq<TextureEvent>, p: Pixels, mipLevels: nat) {
    && |events| == 8
    && events[0].CreateStagingBuffer? && events[1] == FillStagingBuffer(events[0].size)
    && events[2] == CreateImage(Extent(p.width, p.height), mipLevels, TextureUsage)
    && events[3] == BindImageMemory
    && events[4].RecordBarrier?
    && MipPlan.Run(MipPlan.Uniform(mipLevels, Undefined), [AsLevelOp(events[4].barrier)])
       == Some(MipPlan.Uniform(mipLevels, TransferDstOptimal))
    && events[5] == CopyToLevelZero(Extent(p.width, p.height))
    && events[6] == SubmitAndWait
    && events[7].RecordMipmaps?
    && MipPlan.Run(MipPlan.Uniform(mipLevels, TransferDstOptimal), events[7].ops)
       == Some(MipPlan.Uniform(mipLevels, ShaderReadOnlyOptimal))
  }

  /** The events of a successful upload, in order. */
  function UploadEvents(size: nat, p: Pixels, mipLevels: nat, barrier: Barrier, ops: seq<MipPlan.MipOp>): seq<TextureEvent> {
    var extent := Extent(p.width, p.height);
    [CreateStagingBuffer(size), FillStagingBuffer(size), CreateImage(extent, mipLevels, TextureUsage),
     BindImageMemory, RecordBarrier(barrier), CopyToLevelZero(extent), SubmitAndWait, RecordMipmaps(ops)]
  }

  /** An initial barrier that prepares every level and a chain that ends
      with every level shader-readable make an upload of the right shape. */
  lemma UploadEventsShape(size: nat, p: Pixels, mipLevels: nat, barrier: Barrier, ops: seq<MipPlan.MipOp>)
    requires MipPlan.Run(MipPlan.Uniform(mipLevels, Undefined), [AsLevelOp(barrier)])
             == Some(MipPlan.Uniform(mipLevels, TransferDstOptimal))
    requires MipPlan.Run(MipPlan.Uniform(mipLevels, TransferDstOptimal), ops)
             == Some(MipPlan.Uniform(mipLevels, ShaderReadOnlyOptimal))
    ensures UploadShape(UploadEvents(size, p, mipLevels, barrier, ops), p, mipLevels)
  {
  }

  /** The staging size of a variant: 32-bit in `TextureManager.cpp` and
      `newVersion.cpp`, 64-bit in `texture_manager.cpp`. */
  function VariantStagingSize(v: TextureVariant, p: Pixels): nat {
    if v == AssetsTexture then StagingSize(p) else StagingSizeAsWritten(p)
  }

  /** What the driver answers for one buffer or image: the `memoryTypeBits`
      of its memory requirements, and whether `allocateMemory` succeeds. */
  datatype MemoryAnswer = MemoryAnswer(typeBits: bv32, allocates: bool)

  const StagingProperties: set<MemoryProperty> := {HostVisible, HostCoherent}
  const ImageProperties: set<MemoryProperty> := {DeviceLocal}

  /** Why a resource gets no memory: no memory type fits, or the allocation
      is refused; `None` when it gets memory. */
  function MemoryFailure(memoryTypes: seq<set<MemoryProperty>>, properties: set<MemoryProperty>, a: MemoryAnswer): Option<Error>
    requires |memoryTypes| <= 32
  {
    if !Formats.MemoryTypeExists(a.typeBits, properties, memoryTypes) then Some(NoMemoryType)
    else if !a.allocates then Some(AllocationFailed)
    else None
  }

  /** The memory step of `createBuffer` and `createImage`: `findMemoryType`,
      which throws when no type fits, then `allocateMemory`. */
  method AllocateMemory(memoryTypes: seq<set<MemoryProperty>>, properties: set<MemoryProperty>, a: MemoryAnswer)
    returns (r: Result<nat>)
    requires |memoryTypes| <= 32
    ensures r.Err? <==> MemoryFailure(memoryTypes, properties, a).Some?
    ensures r.Err? ==> r.error == MemoryFailure(memoryTypes, properties, a).value
    ensures r.Ok? ==> r.value < |memoryTypes| && Formats.MemoryTypeFits(a.typeBits, properties, memoryTypes, r.value)
  {
    var t := Formats.FindMemoryType(a.typeBits, properties, memoryTypes);
    if t.Err? {
      return Err(t.error);
    }
    if !a.allocates {
      return Err(AllocationFailed);
    }
    return Ok(t.value);
  }

  /** The variant's mip chain: interleaved in `texture_manager.cpp`, the
      three-barrier loop elsewhere. Either fails exactly when the format
      cannot be blitted linearly, and otherwise leaves every level
      shader-readable. */
  method VariantMipmaps(v: TextureVariant, query: Formats.FormatQuery, p: Pixels, mipLevels: nat)
    returns (mips: Result<seq<MipPlan.MipOp>>)
    requires p.width >= 1 && p.height >= 1 && mipLevels >= 1
    ensures mips.Err? <==> !MipPlan.LinearBlitSupported(query, TextureFormat)
    ensures mips.Err? ==> mips.error == NoLinearBlit
    ensures mips.Ok? ==> MipPlan.Run(MipPlan.Uniform(mipLevels, TransferDstOptimal), mips.value)
                         == Some(MipPlan.Uniform(mipLevels, ShaderReadOnlyOptimal))
  {
    if v == AssetsTexture {
      mips := MipPlan.GenerateMipmapsInterleaved(query, TextureFormat, p.width, p.height, mipLevels);
    } else {
      mips := MipPlan.GenerateMipmaps(query, TextureFormat, p.width, p.height, mipLevels);
    }
  }

  /** `createTextureImage`. `loaded` is what the decoder returned for
      `path`, `query` the device's format table, `memoryTypes` its memory
      types, and `staging` and `image` the driver's answers for the staging
      buffer and the image. The events are the steps that completed. */
  method CreateTextureImage(v: TextureVariant, path: string, loaded: Option<Pixels>, query: Formats.FormatQuery,
                            memoryTypes: seq<set<MemoryProperty>>, staging: MemoryAnswer, image: MemoryAnswer)
    returns (r: Result<Texture>, events: seq<TextureEvent>)
    requires loaded.Some? ==> 1 <= loaded.value.width < TWO_POW_31 && 1 <= loaded.value.height < TWO_POW_31
    requires |memoryTypes| <= 32
    ensures loaded.None? ==> r == Err(LoadError(v, path)) && events == []
    ensures r.Ok? <==> && loaded.Some? && MipPlan.LinearBlitSupported(query, TextureFormat)
                       && MemoryFailure(memoryTypes, StagingProperties, staging).None?
                       && MemoryFailure(memoryTypes, ImageProperties, image).None?
    // the early check of two variants comes before any allocation
    ensures loaded.Some? && v != AssetsTexture && !MipPlan.LinearBlitSupported(query, TextureFormat)
            ==> r == Err(NoLinearBlit) && events == []
    // a staging buffer without memory leaves only its handle, unfilled
    ensures && loaded.Some? && (v == AssetsTexture || MipPlan.LinearBlitSupported(query, TextureFormat))
            && MemoryFailure(memoryTypes, StagingProperties, staging).Some?
            ==> && r == Err(MemoryFailure(memoryTypes, StagingProperties, staging).value)
                && events == [CreateStagingBuffer(VariantStagingSize(v, loaded.value))]
    // an image without memory leaves the filled staging buffer and the image handle
    ensures && loaded.Some? && (v == AssetsTexture || MipPlan.LinearBlitSupported(query, TextureFormat))
            && MemoryFailure(memoryTypes, StagingProperties, staging).None?
            && MemoryFailure(memoryTypes, ImageProperties, image).Some?
            ==> && r == Err(MemoryFailure(memoryTypes, ImageProperties, image).value)
                && var size := VariantStagingSize(v, loaded.value);
                   events == [CreateStagingBuffer(size), FillStagingBuffer(size),
                              CreateImage(Extent(loaded.value.width, loaded.value.height),
                                          MipLevels(loaded.value.width, loaded.value.height), TextureUsage)]
    // the late check of `texture_manager.cpp` comes after the upload
    ensures && loaded.Some? && v == AssetsTexture && !MipPlan.LinearBlitSupported(query, TextureFormat)
            && MemoryFailure(memoryTypes, StagingProperties, staging).None?
            && MemoryFailure(memoryTypes, ImageProperties, image).None?
            ==> && r == Err(NoLinearBlit) && |events| == 7 && events[6] == SubmitAndWait
                && events[2] == CreateImage(Extent(loaded.value.width, loaded.value.height),
                                            MipLevels(loaded.value.width, loaded.value.height), TextureUsage)
    ensures r.Ok? ==> var p := loaded.value;
                      && r.value.mipLevels == MipLevels(p.width, p.height) && r.value.mipLevels >= 1
                      && r.value.extent == Extent(p.width, p.height)
                      && r.value.stagingSize == VariantStagingSize(v, p)
                      && UploadShape(events, p, r.value.mipLevels)
                      && events[0] == CreateStagingBuffer(r.value.stagingSize)
  {
    events := [];
    if loaded.None? {
      return Err(LoadError(v, path)), events;
    }
    var p := loaded.value;
    var size := VariantStagingSize(v, p);
    var mipLevels := MipLevels(p.width, p.height);
    MipLevelsIsFloorLog2PlusOne(p.width, p.height);
    if v != AssetsTexture && !MipPlan.LinearBlitSupported(query, TextureFormat) {
      return Err(NoLinearBlit), events;
    }
    events := [CreateStagingBuffer(size)];
    var stagingMemory := AllocateMemory(memoryTypes, StagingProperties, staging);
    if stagingMemory.Err? {
      return Err(stagingMemory.error), events;
    }
    var extent := Extent(p.width, p.height);
    events := [CreateStagingBuffer(size), FillStagingBuffer(size), CreateImage(extent, mipLevels, TextureUsage)];
    var imageMemory := AllocateMemory(memoryTypes, ImageProperties, image);
    if imageMemory.Err? {
      return Err(imageMemory.error), events;
    }
    var barrier := InitialBarrier(v, mipLevels, query);
    InitialBarrierPreparesEveryLevel(v, mipLevels, query);
    events := [CreateStagingBuffer(size), FillStagingBuffer(size), CreateImage(extent, mipLevels, TextureUsage),
               BindImageMemory, RecordBarrier(barrier), CopyToLevelZero(extent), SubmitAndWait];
    var mips := VariantMipmaps(v, query, p, mipLevels);
    if mips.Err? {
      return Err(mips.error), events;
    }
    events := UploadEvents(size, p, mipLevels, barrier, mips.value);
    UploadEventsShape(size, p, mipLevels, barrier, mips.value);
    r := Ok(Texture(Extent(p.width, p.height), mipLevels, size));
  }

  /** `createTextureImageView`: a colour view over levels `0 .. mipLevels-1`. */
  function TextureViewRange(t: Texture): (r: SubresourceRange)
    ensures r.aspect == {ColorAspect} && r.baseArrayLayer == 0 && r.layerCount == 1
    ensures r.baseMipLevel == 0 && r.levelCount == t.mipLevels
  {
    SubresourceRange({ColorAspect}, 0, t.mipLevels, 0, 1)
  }

  /** The layouts of a fresh image's levels after a successful upload's
      initial barrier and mip chain. */
  function FinalLevels(events: seq<TextureEvent>, mipLevels: nat): Option<MipPlan.Levels>
    requires |events| == 8 && events[4].RecordBarrier? && events[7].RecordMipmaps?
  {
    MipPlan.Run(MipPlan.Uniform(mipLevels, Undefined), [AsLevelOp(events[4].barrier)] + events[7].ops)
  }

  /** After a successful upload the view covers every level of the image,
      and each level it covers is shader-readable: the sampler sees exactly
      the levels the mip chain finished. */
  lemma ViewCoversShaderReadableLevels(t: Texture, p: Pixels, events: seq<TextureEvent>)
    requires UploadShape(events, p, t.mipLevels)
    ensures var view := TextureViewRange(t);
            var final := FinalLevels(events, t.mipLevels);
            && final.Some?
            && view.baseMipLevel == 0 && view.baseMipLevel + view.levelCount == |final.value|
            && forall j :: view.baseMipLevel <= j < view.baseMipLevel + view.levelCount
                           ==> final.value[j] == ShaderReadOnlyOptimal
  {
    MipPlan.RunAppend(MipPlan.Uniform(t.mipLevels, Undefined), [AsLevelOp(events[4].barrier)], events[7].ops);
  }
}

=== FILE: transition_compare.dfy ===
/** How the three `transitionImageLayout` variants relate, and the two
    swapchain-image transitions each renderer records around its rendering. */
module TransitionCompare {
  import opened VkTypes
  import Formats
  import BarrierSpec
  import TransitionGate
  import TransitionDeduce
  import TransitionCore
  import TransitionSrc2

  /** The `src2` table is the `src/core` table without the colour-attachment entry. */
  lemma Src2TableIsCoreWithoutColor(oldLayout: ImageLayout, newLayout: ImageLayout)
    ensures TransitionSrc2.Table(oldLayout, newLayout)
            == if (oldLayout, newLayout) == (Undefined, ColorAttachmentOptimal) then None
               else TransitionCore.Table(oldLayout, newLayout)
  {
  }

  /** Every pair the `src/core` table lists is also deduced by
      `newVersion.cpp`, which in addition lists the present transition. */
  lemma DeducedPairsContainCorePairs()
    ensures TransitionCore.ListedPairs <= TransitionDeduce.ListedPairs
    ensures TransitionDeduce.ListedPairs - TransitionCore.ListedPairs == {(ColorAttachmentOptimal, PresentSrc)}
  {
  }

  /** Where both tables list a pair they agree, except that `newVersion.cpp`
      also waits in the compute stage before shader reads, and `src/core`
      also makes depth reads visible after the depth transition. */
  lemma DeduceAndCoreTablesDiffer(oldLayout: ImageLayout, newLayout: ImageLayout)
    requires (oldLayout, newLayout) in TransitionCore.ListedPairs
    ensures var d, c := TransitionDeduce.TableMasks(oldLayout, newLayout).value, TransitionCore.Table(oldLayout, newLayout).value;
            && d.srcStage == c.srcStage && d.srcAccess == c.srcAccess
            && (if (oldLayout, newLayout) == (TransferDstOptimal, ShaderReadOnlyOptimal)
                then d.dstStage == c.dstStage + {ComputeShader}
                else d.dstStage == c.dstStage)
            && (if (oldLayout, newLayout) == (Undefined, DepthStencilAttachmentOptimal)
                then c.dstAccess == d.dstAccess + {DepthStencilAttachmentRead}
                else d.dstAccess == c.dstAccess)
  {
  }

  /** With no overrides, the gated variants accept a pair exactly when their
      table lists it, whereas the deducing variant accepts any pair into the
      depth layout as well. */
  lemma AcceptanceWithoutOverrides(req: TransitionRequest, query: Formats.FormatQuery)
    requires req.overrides == NoOverrides
    requires Formats.FindDepthFormat(query).Ok?
    ensures TransitionCore.TransitionImageLayout(req).Ok? <==> (req.oldLayout, req.newLayout) in TransitionCore.ListedPairs
    ensures TransitionSrc2.TransitionImageLayout(req).Ok? <==> (req.oldLayout, req.newLayout) in TransitionSrc2.ListedPairs
    ensures TransitionDeduce.TransitionImageLayout(req, query).Ok?
            <==> (req.oldLayout, req.newLayout) in TransitionDeduce.ListedPairs
                 || req.newLayout == DepthStencilAttachmentOptimal
    ensures TransitionSrc2.TransitionImageLayout(req).Ok? ==> TransitionCore.TransitionImageLayout(req).Ok?
    ensures TransitionCore.TransitionImageLayout(req).Ok? ==> TransitionDeduce.TransitionImageLayout(req, query).Ok?
  {
  }

  /** Only the deducing variant adjusts the aspect mask: a gated depth
      transition keeps whatever aspect the caller passed. */
  lemma OnlyDeduceRewritesAspect(req: TransitionRequest, query: Formats.FormatQuery)
    requires req.newLayout == DepthStencilAttachmentOptimal
    requires TransitionCore.TransitionImageLayout(req).Ok?
    requires TransitionDeduce.TransitionImageLayout(req, query).Ok?
    ensures TransitionCore.TransitionImageLayout(req).value.range.aspect == req.range.aspect
    ensures DepthAspect in TransitionDeduce.TransitionImageLayout(req, query).value.range.aspect
  {
  }

  /** The colour range both renderers pass for the swapchain image. */
  const SwapchainRange: SubresourceRange := DefaultColorRange

  /** The renderer's transition into the colour-attachment layout. */
  function ToAttachment(o: Overrides): TransitionRequest {
    TransitionRequest(1, Undefined, ColorAttachmentOptimal, SwapchainRange, QUEUE_FAMILY_IGNORED, QUEUE_FAMILY_IGNORED, o)
  }

  /** The renderer's transition into the present layout. */
  function ToPresent(o: Overrides): TransitionRequest {
    TransitionRequest(1, ColorAttachmentOptimal, PresentSrc, SwapchainRange, QUEUE_FAMILY_IGNORED, QUEUE_FAMILY_IGNORED, o)
  }

  /** The overrides `vk_engine.cpp` passes: an explicit `eNone` source access
      and an omitted (`{}`) destination access on the second transition. */
  const EngineToAttachment: Overrides := Overrides(Some({TopOfPipe}), Some({ColorAttachmentOutput}), Some({}), Some({ColorAttachmentWrite}))
  const EngineToPresent: Overrides := Overrides(Some({ColorAttachmentOutput}), Some({BottomOfPipe}), Some({ColorAttachmentWrite}), None)

  /** The overrides `Application.cpp` passes; `{}` for an optional is an absent value. */
  const ApplicationToAttachment: Overrides := Overrides(Some({TopOfPipe}), Some({ColorAttachmentOutput}), None, Some({ColorAttachmentWrite}))
  const ApplicationToPresent: Overrides := Overrides(Some({ColorAttachmentOutput}), Some({BottomOfPipe}), Some({ColorAttachmentWrite}), None)

  /** Each frame of `vk_engine.cpp` brackets rendering with a barrier into
      the attachment layout and one into the present layout; both are accepted
      by the `src/core` transition, form a chain of layouts, and order the
      colour writes correctly. */
  lemma EngineFrameTransitions()
    ensures var a := TransitionCore.TransitionImageLayout(ToAttachment(EngineToAttachment));
            var p := TransitionCore.TransitionImageLayout(ToPresent(EngineToPresent));
            && a == Ok(Barrier(Masks({TopOfPipe}, {}, {ColorAttachmentOutput}, {ColorAttachmentWrite}),
                               Undefined, ColorAttachmentOptimal, QUEUE_FAMILY_IGNORED, QUEUE_FAMILY_IGNORED, SwapchainRange))
            && p == Ok(Barrier(Masks({ColorAttachmentOutput}, {ColorAttachmentWrite}, {BottomOfPipe}, {}),
                               ColorAttachmentOptimal, PresentSrc, QUEUE_FAMILY_IGNORED, QUEUE_FAMILY_IGNORED, SwapchainRange))
            && a.value.newLayout == p.value.oldLayout
            && BarrierSpec.Orders(a.value.masks, Undefined, ColorAttachmentOptimal)
            && BarrierSpec.Orders(p.value.masks, ColorAttachmentOptimal, PresentSrc)
  {
    var a := ToAttachment(EngineToAttachment);
    var p := ToPresent(EngineToPresent);
    assert !TransitionGate.DeductionRuns(a.overrides);
    assert !TransitionGate.DeductionRuns(p.overrides);
  }

  /** `Application.cpp` records the same two barriers through the deducing
      variant; its overrides coincide with the deduced table values. */
  lemma ApplicationFrameTransitions(query: Formats.FormatQuery)
    ensures var a := TransitionDeduce.TransitionImageLayout(ToAttachment(ApplicationToAttachment), query);
            var p := TransitionDeduce.TransitionImageLayout(ToPresent(ApplicationToPresent), query);
            && a == Ok(Barrier(Masks({TopOfPipe}, {}, {ColorAttachmentOutput}, {ColorAttachmentWrite}),
                               Undefined, ColorAttachmentOptimal, QUEUE_FAMILY_IGNORED, QUEUE_FAMILY_IGNORED, SwapchainRange))
            && p == Ok(Barrier(Masks({ColorAttachmentOutput}, {ColorAttachmentWrite}, {BottomOfPipe}, {}),
                               ColorAttachmentOptimal, PresentSrc, QUEUE_FAMILY_IGNORED, QUEUE_FAMILY_IGNORED, SwapchainRange))
            && a == TransitionDeduce.TransitionImageLayout(ToAttachment(NoOverrides), query)
            && p == TransitionDeduce.TransitionImageLayout(ToPresent(NoOverrides), query)
  {
  }
}

=== FILE: transition_core.dfy ===
/** `transitionImageLayout` of `src/core/vk_resource_manager.cpp`: the
    override-gated transition with a four-entry table. */
module TransitionCore {
  import opened VkTypes
  import TransitionGate
  import BarrierSpec

  /** The layout pairs the table lists. */
  const ListedPairs: set<(ImageLayout, ImageLayout)> := {
    (Undefined, TransferDstOptimal),
    (TransferDstOptimal, ShaderReadOnlyOptimal),
    (Undefined, DepthStencilAttachmentOptimal),
    (Undefined, ColorAttachmentOptimal)
  }

  function Table(oldLayout: ImageLayout, newLayout: ImageLayout): (m: Option<Masks>)
    ensures m.Some? <==> (oldLayout, newLayout) in ListedPairs
  {
    if oldLayout == Undefined && newLayout == TransferDstOptimal then
      Some(Masks({TopOfPipe}, {}, {Transfer}, {TransferWrite}))
    else if oldLayout == TransferDstOptimal && newLayout == ShaderReadOnlyOptimal then
      Some(Masks({Transfer}, {TransferWrite}, {FragmentShader}, {ShaderRead}))
    else if oldLayout == Undefined && newLayout == DepthStencilAttachmentOptimal then
      Some(Masks({TopOfPipe}, {}, {EarlyFragmentTests}, {DepthStencilAttachmentWrite, DepthStencilAttachmentRead}))
    else if oldLayout == Undefined && newLayout == ColorAttachmentOptimal then
      Some(Masks({TopOfPipe}, {}, {ColorAttachmentOutput}, {ColorAttachmentWrite}))
    else
      None
  }

  function TransitionImageLayout(req: TransitionRequest): (r: Result<Barrier>)
    ensures r.Err? <==> TransitionGate.DeductionRuns(req.overrides) && (req.oldLayout, req.newLayout) !in ListedPairs
    ensures r.Err? ==> r.error == InvalidTransition
    ensures r.Ok? ==> r.value.range == req.range.(levelCount := req.mipLevels)
    ensures r.Ok? ==> r.value.oldLayout == req.oldLayout && r.value.newLayout == req.newLayout
  {
    TransitionGate.GatedTransition(Table, req)
  }

  /** Every table entry orders the prior use of the old layout before the
      next use of the new one. */
  lemma TableOrdersLayoutUses(oldLayout: ImageLayout, newLayout: ImageLayout)
    requires (oldLayout, newLayout) in ListedPairs
    ensures BarrierSpec.Orders(Table(oldLayout, newLayout).value, oldLayout, newLayout)
  {
  }
}

=== FILE: transition_deduce.dfy ===
/** `transitionImageLayout` as written in `newVersion.cpp` and, identically,
    in `src/resources/ResourceManager.cpp`: the barrier masks are always
    deduced from the (old, new) layout pair first, and the caller's overrides
    then replace individual fields. A pair the deduction chain does not know
    is rejected even when every override is supplied.

    Masks the chain never assigns (the "other pair into a depth layout" arm)
    keep their default-constructed value, the empty flag set. */
module TransitionDeduce {
  import opened VkTypes
  import Formats
  import BarrierSpec

  /** The layout pairs with a deduction arm of their own. */
  const ListedPairs: set<(ImageLayout, ImageLayout)> := {
    (Undefined, TransferDstOptimal),
    (TransferDstOptimal, ShaderReadOnlyOptimal),
    (Undefined, ColorAttachmentOptimal),
    (ColorAttachmentOptimal, PresentSrc),
    (Undefined, DepthStencilAttachmentOptimal)
  }

  const NoMasks: Masks := Masks({}, {}, {}, {})

  /** The masks the deduction chain assigns to a pair, if it lists the pair. */
  function TableMasks(oldLayout: ImageLayout, newLayout: ImageLayout): (m: Option<Masks>)
    ensures m.Some? <==> (oldLayout, newLayout) in ListedPairs
  {
    if oldLayout == Undefined && newLayout == TransferDstOptimal then
      Some(Masks({TopOfPipe}, {}, {Transfer}, {TransferWrite}))
    else if oldLayout == TransferDstOptimal && newLayout == ShaderReadOnlyOptimal then
      Some(Masks({Transfer}, {TransferWrite}, {FragmentShader, ComputeShader}, {ShaderRead}))
    else if oldLayout == Undefined && newLayout == ColorAttachmentOptimal then
      Some(Masks({TopOfPipe}, {}, {ColorAttachmentOutput}, {ColorAttachmentWrite}))
    else if oldLayout == ColorAttachmentOptimal && newLayout == PresentSrc then
      Some(Masks({ColorAttachmentOutput}, {ColorAttachmentWrite}, {BottomOfPipe}, {}))
    else if oldLayout == Undefined && newLayout == DepthStencilAttachmentOptimal then
      Some(Masks({TopOfPipe}, {}, {EarlyFragmentTests}, {DepthStencilAttachmentWrite}))
    else
      None
  }

  /** The aspect a transition into the depth layout uses: depth, plus stencil
      when the device's preferred depth format has a stencil component. */
  function DepthAspects(query: Formats.FormatQuery): (r: Result<set<Aspect>>)
    ensures r.Err? <==> Formats.FindDepthFormat(query).Err?
    ensures r.Err? ==> r.error == NoSupportedFormat
    ensures r.Ok? ==> DepthAspect in r.value && ColorAspect !in r.value
    ensures r.Ok? ==> (StencilAspect in r.value
                       <==> Formats.StencilBits(Formats.FindDepthFormat(query).value) > 0)
  {
    var f :- Formats.FindDepthFormat(query);
    Ok(if Formats.HasStencilComponent(f) then {DepthAspect, StencilAspect} else {DepthAspect})
  }

  /** The barrier recorded for `req`; `query` is the device's format table,
      consulted only for transitions into the depth layout. */
  function TransitionImageLayout(req: TransitionRequest, query: Formats.FormatQuery): (r: Result<Barrier>)
    // rejection does not depend on the overrides
    ensures r == Err(UnsupportedTransition)
            <==> (req.oldLayout, req.newLayout) !in ListedPairs && req.newLayout != DepthStencilAttachmentOptimal
    ensures r == Err(NoSupportedFormat)
            <==> req.newLayout == DepthStencilAttachmentOptimal && Formats.FindDepthFormat(query).Err?
    ensures r.Err? ==> r.error == UnsupportedTransition || r.error == NoSupportedFormat
    // layouts, queue families, mip count and aspect
    ensures r.Ok? ==> && r.value.oldLayout == req.oldLayout && r.value.newLayout == req.newLayout
                      && r.value.srcQueueFamily == req.srcQueueFamily
                      && r.value.dstQueueFamily == req.dstQueueFamily
                      && r.value.range.levelCount == req.mipLevels
                      && r.value.range.baseMipLevel == req.range.baseMipLevel
                      && r.value.range.baseArrayLayer == req.range.baseArrayLayer
                      && r.value.range.layerCount == req.range.layerCount
    ensures r.Ok? && req.newLayout != DepthStencilAttachmentOptimal ==> r.value.range.aspect == req.range.aspect
    ensures r.Ok? && req.newLayout == DepthStencilAttachmentOptimal
            ==> Ok(r.value.range.aspect) == DepthAspects(query)
    // a supplied override always wins, for its own field only
    ensures r.Ok? && req.overrides.srcStage.Some? ==> r.value.masks.srcStage == req.overrides.srcStage.value
    ensures r.Ok? && req.overrides.srcAccess.Some? ==> r.value.masks.srcAccess == req.overrides.srcAccess.value
    ensures r.Ok? && req.overrides.dstStage.Some? ==> r.value.masks.dstStage == req.overrides.dstStage.value
    ensures r.Ok? && req.overrides.dstAccess.Some? ==> r.value.masks.dstAccess == req.overrides.dstAccess.value
    // a missing override takes the table value, or nothing for an unlisted depth pair
    ensures r.Ok? ==> var d := if (req.oldLayout, req.newLayout) in ListedPairs
                               then TableMasks(req.oldLayout, req.newLayout).value else NoMasks;
                      && (req.overrides.srcStage.None? ==> r.value.masks.srcStage == d.srcStage)
                      && (req.overrides.srcAccess.None? ==> r.value.masks.srcAccess == d.srcAccess)
                      && (req.overrides.dstStage.None? ==> r.value.masks.dstStage == d.dstStage)
                      && (req.overrides.dstAccess.None? ==> r.value.masks.dstAccess == d.dstAccess)
  {
    var deduced :-
      match TableMasks(req.oldLayout, req.newLayout)
      case Some(m) => Ok(m)
      case None => if req.newLayout == DepthStencilAttachmentOptimal then Ok(NoMasks) else Err(UnsupportedTransition);
    var aspect :-
      if req.newLayout == DepthStencilAttachmentOptimal then DepthAspects(query) else Ok(req.range.aspect);
    var o := req.overrides;
    Ok(Barrier(
      Masks(o.srcStage.GetOr(deduced.srcStage), o.srcAccess.GetOr(deduced.srcAccess),
            o.dstStage.GetOr(deduced.dstStage), o.dstAccess.GetOr(deduced.dstAccess)),
      req.oldLayout, req.newLayout, req.srcQueueFamily, req.dstQueueFamily,
      req.range.(aspect := aspect, levelCount := req.mipLevels)))
  }

  /** Every deduced table entry orders the prior use of the old layout before
      the next use of the new one. */
  lemma TableOrdersLayoutUses(oldLayout: ImageLayout, newLayout: ImageLayout)
    requires (oldLayout, newLayout) in ListedPairs
    ensures BarrierSpec.Orders(TableMasks(oldLayout, newLayout).value, oldLayout, newLayout)
  {
  }

  /** Without overrides, every accepted listed transition is correctly ordered. */
  lemma DeducedBarrierOrders(req: TransitionRequest, query: Formats.FormatQuery)
    requires req.overrides == NoOverrides
    requires (req.oldLayout, req.newLayout) in ListedPairs
    requires TransitionImageLayout(req, query).Ok?
    ensures BarrierSpec.Orders(TransitionImageLayout(req, query).value.masks, req.oldLayout, req.newLayout)
  {
    TableOrdersLayoutUses(req.oldLayout, req.newLayout);
  }

  /** Any other pair into the depth layout gets empty masks unless the caller
      supplies them: such a barrier orders nothing. */
  lemma OtherDepthPairIsUnordered(req: TransitionRequest, query: Formats.FormatQuery)
    requires req.newLayout == DepthStencilAttachmentOptimal && req.oldLayout != Undefined
    requires req.overrides == NoOverrides
    requires Formats.FindDepthFormat(query).Ok?
    ensures TransitionImageLayout(req, query).Ok?
    ensures TransitionImageLayout(req, query).value.masks == NoMasks
    ensures !BarrierSpec.Orders(TransitionImageLayout(req, query).value.masks, req.oldLayout, req.newLayout)
  {
  }

  /** Two calls that differ only in their overrides are accepted or rejected
      alike, and agree on every field whose override they share. */
  lemma OverridesAreLocal(req1: TransitionRequest, req2: TransitionRequest, query: Formats.FormatQuery)
    requires req1.(overrides := req2.overrides) == req2
    ensures TransitionImageLayout(req1, query).Ok? <==> TransitionImageLayout(req2, query).Ok?
    ensures TransitionImageLayout(req1, query).Ok? ==>
              var b1, b2 := TransitionImageLayout(req1, query).value, TransitionImageLayout(req2, query).value;
              && b1.(masks := b2.masks) == b2
              && (req1.overrides.srcStage == req2.overrides.srcStage ==> b1.masks.srcStage == b2.masks.srcStage)
              && (req1.overrides.srcAccess == req2.overrides.srcAccess ==> b1.masks.srcAccess == b2.masks.srcAccess)
              && (req1.overrides.dstStage == req2.overrides.dstStage ==> b1.masks.dstStage == b2.masks.dstStage)
              && (req1.overrides.dstAccess == req2.overrides.dstAccess ==> b1.masks.dstAccess == b2.masks.dstAccess)
  {
  }
}

=== FILE: transition_gate.dfy ===
/** The override-gated shape of `transitionImageLayout` shared by
    `src/core/vk_resource_manager.cpp` and `src2/core/vk_resource_manager.cpp`:
    every mask starts as its override or the empty set, and the table is
    consulted only when both stage masks are still empty. When it is
    consulted it overwrites all four masks, including supplied access
    overrides. The aspect mask is never touched. The two files differ only in
    their tables (modules `TransitionCore` and `TransitionSrc2`). */
module TransitionGate {
  import opened VkTypes

  /** A deduction table: the masks for the pairs it lists. */
  type Table = (ImageLayout, ImageLayout) -> Option<Masks>

  /** Both stage masks are empty after defaulting, so the table decides. An
      explicit empty override counts exactly like a missing one. */
  predicate DeductionRuns(o: Overrides) {
    o.srcStage.GetOr({}) == {} && o.dstStage.GetOr({}) == {}
  }

  function GatedTransition(table: Table, req: TransitionRequest): (r: Result<Barrier>)
    ensures r.Err? <==> DeductionRuns(req.overrides) && table(req.oldLayout, req.newLayout).None?
    ensures r.Err? ==> r.error == InvalidTransition
    ensures r.Ok? && DeductionRuns(req.overrides) ==> r.value.masks == table(req.oldLayout, req.newLayout).value
    ensures r.Ok? && !DeductionRuns(req.overrides) ==>
              var o := req.overrides;
              r.value.masks == Masks(o.srcStage.GetOr({}), o.srcAccess.GetOr({}), o.dstStage.GetOr({}), o.dstAccess.GetOr({}))
    ensures r.Ok? ==> && r.value.oldLayout == req.oldLayout && r.value.newLayout == req.newLayout
                      && r.value.srcQueueFamily == req.srcQueueFamily
                      && r.value.dstQueueFamily == req.dstQueueFamily
                      && r.value.range == req.range.(levelCount := req.mipLevels)
  {
    var o := req.overrides;
    var supplied := Masks(o.srcStage.GetOr({}), o.srcAccess.GetOr({}), o.dstStage.GetOr({}), o.dstAccess.GetOr({}));
    var masks :-
      if supplied.srcStage == {} && supplied.dstStage == {} then
        match table(req.oldLayout, req.newLayout)
        case Some(m) => Ok(m)
        case None => Err(InvalidTransition)
      else
        Ok(supplied);
    Ok(Barrier(masks, req.oldLayout, req.newLayout, req.srcQueueFamily, req.dstQueueFamily,
               req.range.(levelCount := req.mipLevels)))
  }

  /** Writing `eNone` explicitly is indistinguishable from leaving an override out. */
  lemma ExplicitNoneIsAbsent(table: Table, req: TransitionRequest)
    ensures var o := req.overrides;
            var cleared := Overrides(
              if o.srcStage == Some({}) then None else o.srcStage,
              if o.dstStage == Some({}) then None else o.dstStage,
              if o.srcAccess == Some({}) then None else o.srcAccess,
              if o.dstAccess == Some({}) then None else o.dstAccess);
            GatedTransition(table, req) == GatedTransition(table, req.(overrides := cleared))
  {
  }

  /** While the table decides, access overrides have no effect at all. */
  lemma AccessOverridesIgnoredWhenDeducing(table: Table, req: TransitionRequest, srcAccess: Option<AccessMask>, dstAccess: Option<AccessMask>)
    requires DeductionRuns(req.overrides)
    ensures GatedTransition(table, req)
            == GatedTransition(table, req.(overrides := req.overrides.(srcAccess := srcAccess, dstAccess := dstAccess)))
  {
  }

  /** A non-empty stage override makes every layout pair acceptable. */
  lemma StageOverrideAcceptsAnyPair(table: Table, req: TransitionRequest)
    requires req.overrides.srcStage.GetOr({}) != {} || req.overrides.dstStage.GetOr({}) != {}
    ensures GatedTransition(table, req).Ok?
  {
  }
}

=== FILE: transition_src2.dfy ===
/** `transitionImageLayout` of `src2/core/vk_resource_manager.cpp`: the
    override-gated transition with a three-entry table (no colour-attachment
    or present pair). */
module TransitionSrc2 {
  import opened VkTypes
  import TransitionGate
  import BarrierSpec

  /** The layout pairs the table lists. */
  const ListedPairs: set<(ImageLayout, ImageLayout)> := {
    (Undefined, TransferDstOptimal),
    (TransferDstOptimal, ShaderReadOnlyOptimal),
    (Undefined, DepthStencilAttachmentOptimal)
  }

  function Table(oldLayout: ImageLayout, newLayout: ImageLayout): (m: Option<Masks>)
    ensures m.Some? <==> (oldLayout, newLayout) in ListedPairs
  {
    if oldLayout == Undefined && newLayout == TransferDstOptimal then
      Some(Masks({TopOfPipe}, {}, {Transfer}, {TransferWrite}))
    else if oldLayout == TransferDstOptimal && newLayout == ShaderReadOnlyOptimal then
      Some(Masks({Transfer}, {TransferWrite}, {FragmentShader}, {ShaderRead}))
    else if oldLayout == Undefined && newLayout == DepthStencilAttachmentOptimal then
      Some(Masks({TopOfPipe}, {}, {EarlyFragmentTests}, {DepthStencilAttachmentWrite, DepthStencilAttachmentRead}))
    else
      None
  }

  function TransitionImageLayout(req: TransitionRequest): (r: Result<Barrier>)
    ensures r.Err? <==> TransitionGate.DeductionRuns(req.overrides) && (req.oldLayout, req.newLayout) !in ListedPairs
    ensures r.Err? ==> r.error == InvalidTransition
    ensures r.Ok? ==> r.value.range == req.range.(levelCount := req.mipLevels)
    ensures r.Ok? ==> r.value.oldLayout == req.oldLayout && r.value.newLayout == req.newLayout
  {
    TransitionGate.GatedTransition(Table, req)
  }

  /** Every table entry orders the prior use of the old layout before the
      next use of the new one. */
  lemma TableOrdersLayoutUses(oldLayout: ImageLayout, newLayout: ImageLayout)
    requires (oldLayout, newLayout) in ListedPairs
    ensures BarrierSpec.Orders(Table(oldLayout, newLayout).value, oldLayout, newLayout)
  {
  }

  /** The colour-attachment and present transitions the renderer records are
      rejected unless a stage override is supplied. */
  lemma AttachmentPairsNeedStageOverride(req: TransitionRequest)
    requires (req.oldLayout, req.newLayout) in {(Undefined, ColorAttachmentOptimal), (ColorAttachmentOptimal, PresentSrc)}
    ensures TransitionImageLayout(req).Err? <==> TransitionGate.DeductionRuns(req.overrides)
  {
  }
}

=== FILE: vk_types.dfy ===
/** Vocabulary shared by every module of the model: the Vulkan enumerations the
    engine decides over, the error kinds its routines throw, and the
    failure-compatible Option/Result wrappers used in place of exceptions.

    Bit-flag types of the API (stage masks, access masks, aspect masks,
    feature flags) are modelled as sets of their flag bits; the API's
    `eNone` value is the empty set. */
module VkTypes {

  /** Largest value of a 32-bit unsigned integer; the engine uses it as the
      "no such queue family" sentinel and the surface uses it as the
      "extent chosen by the application" marker. */
  const UINT32_MAX: nat := 0xFFFF_FFFF

  /** Queue family index meaning "no ownership transfer" (`VK_QUEUE_FAMILY_IGNORED`). */
  const QUEUE_FAMILY_IGNORED: nat := UINT32_MAX

  /** Number of frames the CPU may record ahead of the GPU. */
  const MAX_FRAMES_IN_FLIGHT: nat := 2

  datatype Option<+T> = None | Some(value: T) {
    predicate IsFailure() { None? }

    function PropagateFailure<U>(): Option<U>
      requires None?
    {
      None
    }

    function Extract(): T
      requires Some?
    {
      value
    }

    /** The value, or `default` when absent: `std::optional::value_or`. */
    function GetOr(default: T): T {
      match this
      case Some(v) => v
      case None => default
    }
  }

  /** The exceptions thrown by the modelled routines. */
  datatype Error =
    | UnsupportedTransition      // runtime_error "Unsupported automatic layout transition!"
    | InvalidTransition          // invalid_argument "unsupported layout transition"
    | NoSupportedFormat
    | NoMemoryType
    | NoLinearBlit
    | TextureLoadFailed(path: string)
    | NoGpu
    | NoSuitableGpu
    | MissingQueueFamily
    | AcquireFailed
    | PresentFailed
    | ModelLoadFailed(message: string)
    | AllocationFailed

  datatype Result<+T> = Ok(value: T) | Err(error: Error) {
    predicate IsFailure() { Err? }

    function PropagateFailure<U>(): Result<U>
      requires Err?
    {
      Err(error)
    }

    function Extract(): T
      requires Ok?
    {
      value
    }
  }

  datatype ImageLayout =
    | Undefined
    | TransferDstOptimal
    | TransferSrcOptimal
    | ShaderReadOnlyOptimal
    | ColorAttachmentOptimal
    | DepthStencilAttachmentOptimal
    | PresentSrc
    | General

  datatype PipelineStage =
    | TopOfPipe
    | Transfer
    | VertexShader
    | FragmentShader
    | ComputeShader
    | EarlyFragmentTests
    | LateFragmentTests
    | ColorAttachmentOutput
    | BottomOfPipe

  datatype Access =
    | TransferRead
    | TransferWrite
    | ShaderRead
    | ShaderWrite
    | ColorAttachmentRead
    | ColorAttachmentWrite
    | DepthStencilAttachmentRead
    | DepthStencilAttachmentWrite

  type StageMask = set<PipelineStage>
  type AccessMask = set<Access>

  datatype Aspect = ColorAspect | DepthAspect | StencilAspect

  datatype Format =
    | FormatUndefined
    | B8G8R8A8Srgb
    | B8G8R8A8Unorm
    | R8G8B8A8Srgb
    | D32Sfloat
    | D32SfloatS8Uint
    | D24UnormS8Uint
    | D16UnormS8Uint
    | S8Uint
    // any other format; none of them has a stencil component
    | OtherFormat(code: nat)

  datatype ImageTiling = Linear | Optimal

  datatype FormatFeature =
    | SampledImage
    | SampledImageFilterLinear
    | ColorAttachmentFeature
    | DepthStencilAttachmentFeature
    | BlitSrc
    | BlitDst

  /** What the device reports for one format. */
  datatype FormatProperties = FormatProperties(
    linearTilingFeatures: set<FormatFeature>,
    optimalTilingFeatures: set<FormatFeature>)

  datatype MemoryProperty = DeviceLocal | HostVisible | HostCoherent | HostCached

  datatype QueueFlag = GraphicsQueue | ComputeQueue | TransferQueue | SparseBindingQueue

  datatype ImageUsage =
    | TransferSrcUsage
    | TransferDstUsage
    | SampledUsage
    | ColorAttachmentUsage
    | DepthStencilAttachmentUsage
    | TransientAttachmentUsage

  datatype SharingMode = Exclusive | Concurrent

  datatype PresentMode = Immediate | Mailbox | Fifo | FifoRelaxed

  datatype ColorSpace = SrgbNonlinear | OtherColorSpace(code: nat)

  datatype Extent = Extent(width: nat, height: nat)

  /** Which mip levels, array layers and aspects a barrier applies to. */
  datatype SubresourceRange = SubresourceRange(
    aspect: set<Aspect>,
    baseMipLevel: nat,
    levelCount: nat,
    baseArrayLayer: nat,
    layerCount: nat)

  /** The default range of the transition helpers: colour, level 0, one
      level, layer 0, one layer. */
  const DefaultColorRange: SubresourceRange := SubresourceRange({ColorAspect}, 0, 1, 0, 1)

  /** The four synchronisation scopes of an image memory barrier. */
  datatype Masks = Masks(
    srcStage: StageMask,
    srcAccess: AccessMask,
    dstStage: StageMask,
    dstAccess: AccessMask)

  /** A recorded `VkImageMemoryBarrier2`, minus the image handle. */
  datatype Barrier = Barrier(
    masks: Masks,
    oldLayout: ImageLayout,
    newLayout: ImageLayout,
    srcQueueFamily: nat,
    dstQueueFamily: nat,
    range: SubresourceRange)

  /** The four optional mask overrides of `transitionImageLayout`. */
  datatype Overrides = Overrides(
    srcStage: Option<StageMask>,
    dstStage: Option<StageMask>,
    srcAccess: Option<AccessMask>,
    dstAccess: Option<AccessMask>)

  const NoOverrides: Overrides := Overrides(None, None, None, None)

  /** The arguments of one `transitionImageLayout` call. */
  datatype TransitionRequest = TransitionRequest(
    mipLevels: nat,
    oldLayout: ImageLayout,
    newLayout: ImageLayout,
    range: SubresourceRange,
    srcQueueFamily: nat,
    dstQueueFamily: nat,
    overrides: Overrides)
}
